=== FILE: README.md ===
# nvcore-rs SELECT builder, modelled in Dafny

This project models the SELECT-statement builder of nvcore-rs (`src/sqlbuilder`):

- **`NvSelect`** is the statement node. It holds the selected fields and optional FROM, WHERE, GROUP BY and ORDER BY collections. It also holds any number of JOIN blocks.
- **Collections** are reached through `from()`, `where_()`, `join()`, `group_by()` and `order_by()`. Each is closed again with its `end_*_block` call.
- **Subqueries** are nested `NvSelect` nodes. They hang off a FROM slot or a WHERE condition and are closed with `end_subquery_inside_from` or `end_subquery_inside_where_condition`.
- **`generate_query`** renders the tree in a fixed section order, in compact or pretty form.

The heart of the model is the **parameter-index protocol**:

- every statement starts numbering at 1;
- a bound fragment records the index it starts at and advances the counter by its arity (BETWEEN with two values takes 2, IN takes as many as it has values, anything else takes 1);
- a dynamic function field takes one index per `v` in its format, up to the number of values given;
- a child collection or subquery starts from a snapshot of its parent's counter;
- closing a child hands its counter back to its owner. The code as written drops the counter in several places; the model keeps both forms (see Findings).

The model is functional:

- every builder call is a pure function from the old state to the new one;
- an open collection is a value that returns to its owner when its block is ended;
- the bound values are a `seq<V>`. In the source the statement and the WHERE collection each hold an `Arc<Vec<T>>` (nv_select.rs:16, where_statement.rs:203), and the FROM collection holds an `Arc<RwLock<Vec<T>>>` (from_statement.rs:40). The model reads all three as one shared list, which is what the clones of nv_select.rs:227 and 240 evidently intend; that reading rests on code that does not compile (see below). Every collection handed out, new or reused, gets the statement's current list, and closing a block gives the statement the collection's list. No counter travels this way;
- a parent pointer is a `ParentLink`: no parent, a FROM slot, or a WHERE condition slot.

Modules follow the source files:

| module | file |
|---|---|
| `Wrappers` | `Result` and `Option` |
| `StringUtils` | string_utils.rs, plus joining and decimal printing |
| `Def` | def.rs |
| `Field` | field.rs |
| `Where` | where_statement.rs |
| `From` | from_statement.rs |
| `Join` | join_statement.rs |
| `GroupBy` | group_by.rs |
| `OrderBy` | order_by.rs |
| `Select` | nv_select.rs |
| `Builder` | a script interpreter over the builder calls |

`Builder` replays scripts of calls over the corrected members and states the protocol's end-to-end invariant for them: after any script, the counter has advanced by exactly the script's arity, and the value list has grown by exactly the script's values, in order.

Points where the code behaves differently from what its names suggest, modelled as the code has them:

- **BETWEEN and IN placeholders.** A BETWEEN or IN condition renders one placeholder (where_statement.rs:174-181), not `BETWEEN $i AND $i+1` or one placeholder per value. As written that placeholder is the last index the condition consumes. With the corrected comparator it is the first.
- **Placeholder text.** Condition and dynamic-function placeholders render through a private stub, `param{n}` (where_statement.rs:195-198, field.rs:311-314). The dialect formatter `$n` / `:n` (def.rs:205-210) exists but is not called from there. Both are modelled: `Def.StubPlaceholder` and `Def.DetermineParameterFormat`.
- **Subquery conditions in WHERE.** A WHERE subquery condition renders the stub text of where_statement.rs:190-193, not the nested statement.
- **FROM subquery alias.** A FROM subquery renders as `"(\n" + text + alias + ")"` (from_statement.rs:151-158), so the alias lands inside the parenthesis.
- **Values of dynamic functions.** `fn_dynamic` does not add its values to the statement's shared value list (nv_select.rs:297-318). The model keeps it that way.
- **Code that does not compile.** Several lines of the source do not type-check as written. The model gives each its evident meaning:
  - `push` through an `Arc<Vec<T>>` in `add_condition`, `add_condition_between` and `add_condition_in` (where_statement.rs:284, 298-299, 328). The model appends the values to the shared list.
  - `from()` passes an `Arc<Vec<T>>` and a `*mut Self` (nv_select.rs:226-232) to `FromTableStatement::new`, which takes an `Arc<RwLock<Vec<T>>>` and an `Arc<NvSelect<T>>` (from_statement.rs:47-53). The model creates the FROM collection on the statement's list and links it to the statement.
  - `create_new_select_block` passes the FROM collection's `Arc<RwLock<Vec<T>>>` and an `Arc<Self>` (from_statement.rs:171-178) to `new_subquery_from`, which takes an `Arc<Vec<T>>` and a `*mut FromTableStatement<T>` (nv_select.rs:90-96). The model starts the nested statement on the same list, linked to its FROM slot.
  - `new_with_subquery` is called at where_statement.rs:116 but never defined. The model builds a subquery condition.

Each defect listed under Findings is modelled twice: a member named `…AsWritten` that does what the code does, and a corrected member. The renderer `Select.Render` takes a `Def.Reading`:

- `AsWritten` renders through `From.IsEmptyAsWritten`, `From.GenerateQueryAsWritten` and `Field.BuildFunctionWithDynamicParametersAsWritten`;
- `Corrected` renders through `From.IsEmpty`, `From.GenerateQuery` and `Field.BuildFunctionWithDynamicParameters`.

Builder calls come in both forms where they differ, for example `Where.AddConditionAsWritten` and `Where.AddCondition`. Rows below that state a corrected member say so.

## Model

| member | source | states |
|---|---|---|
| StringUtils.IndentSpace | nvcore-rs/src/utils/strings/string_utils.rs:1-5 | indentation for level n is exactly 2n spaces |
| StringUtils.IndentSpaceAdd | nvcore-rs/src/utils/strings/string_utils.rs:1-5 | indentation is additive in the level, so nested levels stack |
| StringUtils.SeparatedConcat | nvcore-rs/src/sqlbuilder/group_by.rs:118-131 | the "push separator unless first" loop the collections use equals joining the parts with the separator |
| StringUtils.JoinAppend | nvcore-rs/src/sqlbuilder/order_by.rs:129-142 | appending one more part to a separated list adds the separator only when the list was non-empty |
| StringUtils.JoinConcat | nvcore-rs/src/sqlbuilder/from_statement.rs:116-163 | two non-empty separated lists joined back to back put one separator between them |
| StringUtils.ConcatAppend | nvcore-rs/src/sqlbuilder/where_statement.rs:258-269 | gluing fragments with no separator is associative with appending one more |
| StringUtils.Decimal | nvcore-rs/src/sqlbuilder/def.rs:205-210 | a parameter index prints as a non-empty digit string with no leading zero unless it is 0 |
| StringUtils.ParseDecimalRoundTrip | nvcore-rs/src/sqlbuilder/def.rs:205-210 | reading back the printed index gives the index |
| StringUtils.DecimalInjective | nvcore-rs/src/sqlbuilder/def.rs:205-210 | distinct indices print differently |
| Def.DialectDisplay | nvcore-rs/src/sqlbuilder/def.rs:67-74 | PostgreSQL and Oracle display under their own names, each name belonging to exactly one dialect |
| Def.SqlOperatorToString | nvcore-rs/src/sqlbuilder/def.rs:213-225 | the operator spelling agrees with the operator's Display text |
| Def.OperatorStringsDistinct | nvcore-rs/src/sqlbuilder/def.rs:213-225 | no two operators share a spelling |
| Def.LogicOperatorToString | nvcore-rs/src/sqlbuilder/def.rs:228-233 | AND and OR each spell exactly one connector, in agreement with Display |
| Def.DetermineParameterFormat | nvcore-rs/src/sqlbuilder/def.rs:205-210 | a placeholder is the dialect's sigil (`$` for PostgreSQL, `:` for Oracle) followed by digits |
| Def.PlaceholderRoundTrip | nvcore-rs/src/sqlbuilder/def.rs:205-210 | dialect and index can be read back from the placeholder |
| Def.PlaceholderInjective | nvcore-rs/src/sqlbuilder/def.rs:205-210 | two placeholders are equal only for the same dialect and index |
| Def.StubPlaceholder | nvcore-rs/src/sqlbuilder/field.rs:311-314 | the private stub renders `param` followed by decimal digits, and those digits read back as the index |
| Def.StubPlaceholderInjective | nvcore-rs/src/sqlbuilder/where_statement.rs:195-198 | distinct indices give distinct stub placeholders |
| Def.GenerateIndentation | nvcore-rs/src/sqlbuilder/def.rs:236-239 | indentation is `number_per_print * level` copies of the indent character |
| Def.IndentSpaceIsGenerateIndentation | nvcore-rs/src/sqlbuilder/nv_select.rs:437-439 | the statement's indentation agrees with the two-space helper |
| Field.NewFieldDefBindsNothing | nvcore-rs/src/sqlbuilder/field.rs:45-72 | a column field binds no index and carries no function values or literals |
| Field.NewStaticFunctionBindsNothing | nvcore-rs/src/sqlbuilder/field.rs:74-98 | a static function field binds no index and has no aggregate or table alias |
| Field.ProcessLoop | nvcore-rs/src/sqlbuilder/field.rs:135-156 | the index walk advances once per `v` while values remain |
| Field.ProcessFunctionParameterIndex | nvcore-rs/src/sqlbuilder/field.rs:135-156 | a dynamic function advances the counter by min(number of `v` in the format, number of values); an empty format advances nothing |
| Field.NewDynamicFunction | nvcore-rs/src/sqlbuilder/field.rs:100-133 | a dynamic function starts at the given index and ends min(#v, #values) later, keeping its format, values and literals |
| Field.BuildFieldWrapping | nvcore-rs/src/sqlbuilder/field.rs:158-188 | DISTINCT prefixes the column, another aggregate wraps it in `NAME(...)`, none leaves it bare; the alias follows in each case |
| Field.BuildFunctionWithStaticParameters | nvcore-rs/src/sqlbuilder/field.rs:232-248 | a static call renders the name, then its literals comma-separated in parentheses, then the alias |
| Field.ArgWalkValueIndices | nvcore-rs/src/sqlbuilder/field.rs:190-230 | the argument walk emits consecutive placeholder indices, one per served `v` |
| Field.ArgWalkStaticTexts | nvcore-rs/src/sqlbuilder/field.rs:190-230 | the argument walk emits the literals in order, one per served `s` |
| Field.DynamicLoop | nvcore-rs/src/sqlbuilder/field.rs:190-230 | the corrected argument loop renders exactly the walked arguments, comma-separated |
| Field.BuildFunctionWithDynamicParameters | nvcore-rs/src/sqlbuilder/field.rs:190-230 | a dynamic call renders the name and its walked arguments comma-separated in parentheses, then the alias |
| Field.DynamicLoopAsWrittenAgreesWhenServed | nvcore-rs/src/sqlbuilder/field.rs:196-226 | the loop as written agrees with the corrected one whenever every `s` has a literal and every `v` has a value |
| Field.StraySeparatorLoops | nvcore-rs/src/sqlbuilder/field.rs:196-226 | format `vsv` with no literals: the loop as written emits an empty argument between two separators, the corrected loop does not |
| Field.DynamicStraySeparatorAsWritten | nvcore-rs/src/sqlbuilder/field.rs:190-230 | counterexample: `f(param1, , param2)` as written against `f(param1, param2)` corrected |
| Field.DynamicFunctionPlaceholders | nvcore-rs/src/sqlbuilder/field.rs:100-133 | the placeholders a dynamic function renders are exactly the indices it reserved, from its start up to the counter it hands back, and its literals appear in order |
| Field.RawAndTypedRenderAlike | nvcore-rs/src/sqlbuilder/field.rs:290-297 | raw and typed columns render identically |
| Field.BuildFunctionWithDynamicParametersAsWritten | nvcore-rs/src/sqlbuilder/field.rs:190-230 | as written: renders like the corrected call whenever every `s` of the format finds a literal and every `v` a value |
| Field.GenerateQuery | nvcore-rs/src/sqlbuilder/field.rs:290-297 | the mode picks the renderer: columns through `build_field`, static calls as the name and its literals in parentheses, dynamic calls as the name and the walked arguments (corrected, or as written when every `s` and `v` is served) and otherwise through the loop as written |
| Field.ReadingsDifferOnStraySeparator | nvcore-rs/src/sqlbuilder/field.rs:190-230 | counterexample: the `vsv` call with two values and no literals is not served, and renders `f(param1, , param2)` as written against `f(param1, param2)` corrected |
| Where.Process | nvcore-rs/src/sqlbuilder/where_statement.rs:45-51 | arity: BETWEEN with two values consumes 2, IN consumes its value count, everything else consumes 1 |
| Where.ComparatorAsWrittenStartsPastIndex | nvcore-rs/src/sqlbuilder/where_statement.rs:53-77 | as written the comparator stores the advanced index as its start, which is past the index it was given |
| Where.ComparatorStartsAtIndex | nvcore-rs/src/sqlbuilder/where_statement.rs:53-77 | corrected: the comparator starts at the index it was given and reserves its arity after it |
| Where.NewSubquery | nvcore-rs/src/sqlbuilder/where_statement.rs:102-134 | a subquery condition binds no index itself and owns its nested statement under the given name |
| Where.ConditionTexts | nvcore-rs/src/sqlbuilder/where_statement.rs:258-269 | every condition is rendered, one text per condition, in order |
| Where.GenerateCondition | nvcore-rs/src/sqlbuilder/where_statement.rs:152-188 | a comparator renders one placeholder, the one at its start index, whatever its arity; a subquery condition renders `field op ()` and its alias, not the nested statement; connectors and group delimiters render literally |
| Where.GenerateQuery | nvcore-rs/src/sqlbuilder/where_statement.rs:258-269 | the conditions' texts in insertion order with nothing in between, after `WHERE ` when asked; no conditions leave only the keyword, or nothing |
| Where.GenerateQueryIgnoresPrettyPrint | nvcore-rs/src/sqlbuilder/where_statement.rs:152-188 | the pretty flag changes nothing in a WHERE collection's text |
| Where.NewStartsAtOne | nvcore-rs/src/sqlbuilder/where_statement.rs:211-220 | a free-standing WHERE collection has no parent, no conditions and numbers from 1 |
| Where.NewWithParentResumes | nvcore-rs/src/sqlbuilder/where_statement.rs:222-237 | a nested WHERE collection starts from its parent's counter and values |
| Where.UpdateCurrentParameterIndex | nvcore-rs/src/sqlbuilder/where_statement.rs:239-241 | the counter takes the given index and nothing else changes: conditions, values, link, level and dialect are as before |
| Where.AddCondition | nvcore-rs/src/sqlbuilder/where_statement.rs:271-287 | corrected: a comparator is appended at the current index, the counter moves one on and the value joins the list |
| Where.AddConditionAsWritten | nvcore-rs/src/sqlbuilder/where_statement.rs:271-287 | as written the appended comparator's start equals the advanced counter |
| Where.AddConditionBetween | nvcore-rs/src/sqlbuilder/where_statement.rs:289-311 | corrected: BETWEEN consumes two indices from the current one and adds both values in order |
| Where.AddConditionIn | nvcore-rs/src/sqlbuilder/where_statement.rs:313-332 | corrected: IN consumes one index per value and adds them all in order; with no values nothing advances |
| Where.AddConditionBetweenAsWritten | nvcore-rs/src/sqlbuilder/where_statement.rs:289-311 | as written: BETWEEN on the named field adds both values and advances the counter by two, and the comparator's start is the advanced counter |
| Where.AddConditionInAsWritten | nvcore-rs/src/sqlbuilder/where_statement.rs:313-332 | as written: IN on the named field adds its values and advances the counter by their number, and the comparator's start is the advanced counter |
| Where.And | nvcore-rs/src/sqlbuilder/where_statement.rs:334-342 | a connector binds nothing and renders `AND` |
| Where.Or | nvcore-rs/src/sqlbuilder/where_statement.rs:344-352 | a connector binds nothing and renders `OR` |
| Where.OpenGroup | nvcore-rs/src/sqlbuilder/where_statement.rs:354-362 | a group opener binds nothing and renders `(` |
| Where.CloseGroup | nvcore-rs/src/sqlbuilder/where_statement.rs:364-372 | a group closer binds nothing and renders `)` |
| Where.AddSubquery | nvcore-rs/src/sqlbuilder/where_statement.rs:374-393 | a subquery condition is appended one level deeper at the current index, binding nothing |
| Where.WhereKeywordPrefix | nvcore-rs/src/sqlbuilder/where_statement.rs:258-269 | asking for the keyword prefixes exactly `WHERE ` |
| Where.ConditionTextsAppend | nvcore-rs/src/sqlbuilder/where_statement.rs:152-188 | rendering distributes over appending a condition |
| Where.GenerateQueryAppend | nvcore-rs/src/sqlbuilder/where_statement.rs:258-269 | each new fragment's text is glued to the previous text with no separator |
| Where.ConditionRendersCurrentIndex | nvcore-rs/src/sqlbuilder/where_statement.rs:152-188 | corrected: a comparator added at index n renders `field op param{n}` after the existing text |
| Where.BetweenRendersOnePlaceholder | nvcore-rs/src/sqlbuilder/where_statement.rs:152-188 | corrected: BETWEEN renders a single placeholder, its first index |
| Where.InRendersOnePlaceholder | nvcore-rs/src/sqlbuilder/where_statement.rs:152-188 | corrected: IN renders a single placeholder, its first index |
| Where.ConditionRendersNextIndexAsWritten | nvcore-rs/src/sqlbuilder/where_statement.rs:271-287 | as written: a comparator added at index n renders `field op param{n+1}` after the existing text |
| Where.BetweenRendersPastIndicesAsWritten | nvcore-rs/src/sqlbuilder/where_statement.rs:289-311 | as written: BETWEEN added at index n renders the single placeholder `param{n+2}` |
| Where.InRendersPastIndicesAsWritten | nvcore-rs/src/sqlbuilder/where_statement.rs:313-332 | as written: IN with k values added at index n renders the single placeholder `param{n+k}` |
| Where.ConnectorsRenderLiterally | nvcore-rs/src/sqlbuilder/where_statement.rs:334-372 | AND, OR, `(` and `)` are glued to the text with no added spacing |
| From.NewFromTable | nvcore-rs/src/sqlbuilder/from_statement.rs:14-19 | a fresh table entry has an empty name and no alias |
| From.BuildTableName | nvcore-rs/src/sqlbuilder/from_statement.rs:28-33 | a table renders as its name, followed by ` AS alias` when aliased |
| From.NewStartsEmpty | nvcore-rs/src/sqlbuilder/from_statement.rs:47-63 | a FROM collection starts empty from its parent's counter and values |
| From.AddTable | nvcore-rs/src/sqlbuilder/from_statement.rs:65-69 | the table is appended and nothing else changes |
| From.AddTableWithAlias | nvcore-rs/src/sqlbuilder/from_statement.rs:71-81 | the appended table renders with its alias and nothing else changes |
| From.UpdateCurrentParameterIndex | nvcore-rs/src/sqlbuilder/from_statement.rs:87-89 | only the counter changes |
| From.AppendSubquery | nvcore-rs/src/sqlbuilder/from_statement.rs:95-99 | the subquery is appended and nothing else changes |
| From.IsEmptyAsWritten | nvcore-rs/src/sqlbuilder/from_statement.rs:101-103 | as written: empty exactly when there is no table entry; every collection empty in the corrected sense is empty here too |
| From.IsEmpty | nvcore-rs/src/sqlbuilder/from_statement.rs:101-103 | corrected: empty exactly when the collection has no entry to list, whatever its subqueries would render to |
| From.TableEntries | nvcore-rs/src/sqlbuilder/from_statement.rs:127-138 | every table is rendered, in order |
| From.SubqueryEntries | nvcore-rs/src/sqlbuilder/from_statement.rs:140-161 | every subquery is rendered, in order |
| From.TwoLoopsJoin | nvcore-rs/src/sqlbuilder/from_statement.rs:127-161 | the tables loop followed by the subquery loop gives one separated list of all entries |
| From.GenerateQuery | nvcore-rs/src/sqlbuilder/from_statement.rs:116-163 | corrected: tables then subqueries, separated; an empty collection renders nothing, and any subquery makes the text non-empty |
| From.NamedTableRendersText | nvcore-rs/src/sqlbuilder/from_statement.rs:127-138 | a table whose name is not empty always shows in the list, in either layout |
| From.UnnamedTableRendersNothing | nvcore-rs/src/sqlbuilder/from_statement.rs:14-19 | a table made by `FromTable::new` has an empty name: the collection is not empty, yet its compact list is the empty text |
| From.SubqueryKeepsText | nvcore-rs/src/sqlbuilder/from_statement.rs:151-158 | a list ending in a non-empty subquery entry renders non-empty |
| From.JoinContains | nvcore-rs/src/sqlbuilder/from_statement.rs:116-163 | a separated list is at least as long as any of its parts |
| From.SubqueryLoopAgreesAfterFirst | nvcore-rs/src/sqlbuilder/from_statement.rs:140-161 | once a table was emitted, the subquery loop as written separates like the corrected one |
| From.GenerateQueryAsWrittenAgrees | nvcore-rs/src/sqlbuilder/from_statement.rs:116-163 | the renderer as written agrees with the corrected one when a table is present or at most one subquery is |
| From.SubquerySeparatorAsWritten | nvcore-rs/src/sqlbuilder/from_statement.rs:140-161 | counterexample: two subqueries and no table render back to back as written, separated when corrected |
| From.IsEmptyIgnoresSubqueries | nvcore-rs/src/sqlbuilder/from_statement.rs:101-103 | counterexample: a FROM of subqueries only counts as empty as written, though it renders text; the corrected test does not |
| Join.NewRecordKey | nvcore-rs/src/sqlbuilder/join_statement.rs:15-22 | a fresh key is blank and uninitialised |
| Join.RecordKeyWithAlias | nvcore-rs/src/sqlbuilder/join_statement.rs:24-31 | a key made with an alias keeps table, field and alias and is initialised |
| Join.BuildField | nvcore-rs/src/sqlbuilder/join_statement.rs:33-38 | a key renders `qualifier.field`, the qualifier being the alias or else the table |
| Join.BuildTableName | nvcore-rs/src/sqlbuilder/join_statement.rs:40-45 | a key's table renders as its name, followed by ` AS alias` when aliased |
| Join.NewRecordKeyBothKeepsKeys | nvcore-rs/src/sqlbuilder/join_statement.rs:62-81 | a keyed join keeps both keys and its join type |
| Join.NewSubquerySelectStringKeepsParts | nvcore-rs/src/sqlbuilder/join_statement.rs:83-104 | a string-subquery join keeps its key, text, field key and alias |
| Join.NewSubquerySelectObject | nvcore-rs/src/sqlbuilder/join_statement.rs:106-125 | an object-subquery join keeps its key and nested statement |
| Join.CompactKeyJoinShape | nvcore-rs/src/sqlbuilder/join_statement.rs:168-180 | a compact keyed join renders `KEYWORD table ON left = right` |
| Join.RightJoinIgnoresPretty | nvcore-rs/src/sqlbuilder/join_statement.rs:267-274 | a RIGHT JOIN renders the same text in compact and pretty form |
| Join.PrettyKeyJoinLines | nvcore-rs/src/sqlbuilder/join_statement.rs:211-237 | a pretty LEFT or INNER join puts the keyword line and the ON line at the join's indentation |
| Join.EmptyJoinsRenderNothing | nvcore-rs/src/sqlbuilder/join_statement.rs:159-166 | a raw-string join, or a join with no type that is not an object subquery, renders nothing |
| Join.StringJoinHeadAliasing | nvcore-rs/src/sqlbuilder/join_statement.rs:182-207 | a string subquery is parenthesised, followed by ` AS alias` only when an alias is given, then ` ON ` |
| Join.StringJoinEquationOrder | nvcore-rs/src/sqlbuilder/join_statement.rs:182-207 | LEFT puts the subquery key on the left of `=`, other joins on the right, qualified by the alias when there is one |
| Join.NewStartsEmpty | nvcore-rs/src/sqlbuilder/join_statement.rs:383-396 | a JOIN block starts empty from its parent's counter and level |
| Join.AddLeftJoin | nvcore-rs/src/sqlbuilder/join_statement.rs:430-439 | appends one keyed LEFT join and changes nothing else |
| Join.AddRightJoin | nvcore-rs/src/sqlbuilder/join_statement.rs:461-470 | appends one keyed RIGHT join and changes nothing else |
| Join.AddInnerJoin | nvcore-rs/src/sqlbuilder/join_statement.rs:492-505 | appends one keyed INNER join and changes nothing else |
| Join.AddLeftJoinWithQuery | nvcore-rs/src/sqlbuilder/join_statement.rs:441-459 | appends one LEFT string-subquery join with the given alias |
| Join.AddRightJoinWithQuery | nvcore-rs/src/sqlbuilder/join_statement.rs:472-490 | appends one RIGHT string-subquery join; a missing alias becomes empty |
| Join.AddInnerJoinWithQuery | nvcore-rs/src/sqlbuilder/join_statement.rs:507-525 | appends one INNER string-subquery join; a missing alias becomes empty |
| Join.WithQueryIgnoresOperator | nvcore-rs/src/sqlbuilder/join_statement.rs:441-525 | the operator argument of the subquery joins has no effect |
| Join.JoinTexts | nvcore-rs/src/sqlbuilder/join_statement.rs:417-428 | every join is rendered, in order |
| Join.GenerateQuery | nvcore-rs/src/sqlbuilder/join_statement.rs:417-428 | joins are separated by a space (a newline when pretty); an empty block renders nothing |
| Join.AppendJoinRenders | nvcore-rs/src/sqlbuilder/join_statement.rs:417-428 | one more join appends its text after a separator |
| GroupBy.ProcessNextParameterIndex | nvcore-rs/src/sqlbuilder/group_by.rs:33-35 | a GROUP BY key binds no index |
| GroupBy.NewClause | nvcore-rs/src/sqlbuilder/group_by.rs:37-53 | a key starts and ends at the given index, keeping name, alias and mode |
| GroupBy.BuildFieldName | nvcore-rs/src/sqlbuilder/group_by.rs:67-72 | a key renders `alias.name`, or the bare name without an alias |
| GroupBy.ClauseTexts | nvcore-rs/src/sqlbuilder/group_by.rs:118-131 | every key is rendered, in order |
| GroupBy.New | nvcore-rs/src/sqlbuilder/group_by.rs:87-94 | a free-standing GROUP BY has no parent and no keys and numbers from 1 |
| GroupBy.NewWithParent | nvcore-rs/src/sqlbuilder/group_by.rs:96-103 | a nested GROUP BY starts from its parent's counter and level |
| GroupBy.AddField | nvcore-rs/src/sqlbuilder/group_by.rs:105-116 | appends one key rendering as the given name and alias; counter, level and link unchanged |
| GroupBy.GenerateQuery | nvcore-rs/src/sqlbuilder/group_by.rs:118-131 | the keys are comma-separated in both modes; no keys render nothing |
| GroupBy.AddFieldRenders | nvcore-rs/src/sqlbuilder/group_by.rs:105-131 | a new key appends its name after `, ` unless it is the first |
| OrderBy.NewClause | nvcore-rs/src/sqlbuilder/order_by.rs:15-23 | a key without an alias keeps name, direction and whether to print it |
| OrderBy.NewClauseWithAlias | nvcore-rs/src/sqlbuilder/order_by.rs:25-39 | a key keeps its alias, name, direction and whether to print it |
| OrderBy.BuildFieldName | nvcore-rs/src/sqlbuilder/order_by.rs:41-46 | a key renders `alias.name`, or the bare name without an alias |
| OrderBy.GenerateClause | nvcore-rs/src/sqlbuilder/order_by.rs:48-57 | a key renders its name, followed by its direction suffix only when asked to print it |
| OrderBy.ExplicitDirectionsDiffer | nvcore-rs/src/sqlbuilder/order_by.rs:48-57 | with the direction printed, ASC and DESC render differently |
| OrderBy.ClauseTexts | nvcore-rs/src/sqlbuilder/order_by.rs:129-142 | every key is rendered, in order |
| OrderBy.New | nvcore-rs/src/sqlbuilder/order_by.rs:67-73 | a free-standing ORDER BY has no parent and no keys |
| OrderBy.NewWithParent | nvcore-rs/src/sqlbuilder/order_by.rs:75-81 | a nested ORDER BY is linked and empty at its parent's level |
| OrderBy.By | nvcore-rs/src/sqlbuilder/order_by.rs:111-127 | appends one key with the given name, alias, direction and print flag at the collection's level; level and link unchanged |
| OrderBy.Asc | nvcore-rs/src/sqlbuilder/order_by.rs:83-95 | exactly `by` with the ascending direction: one more key with the given name, alias and print flag at the collection's level, rendering ` ASC` when printed; level and link unchanged |
| OrderBy.Desc | nvcore-rs/src/sqlbuilder/order_by.rs:97-109 | exactly `by` with the descending direction: one more key with the given name, alias and print flag at the collection's level, rendering ` DESC` when printed; level and link unchanged |
| OrderBy.GenerateQuery | nvcore-rs/src/sqlbuilder/order_by.rs:129-142 | the keys are comma-separated; no keys render nothing |
| OrderBy.ByRenders | nvcore-rs/src/sqlbuilder/order_by.rs:111-142 | a new key appends its text after `, ` unless it is the first |
| Select.NewStartsAtOne | nvcore-rs/src/sqlbuilder/nv_select.rs:28-45 | a root statement is empty, unlinked and numbers from 1 |
| Select.WithParamIndexStartsAtCounter | nvcore-rs/src/sqlbuilder/nv_select.rs:47-64 | a statement may start numbering at any given index |
| Select.NewSubquery | nvcore-rs/src/sqlbuilder/nv_select.rs:66-88 | a nested statement continues its parent's counter and values at the given level |
| Select.NewSubqueryFrom | nvcore-rs/src/sqlbuilder/nv_select.rs:90-114 | a FROM subquery continues the counter and remembers its FROM slot and alias |
| Select.NewSubqueryWhere | nvcore-rs/src/sqlbuilder/nv_select.rs:116-140 | a WHERE subquery continues the counter and remembers its condition slot and alias |
| Select.TypedField | nvcore-rs/src/sqlbuilder/nv_select.rs:162-181 | appends one typed column field and nothing else changes |
| Select.RawField | nvcore-rs/src/sqlbuilder/nv_select.rs:183-202 | appends one raw column field and nothing else changes |
| Select.FnStatic | nvcore-rs/src/sqlbuilder/nv_select.rs:281-295 | appends one static function field, binding nothing |
| Select.FnDynamic | nvcore-rs/src/sqlbuilder/nv_select.rs:297-318 | appends one dynamic function field starting at the statement's counter and moves the counter to the field's end |
| Select.FromAsWritten | nvcore-rs/src/sqlbuilder/nv_select.rs:224-235 | as written a reused FROM collection comes back with the counter it had when created, but with the statement's current values, which it shares |
| Select.From | nvcore-rs/src/sqlbuilder/nv_select.rs:224-235 | corrected: the FROM collection handed out always carries the statement's current counter and values, keeping existing entries |
| Select.WhereAsWritten | nvcore-rs/src/sqlbuilder/nv_select.rs:237-248 | as written a reused WHERE collection comes back with the counter it had when created, but with the statement's current values, which it shares |
| Select.Where | nvcore-rs/src/sqlbuilder/nv_select.rs:237-248 | corrected: the WHERE collection handed out always carries the statement's current counter and values, keeping existing conditions |
| Select.JoinBlock | nvcore-rs/src/sqlbuilder/nv_select.rs:250-258 | every call opens a new, independent JOIN block at the current counter |
| Select.GroupBy | nvcore-rs/src/sqlbuilder/nv_select.rs:270-279 | the GROUP BY collection is created on first use and reused afterwards |
| Select.OrderBy | nvcore-rs/src/sqlbuilder/nv_select.rs:260-268 | the ORDER BY collection is created on first use and reused afterwards |
| Select.EndWhereBlockAsWritten | nvcore-rs/src/sqlbuilder/where_statement.rs:251-256 | as written, ending a WHERE block fails exactly when there is no parent. Otherwise nothing is written back: the statement sees the collection and, through the shared list, its values, but keeps its own counter |
| Select.EndWhereBlock | nvcore-rs/src/sqlbuilder/where_statement.rs:251-256 | corrected: ending a WHERE block fails exactly when there is no parent, and otherwise writes collection, values and counter back |
| Select.EndFromTableBlockAsWritten | nvcore-rs/src/sqlbuilder/from_statement.rs:105-114 | as written, ending a FROM block fails exactly when there is no parent. Otherwise nothing is written back: the statement sees the shared values but keeps its own counter |
| Select.EndFromTableBlock | nvcore-rs/src/sqlbuilder/from_statement.rs:105-114 | corrected: ending a FROM block fails exactly when there is no parent, and otherwise writes collection, values and counter back |
| Select.EndJoinBlock | nvcore-rs/src/sqlbuilder/join_statement.rs:398-403 | ending a JOIN block without a parent fails; otherwise the block is stored back as the statement's last JOIN block, which must exist |
| Select.EndGroupByBlock | nvcore-rs/src/sqlbuilder/group_by.rs:137-142 | ending GROUP BY fails exactly when there is no parent, and otherwise stores the collection |
| Select.EndOrderByBlock | nvcore-rs/src/sqlbuilder/order_by.rs:144-149 | ending ORDER BY fails exactly when there is no parent, and otherwise stores the collection |
| Select.DefaultBlocksHaveNoParent | nvcore-rs/src/sqlbuilder/group_by.rs:87-94 | free-standing GROUP BY and ORDER BY collections cannot be ended |
| Select.BeginFromSubquery | nvcore-rs/src/sqlbuilder/from_statement.rs:169-186 | a FROM subquery starts one level deeper from the collection's counter and values and is linked to its slot |
| Select.WhereAddSubquery | nvcore-rs/src/sqlbuilder/where_statement.rs:374-393 | a WHERE subquery starts two levels deeper from the collection's counter and values and is linked to its condition |
| Select.ComparatorThenDynamicCollideAsWritten | nvcore-rs/src/sqlbuilder/where_statement.rs:53-77 | as written a comparator and a following subquery's dynamic function render the same index |
| Select.ComparatorThenDynamicDisjoint | nvcore-rs/src/sqlbuilder/where_statement.rs:53-77 | corrected, the comparator's index lies below every index the dynamic function binds |
| Select.EndSubqueryInsideFrom | nvcore-rs/src/sqlbuilder/nv_select.rs:204-212 | closing a FROM subquery fails without a FROM link or with a stale slot, and otherwise hands counter and values back, keeping the tables and the number of subqueries |
| Select.EndSubqueryInsideWhereCondition | nvcore-rs/src/sqlbuilder/nv_select.rs:214-222 | closing a WHERE subquery fails without a WHERE link or with a slot that is not a subquery condition, and otherwise hands counter and values back |
| Select.FieldEntries | nvcore-rs/src/sqlbuilder/nv_select.rs:336-354 | every field is rendered, in order |
| Select.SelectSection | nvcore-rs/src/sqlbuilder/nv_select.rs:336-354 | compact: `SELECT ` then the fields comma-separated; pretty: indented `SELECT` line, then the fields one per line |
| Select.FromSection | nvcore-rs/src/sqlbuilder/nv_select.rs:356-369 | the FROM section is absent exactly when there is no FROM collection or it counts as empty under the reading; otherwise, compact, it is ` FROM ` and the list |
| Select.KeywordSection | nvcore-rs/src/sqlbuilder/nv_select.rs:379-428 | an absent section renders nothing; a compact one renders ` KEYWORD body` |
| Select.RenderSubqueriesContent | nvcore-rs/src/sqlbuilder/from_statement.rs:140-161 | every FROM subquery is rendered in order, each as its own statement text under the same reading, with its alias |
| Select.JoinBlockTextsContent | nvcore-rs/src/sqlbuilder/nv_select.rs:371-377 | every JOIN block is rendered in order, with the texts of its object joins' nested statements |
| Select.ObjectTextsContent | nvcore-rs/src/sqlbuilder/join_statement.rs:366-371 | an object join gets its nested statement's compact text, any other join the empty text, in order |
| Select.FromTextLocal | nvcore-rs/src/sqlbuilder/nv_select.rs:356-369 | the FROM text depends on the FROM collection alone |
| Select.HeadLocal | nvcore-rs/src/sqlbuilder/nv_select.rs:336-377 | the SELECT, FROM and JOIN text depends only on fields, FROM, joins and level |
| Select.NewRendersKeywordOnly | nvcore-rs/src/sqlbuilder/nv_select.rs:333-431 | a fresh statement renders just the SELECT keyword in both modes |
| Select.EmptyFromOmitted | nvcore-rs/src/sqlbuilder/nv_select.rs:356-369 | a FROM collection that counts as empty under the reading renders as if there were none: as written one with no table, corrected one with no table and no subquery |
| Select.SubqueryOnlyFromDroppedAsWritten | nvcore-rs/src/sqlbuilder/nv_select.rs:356-369 | as written, a FROM of subqueries and no table disappears from the statement's text; corrected, its section is written with a non-empty list |
| Select.Render | nvcore-rs/src/sqlbuilder/nv_select.rs:333-431 | under either reading, the text opens with the SELECT section, in compact form with `SELECT ` |
| Select.Head | nvcore-rs/src/sqlbuilder/nv_select.rs:333-377 | the part before WHERE opens with the SELECT section |
| Select.EmptyFromHead | nvcore-rs/src/sqlbuilder/nv_select.rs:356-377 | with a FROM collection that counts as empty under the reading, the SELECT, FROM and JOIN text is that of a statement with no FROM collection |
| Select.OrderBySectionLast | nvcore-rs/src/sqlbuilder/nv_select.rs:413-428 | ORDER BY is appended last, after everything else |
| Select.GroupBySectionBeforeOrderBy | nvcore-rs/src/sqlbuilder/nv_select.rs:396-411 | without ORDER BY, GROUP BY is appended last |
| Select.WhereSectionAfterJoins | nvcore-rs/src/sqlbuilder/nv_select.rs:379-394 | WHERE follows the joins and is emitted whenever the collection exists, even empty |
| Select.JoinBlocksGlued | nvcore-rs/src/sqlbuilder/nv_select.rs:371-377 | a further JOIN block's text follows the previous ones with no separator, after one space when it is the first |
| Builder.Run | nvcore-rs/src/sqlbuilder/nv_select.rs:162-318 | corrected: any script of calls succeeds, keeps every collection linked, advances the counter by exactly the script's arity and appends exactly its values, in order |
| Builder.Step | nvcore-rs/src/sqlbuilder/nv_select.rs:162-318 | corrected: each call advances the counter by its own arity and appends its own values |
| Builder.WhereBlockStep | nvcore-rs/src/sqlbuilder/nv_select.rs:237-248 | corrected: a WHERE block succeeds, keeps the statement linked, and accounts for exactly its calls' indices and values |
| Builder.FromBlockStep | nvcore-rs/src/sqlbuilder/nv_select.rs:224-235 | corrected: a FROM block succeeds, keeps the statement linked, and accounts for exactly its calls' indices and values |
| Builder.RunWhere | nvcore-rs/src/sqlbuilder/where_statement.rs:271-393 | corrected: a WHERE script keeps link and level, never drops conditions and accounts for every index and value it binds, nested subqueries included |
| Builder.WhereStep | nvcore-rs/src/sqlbuilder/where_statement.rs:271-393 | corrected: one WHERE call accounts for its own indices and values |
| Builder.FragmentStep | nvcore-rs/src/sqlbuilder/where_statement.rs:271-372 | corrected: a condition, connector or group delimiter adds exactly one fragment and accounts for its own indices and values |
| Builder.WhereSubquery | nvcore-rs/src/sqlbuilder/where_statement.rs:374-393 | corrected: a subquery condition adds exactly one condition and accounts for every index and value its nested statement binds |
| Builder.RunFrom | nvcore-rs/src/sqlbuilder/from_statement.rs:65-114 | corrected: a FROM script keeps link and level, never drops entries and accounts for every index and value its subqueries bind |
| Builder.FromStep | nvcore-rs/src/sqlbuilder/from_statement.rs:65-114 | corrected: one FROM call accounts for its own indices and values |
| Builder.WhereWriteBackCollisionAsWritten | nvcore-rs/src/sqlbuilder/where_statement.rs:251-256 | counterexample, every member as written: the outer condition after a WHERE subquery renders index 3, as the nested condition does |
| Builder.WhereWriteBackCorrected | nvcore-rs/src/sqlbuilder/where_statement.rs:251-256 | the same calls, corrected, number 1, 2, 3 |
| Builder.FromWriteBackCollisionAsWritten | nvcore-rs/src/sqlbuilder/from_statement.rs:105-114 | counterexample, every member as written: a dynamic function after a FROM subquery reuses the subquery's index 1 |
| Builder.FromWriteBackCorrected | nvcore-rs/src/sqlbuilder/from_statement.rs:105-114 | the same calls, corrected, number 1 and 2 |
| Builder.WhereReuseCollisionAsWritten | nvcore-rs/src/sqlbuilder/nv_select.rs:237-248 | counterexample, every member as written: after a dynamic function binds 1 and 2, a condition in the reopened WHERE renders 2 |
| Builder.WhereReuseSharesValuesAsWritten | nvcore-rs/src/sqlbuilder/nv_select.rs:237-248 | as written, a reopened WHERE collection sees the value a nested statement inside FROM bound meanwhile (values `[x, y]`), while its stale counter makes the new condition render 2 |
| Builder.WhereReuseCorrected | nvcore-rs/src/sqlbuilder/nv_select.rs:237-248 | the same calls, corrected: the function binds 1 and 2, the condition renders 3 |
| Builder.FromReuseCollisionAsWritten | nvcore-rs/src/sqlbuilder/nv_select.rs:224-235 | counterexample, every member as written: a subquery opened in a reused FROM reuses the dynamic function's index 1 |
| Builder.FromReuseCorrected | nvcore-rs/src/sqlbuilder/nv_select.rs:224-235 | the same calls, corrected, number 1 and 2 |

## Left out

- Integer width: `u32` indices, levels and counts are modelled as unbounded `nat`. A counter that wraps past 2^32 - 1 is not modelled; a statement would need four billion parameters to reach it.
- Bound values: the value type `T` is a type parameter `V`. The parameter-type enums and their Display impls (def.rs:8-59) are not modelled, because nothing in the builder inspects a value.
- Concurrency and memory: `Arc`, `RwLock` and raw parent pointers become values, snapshots and explicit `ParentLink`s. Lock poisoning and dangling pointers have no counterpart, except that `Select.BuildError.StaleParent` stands for a parent slot that no longer exists.
- Collection edits: a collection's edits reach its statement only when its block is ended. In Rust they are visible through the shared reference at once. Rendering before ending a block is not modelled.
- `generate_tuples_holder` (nv_select.rs:443-445): it returns an empty vector and states nothing.
- `fluent.rs` and `mod.rs`: module wiring and a convenience facade, outside the builder core.
- The field accessors (field.rs:250-288) and the statement getters and setters (nv_select.rs:142-160): they are plain reads of the record fields.
- `enclose_field_name` is carried on a field but never read by the renderer, so it has no effect in the model either.
- Aggregate and join-type Display impls (def.rs:136-190) are modelled only through the spellings the renderer uses: `Field.AggregateFunctionToString` and `Join.JoinKeyword`.
- Where.AddCondition: states the corrected comparator, which renders the index it was given. As written it renders the next index; `Where.AddConditionAsWritten` states that.
- Where.AddConditionBetween: states the corrected comparator. As written the placeholder is the second of the two indices; `Where.AddConditionBetweenAsWritten` states that.
- Where.AddConditionIn: states the corrected comparator. As written the placeholder is the last of the k indices; `Where.AddConditionInAsWritten` states that.
- Where.ConditionRendersCurrentIndex: states the corrected rendering. As written the placeholder is one higher; `Where.ConditionRendersNextIndexAsWritten` states that.
- Where.BetweenRendersOnePlaceholder: states the corrected rendering. As written the placeholder is two higher; `Where.BetweenRendersPastIndicesAsWritten` states that.
- Where.InRendersOnePlaceholder: states the corrected rendering. As written the placeholder is k higher; `Where.InRendersPastIndicesAsWritten` states that.
- Builder.Step: replays the corrected members only, like `Builder.Run`. The code as written is exercised by the `…AsWritten` scenarios at the end of `Builder`, not by a script interpreter.
- Builder.RunWhere: replays the corrected members only (see `Builder.Step`).
- Builder.WhereStep: replays the corrected members only (see `Builder.Step`).
- Builder.FragmentStep: replays the corrected members only (see `Builder.Step`).
- Builder.WhereBlockStep: replays the corrected members only (see `Builder.Step`).
- Builder.FromBlockStep: replays the corrected members only (see `Builder.Step`).
- Builder.WhereSubquery: replays the corrected members only (see `Builder.Step`).
- Builder.RunFrom: replays the corrected members only (see `Builder.Step`).
- Builder.FromStep: replays the corrected members only (see `Builder.Step`).
- Builder.Run: replays the corrected members only. The script language covers fields, functions, FROM (tables and subqueries), WHERE (every condition kind and subqueries), GROUP BY and ORDER BY. JOIN calls are not part of it, because a JOIN block binds no index.
- Select.EndJoinBlock: the source returns the parent pointer and keeps the block through it. The model stores the block back as the last JOIN block, and its `StaleParent` case (no JOIN block opened) cannot arise in the source.
- Select.KeywordSection: its contract states the compact layout only. The pretty layout puts the keyword on its own indented line and the body one level deeper; no lemma states it.
- Panics: every `end_*` call and both subquery closers panic when the parent is missing. The model returns `Failure(MissingParent)` instead.

## Findings

| source | as written | input that shows it | evidently intended | confidence | as-written member | corrected member |
|---|---|---|---|---|---|---|
| nvcore-rs/src/sqlbuilder/where_statement.rs:53-77 | a comparator stores the index after advancing, so the first WHERE placeholder of a statement is `param2`, and BETWEEN and IN render the last index they consume | `where_().add_condition(a, =, x)`, then a WHERE subquery whose first field is `fn_dynamic("f", "v", [y])`: both render index 2 | the comparator renders the index it was given, then advances | not executed | Select.ComparatorThenDynamicCollideAsWritten | Select.ComparatorThenDynamicDisjoint |
| nvcore-rs/src/sqlbuilder/where_statement.rs:251-256 | `end_where_block` only returns the parent and writes nothing back. The values are already visible through the shared list, but the statement keeps its old counter | `add_condition(a, =, x)` (renders 2), a WHERE subquery whose condition renders 3, closed through `end_where_block`, then another outer condition: it renders 3 again | closing the block brings the statement's counter up to the collection's counter | not executed | Builder.WhereWriteBackCollisionAsWritten | Builder.WhereWriteBackCorrected |
| nvcore-rs/src/sqlbuilder/from_statement.rs:105-114 | `end_from_table_block` only returns the parent and writes nothing back. The values are already visible through the shared list, but the statement keeps its old counter | a FROM subquery with `fn_dynamic("f", "v", [x])`, then `fn_dynamic("g", "v", [y])` on the statement: both start at 1 | closing the block brings the statement's counter up to the collection's counter | not executed | Builder.FromWriteBackCollisionAsWritten | Builder.FromWriteBackCorrected |
| nvcore-rs/src/sqlbuilder/nv_select.rs:237-248 | `where_()` hands back an existing WHERE collection without refreshing its counter | `where_()`, end, `fn_dynamic("f", "vv", [x, y])` binding 1 and 2, `where_().add_condition(a, =, z)`: the condition renders 2 | the reused collection carries the statement's current counter | not executed | Builder.WhereReuseCollisionAsWritten | Builder.WhereReuseCorrected |
| nvcore-rs/src/sqlbuilder/nv_select.rs:224-235 | `from()` hands back an existing FROM collection without refreshing its counter | `from()`, end, `fn_dynamic("f", "v", [x])`, `from()` and a subquery with `fn_dynamic("g", "v", [y])`: both bind 1 | the reused collection carries the statement's current counter | not executed | Builder.FromReuseCollisionAsWritten | Builder.FromReuseCorrected |
| nvcore-rs/src/sqlbuilder/from_statement.rs:101-103 | `is_empty` looks at the tables only | a statement whose FROM holds one subquery and no table: `is_empty` holds, so the statement renders no FROM section at all | empty means no tables and no subqueries | not executed | Select.SubqueryOnlyFromDroppedAsWritten | From.IsEmpty |
| nvcore-rs/src/sqlbuilder/from_statement.rs:140-161 | the subquery loop's `first` flag is never cleared, so with no table the subqueries are not separated | a FROM of two subqueries and no table: `(…a)(…b)` | every entry after the first is separated | not executed | From.SubquerySeparatorAsWritten | From.GenerateQuery |
| nvcore-rs/src/sqlbuilder/field.rs:190-230 | the separator is pushed before checking that an `s` has a literal left | format `vsv`, values `[7, 8]`, no literals: `f(param1, , param2)` | an argument that cannot be served is skipped with its separator | not executed | Field.DynamicStraySeparatorAsWritten | Field.BuildFunctionWithDynamicParameters |

=== FILE: builder.dfy ===
/**
 * A statement built by a script of builder calls, replayed over the
 * corrected members (see Findings): every collection is fetched from the
 * statement, edited, and ended again, and every nested statement is ended
 * into the collection that opened it. The replay never fails, and the
 * counter of the finished statement has advanced by exactly the number of
 * parameter indices the calls bind.
 *
 * The scenarios at the end replay a few calls over the members as written
 * and exhibit the indices they hand out twice, next to the same calls over
 * the corrected members.
 */
module Builder {
  import opened Wrappers
  import opened Def
  import FD = Field
  import W = Where
  import Fr = From
  import G = GroupBy
  import O = OrderBy
  import S = Select

  /** A call on a statement. */
  datatype SelectCall<V> =
    | TypedField(name: string)
    | RawField(name: string)
    | StaticFunction(name: string, params: seq<string>)
    | DynamicFunction(name: string, format: string, fnValues: seq<V>, statics: seq<string>)
    | WhereBlock(whereCalls: seq<WhereCall<V>>)
    | FromBlock(fromCalls: seq<FromCall<V>>)
    | GroupByField(name: string)
    | OrderByField(name: string, sort: SortType)

  /** A call on the WHERE collection, between `where_` and `end_where_block`. */
  datatype WhereCall<V> =
    | Condition(field: string, op: SqlOperator, value: V)
    | ConditionBetween(field: string, low: V, high: V)
    | ConditionIn(field: string, inValues: seq<V>)
    | AndCall
    | OrCall
    | OpenGroupCall
    | CloseGroupCall
    | SubqueryCall(field: string, op: SqlOperator, alias: string, body: seq<SelectCall<V>>)

  /** A call on the FROM collection, between `from` and `end_from_table_block`. */
  datatype FromCall<V> =
    | Table(name: string, tableAlias: Option<string>)
    | SubqueryFrom(alias: string, body: seq<SelectCall<V>>)

  /** The number of parameter indices a script binds. */
  function Arity<V>(calls: seq<SelectCall<V>>): nat
    decreases calls
  {
    if |calls| == 0 then 0 else CallArity(calls[0]) + Arity(calls[1..])
  }

  /** The indices one call binds: a dynamic function binds one per `v` it is given a value for. */
  function CallArity<V>(c: SelectCall<V>): nat
    decreases c
  {
    match c
    case DynamicFunction(_, format, fnValues, _) => FD.Min(FD.CountOf('v', format), |fnValues|)
    case WhereBlock(ws) => WhereArity(ws)
    case FromBlock(fs) => FromArity(fs)
    case _ => 0
  }

  function WhereArity<V>(calls: seq<WhereCall<V>>): nat
    decreases calls
  {
    if |calls| == 0 then 0 else WhereCallArity(calls[0]) + WhereArity(calls[1..])
  }

  /** A comparator binds one index whatever its operator, BETWEEN two, IN one per value. */
  function WhereCallArity<V>(c: WhereCall<V>): nat
    decreases c
  {
    match c
    case Condition(_, _, _) => 1
    case ConditionBetween(_, _, _) => 2
    case ConditionIn(_, vs) => |vs|
    case SubqueryCall(_, _, _, body) => Arity(body)
    case _ => 0
  }

  function FromArity<V>(calls: seq<FromCall<V>>): nat
    decreases calls
  {
    if |calls| == 0 then 0 else FromCallArity(calls[0]) + FromArity(calls[1..])
  }

  function FromCallArity<V>(c: FromCall<V>): nat
    decreases c
  {
    match c
    case SubqueryFrom(_, body) => Arity(body)
    case _ => 0
  }

  /**
   * The values a script appends to the shared value list, in order. The
   * values of a dynamic function stay in its field.
   */
  function Values<V>(calls: seq<SelectCall<V>>): seq<V>
    decreases calls
  {
    if |calls| == 0 then [] else CallValues(calls[0]) + Values(calls[1..])
  }

  function CallValues<V>(c: SelectCall<V>): seq<V>
    decreases c
  {
    match c
    case WhereBlock(ws) => WhereValues(ws)
    case FromBlock(fs) => FromValues(fs)
    case _ => []
  }

  function WhereValues<V>(calls: seq<WhereCall<V>>): seq<V>
    decreases calls
  {
    if |calls| == 0 then [] else WhereCallValues(calls[0]) + WhereValues(calls[1..])
  }

  function WhereCallValues<V>(c: WhereCall<V>): seq<V>
    decreases c
  {
    match c
    case Condition(_, _, v) => [v]
    case ConditionBetween(_, a, b) => [a, b]
    case ConditionIn(_, vs) => vs
    case SubqueryCall(_, _, _, body) => Values(body)
    case _ => []
  }

  function FromValues<V>(calls: seq<FromCall<V>>): seq<V>
    decreases calls
  {
    if |calls| == 0 then [] else FromCallValues(calls[0]) + FromValues(calls[1..])
  }

  function FromCallValues<V>(c: FromCall<V>): seq<V>
    decreases c
  {
    match c
    case SubqueryFrom(_, body) => Values(body)
    case _ => []
  }

  lemma ValuesAppendAssociative<V>(a: seq<V>, b: seq<V>, c: seq<V>)
    ensures a + (b + c) == a + b + c
  {
  }

  /** Every collection the statement stores can be ended again. */
  predicate Linked<V>(s: S.NvSelect<V>)
  {
    && (s.whereClause.Some? ==> s.whereClause.value.hasParent)
    && (s.from.Some? ==> s.from.value.hasParent)
    && (s.groupBy.Some? ==> s.groupBy.value.hasParent)
    && (s.orderBy.Some? ==> s.orderBy.value.hasParent)
  }

  /** What a replay keeps of the statement it started from. */
  ghost predicate Keeps<V>(s: S.NvSelect<V>, r: S.NvSelect<V>)
  {
    r.link == s.link && r.level == s.level && r.tableAlias == s.tableAlias && r.dialect == s.dialect
  }

  /**
   * Replays `calls` on `s`. Each call succeeds; the counter advances by the
   * arity of the calls and the shared values grow by theirs.
   */
  function Run<V>(s: S.NvSelect<V>, calls: seq<SelectCall<V>>): (r: Result<S.NvSelect<V>, S.BuildError>)
    requires Linked(s)
    ensures r.Success? && Linked(r.value) && Keeps(s, r.value)
    ensures r.value.counter == s.counter + Arity(calls)
    ensures r.value.values == s.values + Values(calls)
    decreases calls, 0
  {
    if |calls| == 0 then
      assert s.values + Values(calls) == s.values;
      Success(s)
    else
      var next := Step(s, calls[0]);
      var rest := Run(next.value, calls[1..]);
      assert Values(calls) == CallValues(calls[0]) + Values(calls[1..]);
      ValuesAppendAssociative(s.values, CallValues(calls[0]), Values(calls[1..]));
      rest
  }

  /** One call on a statement. */
  function Step<V>(s: S.NvSelect<V>, c: SelectCall<V>): (r: Result<S.NvSelect<V>, S.BuildError>)
    requires Linked(s)
    ensures r.Success? && Linked(r.value) && Keeps(s, r.value)
    ensures r.value.counter == s.counter + CallArity(c)
    ensures r.value.values == s.values + CallValues(c)
    decreases c
  {
    match c
    case TypedField(name) => Success(S.TypedField(s, name, None, None, NoAggregate, false))
    case RawField(name) => Success(S.RawField(s, name, None, None, NoAggregate, false))
    case StaticFunction(name, params) => Success(S.FnStatic(s, name, params, None))
    case DynamicFunction(name, format, fnValues, statics) =>
      Success(S.FnDynamic(s, name, format, fnValues, statics, None))
    case WhereBlock(ws) => WhereBlockStep(s, ws)
    case FromBlock(fs) => FromBlockStep(s, fs)
    case GroupByField(name) =>
      var (s1, g) := S.GroupBy(s);
      S.EndGroupByBlock(s1, G.AddField(g, name, None))
    case OrderByField(name, sort) =>
      var (s1, o) := S.OrderBy(s);
      S.EndOrderByBlock(s1, O.By(o, name, None, sort, true))
  }

  /** A WHERE block: the collection is opened, its calls replayed, and the block ended. */
  function WhereBlockStep<V>(s: S.NvSelect<V>, ws: seq<WhereCall<V>>): (r: Result<S.NvSelect<V>, S.BuildError>)
    requires Linked(s)
    ensures r.Success? && Linked(r.value) && Keeps(s, r.value)
    ensures r.value.counter == s.counter + WhereArity(ws)
    ensures r.value.values == s.values + WhereValues(ws)
    decreases ws, 1
  {
    var (s1, w) := S.Where(s);
    var w1 := RunWhere(w, ws);
    S.EndWhereBlock(s1, w1)
  }

  /** A FROM block: the collection is opened, its calls replayed, and the block ended. */
  function FromBlockStep<V>(s: S.NvSelect<V>, fs: seq<FromCall<V>>): (r: Result<S.NvSelect<V>, S.BuildError>)
    requires Linked(s)
    ensures r.Success? && Linked(r.value) && Keeps(s, r.value)
    ensures r.value.counter == s.counter + FromArity(fs)
    ensures r.value.values == s.values + FromValues(fs)
    decreases fs, 1
  {
    var (s1, f) := S.From(s);
    var f1 := RunFrom(f, fs);
    S.EndFromTableBlock(s1, f1)
  }

  /** Replays calls on a WHERE collection; nested statements are run and ended into it. */
  function RunWhere<V>(w: W.WhereStatement<V, S.NvSelect<V>>, calls: seq<WhereCall<V>>): (r: W.WhereStatement<V, S.NvSelect<V>>)
    ensures r.hasParent == w.hasParent && r.level == w.level
    ensures |r.conditions| >= |w.conditions|
    ensures r.counter == w.counter + WhereArity(calls)
    ensures r.values == w.values + WhereValues(calls)
    decreases calls, 0
  {
    if |calls| == 0 then
      assert w.values + WhereValues(calls) == w.values;
      w
    else
      var next := WhereStep(w, calls[0]);
      var rest := RunWhere(next, calls[1..]);
      assert WhereValues(calls) == WhereCallValues(calls[0]) + WhereValues(calls[1..]);
      ValuesAppendAssociative(w.values, WhereCallValues(calls[0]), WhereValues(calls[1..]));
      rest
  }

  function WhereStep<V>(w: W.WhereStatement<V, S.NvSelect<V>>, c: WhereCall<V>): (r: W.WhereStatement<V, S.NvSelect<V>>)
    ensures r.hasParent == w.hasParent && r.level == w.level
    ensures |r.conditions| >= |w.conditions|
    ensures r.counter == w.counter + WhereCallArity(c)
    ensures r.values == w.values + WhereCallValues(c)
    decreases c
  {
    match c
    case SubqueryCall(field, op, alias, body) => WhereSubquery(w, field, op, alias, body)
    case _ => FragmentStep(w, c)
  }

  /** A call on a WHERE collection that opens no nested statement. */
  function FragmentStep<V>(w: W.WhereStatement<V, S.NvSelect<V>>, c: WhereCall<V>): (r: W.WhereStatement<V, S.NvSelect<V>>)
    requires !c.SubqueryCall?
    ensures r.hasParent == w.hasParent && r.level == w.level
    ensures |r.conditions| == |w.conditions| + 1
    ensures r.counter == w.counter + WhereCallArity(c)
    ensures r.values == w.values + WhereCallValues(c)
  {
    match c
    case Condition(field, op, v) => W.AddCondition(w, field, op, v)
    case ConditionBetween(field, a, b) => W.AddConditionBetween(w, field, a, b)
    case ConditionIn(field, vs) => W.AddConditionIn(w, field, vs)
    case AndCall => W.And(w)
    case OrCall => W.Or(w)
    case OpenGroupCall => W.OpenGroup(w)
    case CloseGroupCall => W.CloseGroup(w)
  }

  /** A subquery condition: the nested statement is opened, run and ended into the collection. */
  function WhereSubquery<V>(w: W.WhereStatement<V, S.NvSelect<V>>, field: string, op: SqlOperator, alias: string,
                            body: seq<SelectCall<V>>): (r: W.WhereStatement<V, S.NvSelect<V>>)
    ensures r.hasParent == w.hasParent && r.level == w.level
    ensures |r.conditions| == |w.conditions| + 1
    ensures r.counter == w.counter + Arity(body)
    ensures r.values == w.values + Values(body)
    decreases body, 1
  {
    var (w1, child) := S.WhereAddSubquery(w, field, op, alias);
    var child1 := Run(child, body).value;
    assert W.Last(w1.conditions) == w1.conditions[|w.conditions|];
    S.EndSubqueryInsideWhereCondition(child1, w1).value
  }

  /** Replays calls on a FROM collection; nested statements are run and ended into it. */
  function RunFrom<V>(f: Fr.FromTableStatement<V, S.NvSelect<V>>, calls: seq<FromCall<V>>): (r: Fr.FromTableStatement<V, S.NvSelect<V>>)
    ensures r.hasParent == f.hasParent && r.level == f.level
    ensures |r.tables| >= |f.tables| && |r.subqueries| >= |f.subqueries|
    ensures r.counter == f.counter + FromArity(calls)
    ensures r.values == f.values + FromValues(calls)
    decreases calls, 0
  {
    if |calls| == 0 then
      assert f.values + FromValues(calls) == f.values;
      f
    else
      var next := FromStep(f, calls[0]);
      var rest := RunFrom(next, calls[1..]);
      assert FromArity(calls) == FromCallArity(calls[0]) + FromArity(calls[1..]);
      assert FromValues(calls) == FromCallValues(calls[0]) + FromValues(calls[1..]);
      ValuesAppendAssociative(f.values, FromCallValues(calls[0]), FromValues(calls[1..]));
      rest
  }

  function FromStep<V>(f: Fr.FromTableStatement<V, S.NvSelect<V>>, c: FromCall<V>): (r: Fr.FromTableStatement<V, S.NvSelect<V>>)
    ensures r.hasParent == f.hasParent && r.level == f.level
    ensures |r.tables| >= |f.tables| && |r.subqueries| >= |f.subqueries|
    ensures r.counter == f.counter + FromCallArity(c)
    ensures r.values == f.values + FromCallValues(c)
    decreases c
  {
    match c
    case Table(name, alias) => Fr.AddTableWithAlias(f, name, alias)
    case SubqueryFrom(alias, body) =>
      var (f1, child) := S.BeginFromSubquery(f, alias);
      var child1 := Run(child, body).value;
      S.EndSubqueryInsideFrom(child1, f1).value
  }

  /**
   * A subquery in a WHERE condition binds an index in its own WHERE block.
   * With the members as written the nested statement forgets it, so the
   * next condition of the outer block binds the same index again: both
   * comparators render the placeholder of index 3.
   */
  lemma WhereWriteBackCollisionAsWritten<V>(dialect: DatabaseDialect, a: V, c: V, d: V)
    ensures var (s1, w) := S.WhereAsWritten(S.New<V>(dialect));
            var w1 := W.AddConditionAsWritten(w, "a", Equal, a);
            var (w2, child) := S.WhereAddSubquery(w1, "b", In, "t");
            var (c1, cw) := S.WhereAsWritten(child);
            var cw1 := W.AddConditionAsWritten(cw, "c", Equal, c);
            var c2 := S.EndWhereBlockAsWritten(c1, cw1);
            && c2.Success?
            && var w3 := S.EndSubqueryInsideWhereCondition(c2.value, w2);
               && w3.Success?
               && var w4 := W.AddConditionAsWritten(w3.value, "d", Equal, d);
                  W.Last(w4.conditions).startIndex == W.Last(cw1.conditions).startIndex == 3
  {
  }

  /** The same calls with the corrected `end_where_block`: the outer block resumes after the nested one. */
  lemma WhereWriteBackCorrected<V>(dialect: DatabaseDialect, a: V, c: V, d: V)
    ensures var (s1, w) := S.Where(S.New<V>(dialect));
            var w1 := W.AddCondition(w, "a", Equal, a);
            var (w2, child) := S.WhereAddSubquery(w1, "b", In, "t");
            var (c1, cw) := S.Where(child);
            var cw1 := W.AddCondition(cw, "c", Equal, c);
            var c2 := S.EndWhereBlock(c1, cw1);
            && c2.Success?
            && var w3 := S.EndSubqueryInsideWhereCondition(c2.value, w2);
               && w3.Success?
               && var w4 := W.AddCondition(w3.value, "d", Equal, d);
                  && W.Last(w1.conditions).startIndex == 1
                  && W.Last(cw1.conditions).startIndex == 2
                  && W.Last(w4.conditions).startIndex == 3
  {
  }

  /**
   * A FROM subquery binds one index through a dynamic function. With
   * `end_from_table_block` as written the statement forgets it, so its next
   * dynamic function binds the same index again.
   */
  lemma FromWriteBackCollisionAsWritten<V>(dialect: DatabaseDialect, x: V, y: V)
    ensures var (s1, f) := S.FromAsWritten(S.New<V>(dialect));
            var (f1, child) := S.BeginFromSubquery(f, "t");
            var child1 := S.FnDynamic(child, "f", "v", [x], [], None);
            var f2 := S.EndSubqueryInsideFrom(child1, f1);
            && f2.Success?
            && var s2 := S.EndFromTableBlockAsWritten(s1, f2.value);
               && s2.Success?
               && var s3 := S.FnDynamic(s2.value, "g", "v", [y], [], None);
                  s3.fields[0].startIndex == child1.fields[0].startIndex == 1
  {
  }

  /** The same calls with the corrected `end_from_table_block`. */
  lemma FromWriteBackCorrected<V>(dialect: DatabaseDialect, x: V, y: V)
    ensures var (s1, f) := S.From(S.New<V>(dialect));
            var (f1, child) := S.BeginFromSubquery(f, "t");
            var child1 := S.FnDynamic(child, "f", "v", [x], [], None);
            var f2 := S.EndSubqueryInsideFrom(child1, f1);
            && f2.Success?
            && var s2 := S.EndFromTableBlock(s1, f2.value);
               && s2.Success?
               && var s3 := S.FnDynamic(s2.value, "g", "v", [y], [], None);
                  child1.fields[0].startIndex == 1 && s3.fields[0].startIndex == 2
  {
  }

  /**
   * `where_` as written hands a reused WHERE collection back with the
   * counter it had when it was created: a dynamic function that bound
   * indices 1 and 2 in between is followed by a condition that, advancing
   * only its stale counter, renders index 2 again.
   */
  lemma WhereReuseCollisionAsWritten<V>(dialect: DatabaseDialect, x: V, x2: V, y: V)
    ensures var (s1, w) := S.WhereAsWritten(S.New<V>(dialect));
            var s2 := S.EndWhereBlockAsWritten(s1, w);
            && s2.Success?
            && var s3 := S.FnDynamic(s2.value, "f", "vv", [x, x2], [], None);
               var (s4, w1) := S.WhereAsWritten(s3);
               var w2 := W.AddConditionAsWritten(w1, "a", Equal, y);
               && s3.fields[0].startIndex == 1 && s3.fields[0].currentIndex == 3
               && W.Last(w2.conditions).startIndex == 2
  {
  }

  /**
   * The value list is shared: a reused WHERE collection sees the value a
   * nested statement inside FROM bound after the collection was created,
   * while its counter is still the one it was created with.
   */
  lemma WhereReuseSharesValuesAsWritten<V>(dialect: DatabaseDialect, x: V, y: V)
    ensures var (s1, w) := S.WhereAsWritten(S.New<V>(dialect));
            var s2 := S.EndWhereBlockAsWritten(s1, w);
            && s2.Success?
            && var (s3, f) := S.FromAsWritten(s2.value);
               var (f1, child) := S.BeginFromSubquery(f, "t");
               var (c1, cw) := S.WhereAsWritten(child);
               var c2 := S.EndWhereBlockAsWritten(c1, W.AddConditionAsWritten(cw, "c", Equal, x));
               && c2.Success?
               && var f2 := S.EndSubqueryInsideFrom(c2.value, f1);
                  && f2.Success?
                  && var s4 := S.EndFromTableBlockAsWritten(s3, f2.value);
                     && s4.Success?
                     && var (s5, w1) := S.WhereAsWritten(s4.value);
                        var w2 := W.AddConditionAsWritten(w1, "a", Equal, y);
                        && w2.values == [x, y]
                        && W.Last(w2.conditions).startIndex == 2
  {
  }

  /** The same calls with the corrected `where_`. */
  lemma WhereReuseCorrected<V>(dialect: DatabaseDialect, x: V, x2: V, y: V)
    ensures var (s1, w) := S.Where(S.New<V>(dialect));
            var s2 := S.EndWhereBlock(s1, w);
            && s2.Success?
            && var s3 := S.FnDynamic(s2.value, "f", "vv", [x, x2], [], None);
               var (s4, w1) := S.Where(s3);
               var w2 := W.AddCondition(w1, "a", Equal, y);
               && s3.fields[0].startIndex == 1 && s3.fields[0].currentIndex == 3
               && W.Last(w2.conditions).startIndex == 3
  {
  }

  /**
   * `from` as written hands a reused FROM collection back with its old
   * counter: a subquery opened afterwards numbers from there again.
   */
  lemma FromReuseCollisionAsWritten<V>(dialect: DatabaseDialect, x: V, y: V)
    ensures var (s1, f) := S.FromAsWritten(S.New<V>(dialect));
            var s2 := S.EndFromTableBlockAsWritten(s1, f);
            && s2.Success?
            && var s3 := S.FnDynamic(s2.value, "f", "v", [x], [], None);
               var (s4, f1) := S.FromAsWritten(s3);
               var (f2, child) := S.BeginFromSubquery(f1, "t");
               var child1 := S.FnDynamic(child, "g", "v", [y], [], None);
               child1.fields[0].startIndex == s3.fields[0].startIndex == 1
  {
  }

  /** The same calls with the corrected `from`. */
  lemma FromReuseCorrected<V>(dialect: DatabaseDialect, x: V, y: V)
    ensures var (s1, f) := S.From(S.New<V>(dialect));
            var s2 := S.EndFromTableBlock(s1, f);
            && s2.Success?
            && var s3 := S.FnDynamic(s2.value, "f", "v", [x], [], None);
               var (s4, f1) := S.From(s3);
               var (f2, child) := S.BeginFromSubquery(f1, "t");
               var child1 := S.FnDynamic(child, "g", "v", [y], [], None);
               s3.fields[0].startIndex == 1 && child1.fields[0].startIndex == 2
  {
  }
}

=== FILE: def.dfy ===
/**
 * The shared vocabulary of the builder (`sqlbuilder/def.rs`): dialects,
 * operators, sort and join kinds with their display strings, the dialect
 * placeholder format and indentation.
 */
module Def {
  import opened StringUtils
  import opened Wrappers

  datatype DatabaseDialect = PostgreSQL | Oracle

  /**
   * Which members a renderer uses where the code is defective (see
   * Findings): the code as written, or the corrected members.
   */
  datatype Reading = AsWritten | Corrected

  /** Display of a dialect. */
  function DialectDisplay(d: DatabaseDialect): (r: string)
    ensures r == "PostgreSQL" <==> d == PostgreSQL
    ensures r == "Oracle" <==> d == Oracle
  {
    match d
    case PostgreSQL => "PostgreSQL"
    case Oracle => "Oracle"
  }

  datatype SortType = Ascending | Descending

  /** Display of a sort direction (not the SQL keyword; see `OrderBy`). */
  function SortTypeDisplay(t: SortType): string
  {
    match t
    case Ascending => "Ascending"
    case Descending => "Descending"
  }

  datatype SqlOperator =
    | Equal | NotEqual | Less | LessOrEqual | Greater | GreaterOrEqual | Like | Between | In

  /** The `Display` implementation of `SqlOperator`. */
  function OperatorDisplay(op: SqlOperator): string
  {
    match op
    case Equal => "="
    case NotEqual => "!="
    case Less => "<"
    case LessOrEqual => "<="
    case Greater => ">"
    case GreaterOrEqual => ">="
    case Like => "LIKE"
    case Between => "BETWEEN"
    case In => "IN"
  }

  /** `sql_operator_to_string`: a second table of the same strings, which agrees with `Display`. */
  function SqlOperatorToString(op: SqlOperator): (r: string)
    ensures r == OperatorDisplay(op)
  {
    match op
    case Equal => "="
    case NotEqual => "!="
    case Less => "<"
    case LessOrEqual => "<="
    case Greater => ">"
    case GreaterOrEqual => ">="
    case Like => "LIKE"
    case Between => "BETWEEN"
    case In => "IN"
  }

  /** The nine operator strings are pairwise distinct, so the text determines the operator. */
  lemma OperatorStringsDistinct(a: SqlOperator, b: SqlOperator)
    ensures SqlOperatorToString(a) == SqlOperatorToString(b) ==> a == b
  {
  }

  datatype LogicOperator = And | Or

  /** The `Display` implementation of `LogicOperator`. */
  function LogicDisplay(l: LogicOperator): string
  {
    match l
    case And => "AND"
    case Or => "OR"
  }

  /** `logic_operator_to_string`, which agrees with `Display`. */
  function LogicOperatorToString(l: LogicOperator): (r: string)
    ensures r == LogicDisplay(l)
    ensures r == "AND" <==> l == And
    ensures r == "OR" <==> l == Or
  {
    match l
    case And => "AND"
    case Or => "OR"
  }

  /** `SqlAggregateFunction`; the source's `None` variant is `NoAggregate` here. */
  datatype SqlAggregateFunction =
    | NoAggregate | Distinct | Count | Avg | Sum | ToUpper | ToLower
    | ToIso8601DateTime | ToIso8601Date | ToIso8601Time

  /** `SqlJoinType`; the source's `None` variant is `NoJoin` here. */
  datatype SqlJoinType = NoJoin | InnerJoin | LeftJoin | RightJoin

  /** `determine_parameter_format`: `$n` for PostgreSQL, `:n` for Oracle. */
  function DetermineParameterFormat(d: DatabaseDialect, index: nat): (r: string)
    ensures |r| >= 2
    ensures r[0] == (if d == PostgreSQL then '$' else ':')
    ensures forall i :: 1 <= i < |r| ==> IsDigit(r[i])
  {
    match d
    case PostgreSQL => "$" + Decimal(index)
    case Oracle => ":" + Decimal(index)
  }

  /** Reads a dialect placeholder back into its dialect and index. */
  function ParsePlaceholder(s: string): (r: Option<(DatabaseDialect, nat)>)
  {
    if |s| >= 2 && (s[0] == '$' || s[0] == ':') && forall i :: 1 <= i < |s| ==> IsDigit(s[i]) then
      Some((if s[0] == '$' then PostgreSQL else Oracle, ParseDecimal(s[1..])))
    else None
  }

  /** Parsing a rendered placeholder recovers the dialect and the index. */
  lemma PlaceholderRoundTrip(d: DatabaseDialect, index: nat)
    ensures ParsePlaceholder(DetermineParameterFormat(d, index)) == Some((d, index))
  {
    var r := DetermineParameterFormat(d, index);
    assert r[1..] == Decimal(index);
    ParseDecimalRoundTrip(index);
  }

  /** Distinct indices (or dialects) never share a placeholder. */
  lemma PlaceholderInjective(d1: DatabaseDialect, a: nat, d2: DatabaseDialect, b: nat)
    ensures DetermineParameterFormat(d1, a) == DetermineParameterFormat(d2, b) ==> d1 == d2 && a == b
  {
    PlaceholderRoundTrip(d1, a);
    PlaceholderRoundTrip(d2, b);
  }

  /**
   * The private `determine_parameter_format` of `Condition` and `FieldDef`,
   * a placeholder stub that ignores the dialect and prints `param` followed by the index.
   */
  function StubPlaceholder(index: nat): (r: string)
    ensures |r| > 5 && r[..5] == "param"
    ensures forall i :: 5 <= i < |r| ==> IsDigit(r[i])
    ensures ParseDecimal(r[5..]) == index
  {
    var r := "param" + Decimal(index);
    assert r[5..] == Decimal(index);
    ParseDecimalRoundTrip(index);
    r
  }

  /** Distinct indices give distinct stub placeholders. */
  lemma StubPlaceholderInjective(a: nat, b: nat)
    ensures StubPlaceholder(a) == StubPlaceholder(b) ==> a == b
  {
    if StubPlaceholder(a) == StubPlaceholder(b) {
      assert StubPlaceholder(a)[5..] == Decimal(a);
      assert StubPlaceholder(b)[5..] == Decimal(b);
      DecimalInjective(a, b);
    }
  }

  /** `generate_indentation(level, c, k)`: `k * level` copies of `c`. */
  function GenerateIndentation(level: nat, indentChar: char, numberPerPrint: nat): (r: string)
    ensures |r| == numberPerPrint * level
    ensures forall i :: 0 <= i < |r| ==> r[i] == indentChar
  {
    Repeat(indentChar, numberPerPrint * level)
  }

  /** `indent_space` is `generate_indentation` with two spaces per level. */
  lemma IndentSpaceIsGenerateIndentation(level: nat)
    ensures IndentSpace(level) == GenerateIndentation(level, ' ', 2)
  {
    var a := IndentSpace(level);
    var b := GenerateIndentation(level, ' ', 2);
    assert |a| == |b|;
    assert forall i :: 0 <= i < |a| ==> a[i] == b[i];
  }
}

=== FILE: field.dfy ===
/**
 * Selected-field fragments (`sqlbuilder/field.rs`): plain and typed columns
 * with an optional aggregate wrapper, and function calls whose arguments are
 * literal ("static") strings or bound values ("dynamic").
 */
module Field {
  import opened Wrappers
  import opened StringUtils
  import opened Def

  datatype FieldDefMode = FieldRaw | FieldWType | FnStaticParameter | FnParameterizedValues

  /**
   * One selected field. `fnValues` are the values bound by a dynamic
   * function; `startIndex` is the first parameter index it uses and
   * `currentIndex` the next unused one after it.
   */
  datatype FieldDef<V> = FieldDef(
    field: string,
    tableAlias: Option<string>,
    staticParams: seq<string>,
    fnValues: seq<V>,
    functionName: string,
    parameterFormat: string,
    encloseFieldName: bool,
    aggregate: SqlAggregateFunction,
    fieldAlias: Option<string>,
    startIndex: nat,
    currentIndex: nat,
    level: nat,
    mode: FieldDefMode,
    dialect: DatabaseDialect)

  function Min(a: nat, b: nat): nat
  {
    if a <= b then a else b
  }

  /** Number of occurrences of `c` in `s`. */
  function CountOf(c: char, s: string): nat
  {
    multiset(s)[c]
  }

  lemma CountOfCons(c: char, s: string)
    requires |s| > 0
    ensures CountOf(c, s) == (if s[0] == c then 1 else 0) + CountOf(c, s[1..])
  {
    assert s == [s[0]] + s[1..];
  }

  /** `new_field_def`: a column (raw or typed) that binds nothing. */
  function NewFieldDef<V>(dialect: DatabaseDialect, field: string, tableAlias: Option<string>,
                          encloseFieldName: bool, aggregate: SqlAggregateFunction,
                          fieldAlias: Option<string>, level: nat, mode: FieldDefMode): (r: FieldDef<V>)
  {
    FieldDef(field, tableAlias, [], [], "", "", encloseFieldName, aggregate, fieldAlias, 0, 0, level, mode, dialect)
  }

  /** A column field binds no index and holds no function values or literals. */
  lemma NewFieldDefBindsNothing<V>(dialect: DatabaseDialect, field: string, tableAlias: Option<string>,
                                   encloseFieldName: bool, aggregate: SqlAggregateFunction,
                                   fieldAlias: Option<string>, level: nat, mode: FieldDefMode)
    ensures var r := NewFieldDef<V>(dialect, field, tableAlias, encloseFieldName, aggregate, fieldAlias, level, mode);
            && r.startIndex == 0 && r.currentIndex == 0
            && r.fnValues == [] && r.staticParams == []
            && r.mode == mode && r.field == field && r.aggregate == aggregate
  {
  }

  /** `new_static_function`: a call with literal arguments only; binds nothing. */
  function NewStaticFunction<V>(dialect: DatabaseDialect, functionName: string, staticParams: seq<string>,
                                level: nat, alias: Option<string>): (r: FieldDef<V>)
  {
    FieldDef("", None, staticParams, [], functionName, "", false, NoAggregate, alias, 0, 0, level,
             FnStaticParameter, dialect)
  }

  /** A static function call binds no index and has no aggregate or table alias. */
  lemma NewStaticFunctionBindsNothing<V>(dialect: DatabaseDialect, functionName: string, staticParams: seq<string>,
                                         level: nat, alias: Option<string>)
    ensures var r := NewStaticFunction<V>(dialect, functionName, staticParams, level, alias);
            && r.startIndex == 0 && r.currentIndex == 0
            && r.mode == FnStaticParameter && r.fnValues == []
            && r.aggregate == NoAggregate && r.tableAlias == None
  {
  }

  /**
   * The loop of `process_function_parameter_index`: every `'v'` that still
   * has an unconsumed value advances the index by one.
   */
  function ProcessLoop(format: string, paramIndex: nat, consumed: nat, size: nat): (r: nat)
    requires consumed <= size
    ensures r + consumed == paramIndex + Min(consumed + CountOf('v', format), size)
    decreases |format|
  {
    if |format| == 0 then paramIndex
    else
      CountOfCons('v', format);
      if consumed < size && format[0] == 'v' then ProcessLoop(format[1..], paramIndex + 1, consumed + 1, size)
      else ProcessLoop(format[1..], paramIndex, consumed, size)
  }

  /**
   * `process_function_parameter_index`: an empty format leaves the index
   * alone; otherwise it advances by the number of `'v'` characters, capped
   * by the number of values supplied.
   */
  function ProcessFunctionParameterIndex<V>(currentIndex: nat, format: string, values: seq<V>): (r: nat)
    ensures r == currentIndex + Min(CountOf('v', format), |values|)
    ensures |format| == 0 ==> r == currentIndex
  {
    if |format| == 0 then currentIndex else ProcessLoop(format, currentIndex, 0, |values|)
  }

  /** `new_dynamic_function`: the call starts at `paramIndex` and records where numbering resumes. */
  function NewDynamicFunction<V>(dialect: DatabaseDialect, functionName: string, format: string,
                                 fnValues: seq<V>, staticParams: seq<string>, paramIndex: nat,
                                 level: nat, alias: Option<string>): (r: FieldDef<V>)
    ensures r.mode == FnParameterizedValues
    ensures r.startIndex == paramIndex
    ensures r.currentIndex == paramIndex + Min(CountOf('v', format), |fnValues|)
    ensures r.parameterFormat == format && r.fnValues == fnValues && r.staticParams == staticParams
  {
    var current := ProcessFunctionParameterIndex(paramIndex, format, fnValues);
    FieldDef("", None, staticParams, fnValues, functionName, format, false, NoAggregate, alias,
             paramIndex, current, level, FnParameterizedValues, dialect)
  }

  /** The private `aggregate_function_to_string`; the ISO-8601 conversions have no name. */
  function AggregateFunctionToString(a: SqlAggregateFunction): string
  {
    match a
    case Distinct => "DISTINCT"
    case Count => "COUNT"
    case Avg => "AVG"
    case Sum => "SUM"
    case ToUpper => "TO_UPPER"
    case ToLower => "TO_LOWER"
    case _ => ""
  }

  /** `" AS alias"` when an alias is given. */
  function AliasSuffix(alias: Option<string>): string
  {
    match alias
    case Some(a) => " AS " + a
    case None => ""
  }

  /** The column name, prefixed by `alias.` when a table alias is given. */
  function QualifiedName<V>(f: FieldDef<V>): string
  {
    match f.tableAlias
    case Some(a) => a + "." + f.field
    case None => f.field
  }

  /** `build_field`: the column with its aggregate wrapper, table qualifier and field alias. */
  function BuildField<V>(f: FieldDef<V>): string
  {
    var opening :=
      if f.aggregate == Distinct then AggregateFunctionToString(f.aggregate) + " "
      else if f.aggregate != NoAggregate then AggregateFunctionToString(f.aggregate) + "("
      else "";
    var qualifier := match f.tableAlias case Some(a) => a + "." case None => "";
    var closing :=
      if f.aggregate == Distinct then ""
      else if f.aggregate != NoAggregate then ")"
      else "";
    opening + qualifier + f.field + closing + AliasSuffix(f.fieldAlias)
  }

  /**
   * How `build_field` wraps the column: DISTINCT is a prefix without a
   * closing parenthesis, every other aggregate encloses the column in
   * `NAME(…)`, and no aggregate leaves it bare.
   */
  lemma BuildFieldWrapping<V>(f: FieldDef<V>)
    ensures f.aggregate == Distinct ==>
      BuildField(f) == "DISTINCT " + QualifiedName(f) + AliasSuffix(f.fieldAlias)
    ensures f.aggregate != Distinct && f.aggregate != NoAggregate ==>
      BuildField(f) == AggregateFunctionToString(f.aggregate) + "(" + QualifiedName(f) + ")" + AliasSuffix(f.fieldAlias)
    ensures f.aggregate == NoAggregate ==>
      BuildField(f) == QualifiedName(f) + AliasSuffix(f.fieldAlias)
  {
  }

  /** `build_function_with_static_parameters`: the name, the literals joined by `", "`, the alias. */
  function BuildFunctionWithStaticParameters<V>(f: FieldDef<V>): (r: string)
    ensures r == f.functionName + "(" + Join(f.staticParams, ", ") + ")" + AliasSuffix(f.fieldAlias)
  {
    f.functionName + "(" + ConcatLoop("", f.staticParams, ", ", true) + ")" + AliasSuffix(f.fieldAlias)
  }

  /** One argument emitted by a dynamic function call. */
  datatype FnArg = StaticArg(text: string) | ValueArg(index: nat)

  function FnArgText(a: FnArg): string
  {
    match a
    case StaticArg(t) => t
    case ValueArg(i) => StubPlaceholder(i)
  }

  function FnArgTexts(args: seq<FnArg>): (r: seq<string>)
    ensures |r| == |args|
    ensures forall i :: 0 <= i < |args| ==> r[i] == FnArgText(args[i])
  {
    if |args| == 0 then [] else [FnArgText(args[0])] + FnArgTexts(args[1..])
  }

  /**
   * The arguments a dynamic call emits, in format order: an `'s'` takes the
   * next unused literal, a `'v'` the next parameter index while values
   * remain, and every other character (or an exhausted pool) emits nothing.
   * `si`/`vi` count literals/values used so far and `pi` is the next index.
   */
  function ArgWalk(format: string, statics: seq<string>, size: nat, si: nat, vi: nat, pi: nat): seq<FnArg>
    requires si <= |statics| && vi <= size
    decreases |format|
  {
    if |format| == 0 then []
    else if format[0] == 's' && si < |statics| then
      [StaticArg(statics[si])] + ArgWalk(format[1..], statics, size, si + 1, vi, pi)
    else if format[0] == 'v' && vi < size then
      [ValueArg(pi)] + ArgWalk(format[1..], statics, size, si, vi + 1, pi + 1)
    else ArgWalk(format[1..], statics, size, si, vi, pi)
  }

  /** The parameter indices among the arguments, in order. */
  function ValueIndices(args: seq<FnArg>): seq<nat>
  {
    if |args| == 0 then []
    else (if args[0].ValueArg? then [args[0].index] else []) + ValueIndices(args[1..])
  }

  /** The literal texts among the arguments, in order. */
  function StaticTexts(args: seq<FnArg>): seq<string>
  {
    if |args| == 0 then []
    else (if args[0].StaticArg? then [args[0].text] else []) + StaticTexts(args[1..])
  }

  /** `n` consecutive numbers from `lo`. */
  function Range(lo: nat, n: nat): (r: seq<nat>)
    ensures |r| == n
    ensures forall i :: 0 <= i < n ==> r[i] == lo + i
    decreases n
  {
    if n == 0 then [] else [lo] + Range(lo + 1, n - 1)
  }

  lemma ValueIndicesConcat(a: seq<FnArg>, b: seq<FnArg>)
    ensures ValueIndices(a + b) == ValueIndices(a) + ValueIndices(b)
  {
    if |a| > 0 {
      assert (a + b)[1..] == a[1..] + b;
      ValueIndicesConcat(a[1..], b);
    } else {
      assert a + b == b;
    }
  }

  lemma StaticTextsConcat(a: seq<FnArg>, b: seq<FnArg>)
    ensures StaticTexts(a + b) == StaticTexts(a) + StaticTexts(b)
  {
    if |a| > 0 {
      assert (a + b)[1..] == a[1..] + b;
      StaticTextsConcat(a[1..], b);
    } else {
      assert a + b == b;
    }
  }

  /** The walk emits consecutive indices from `pi`, one per `'v'` that still has a value. */
  lemma {:induction false} ArgWalkValueIndices(format: string, statics: seq<string>, size: nat, si: nat, vi: nat, pi: nat)
    requires si <= |statics| && vi <= size
    ensures ValueIndices(ArgWalk(format, statics, size, si, vi, pi))
         == Range(pi, Min(vi + CountOf('v', format), size) - vi)
    decreases |format|
  {
    if |format| > 0 {
      CountOfCons('v', format);
      var rest := format[1..];
      if format[0] == 's' && si < |statics| {
        ArgWalkValueIndices(rest, statics, size, si + 1, vi, pi);
        ValueIndicesConcat([StaticArg(statics[si])], ArgWalk(rest, statics, size, si + 1, vi, pi));
      } else if format[0] == 'v' && vi < size {
        ArgWalkValueIndices(rest, statics, size, si, vi + 1, pi + 1);
        ValueIndicesConcat([ValueArg(pi)], ArgWalk(rest, statics, size, si, vi + 1, pi + 1));
      } else {
        ArgWalkValueIndices(rest, statics, size, si, vi, pi);
      }
    }
  }

  /** The walk emits the literals in order, one per `'s'` while literals remain. */
  lemma {:induction false} ArgWalkStaticTexts(format: string, statics: seq<string>, size: nat, si: nat, vi: nat, pi: nat)
    requires si <= |statics| && vi <= size
    ensures StaticTexts(ArgWalk(format, statics, size, si, vi, pi))
         == statics[si..Min(si + CountOf('s', format), |statics|)]
    decreases |format|
  {
    if |format| > 0 {
      CountOfCons('s', format);
      var rest := format[1..];
      if format[0] == 's' && si < |statics| {
        ArgWalkStaticTexts(rest, statics, size, si + 1, vi, pi);
        StaticTextsConcat([StaticArg(statics[si])], ArgWalk(rest, statics, size, si + 1, vi, pi));
        var hi := Min(si + CountOf('s', format), |statics|);
        assert statics[si..hi] == [statics[si]] + statics[si + 1..hi];
      } else if format[0] == 'v' && vi < size {
        ArgWalkStaticTexts(rest, statics, size, si, vi + 1, pi + 1);
        StaticTextsConcat([ValueArg(pi)], ArgWalk(rest, statics, size, si, vi + 1, pi + 1));
      } else {
        ArgWalkStaticTexts(rest, statics, size, si, vi, pi);
      }
    }
  }

  /** The arguments of a dynamic function field. */
  function DynamicArgs<V>(f: FieldDef<V>): seq<FnArg>
  {
    ArgWalk(f.parameterFormat, f.staticParams, |f.fnValues|, 0, 0, f.startIndex)
  }

  /**
   * The argument loop of `build_function_with_dynamic_parameters`, with the
   * separator pushed only in front of an argument that is actually emitted.
   */
  function DynamicLoop(format: string, statics: seq<string>, size: nat, si: nat, vi: nat, pi: nat,
                       first: bool, acc: string): (r: string)
    requires si <= |statics| && vi <= size
    ensures r == ConcatLoop(acc, FnArgTexts(ArgWalk(format, statics, size, si, vi, pi)), ", ", first)
    decreases |format|
  {
    if |format| == 0 then acc
    else if format[0] == 's' && si < |statics| then
      DynamicLoop(format[1..], statics, size, si + 1, vi, pi, false, (if first then acc else acc + ", ") + statics[si])
    else if format[0] == 'v' && vi < size then
      DynamicLoop(format[1..], statics, size, si, vi + 1, pi + 1, false,
                  (if first then acc else acc + ", ") + StubPlaceholder(pi))
    else DynamicLoop(format[1..], statics, size, si, vi, pi, first, acc)
  }

  /**
   * `build_function_with_dynamic_parameters` (corrected, see Findings): the
   * function name, the emitted arguments joined by `", "`, the alias.
   */
  function BuildFunctionWithDynamicParameters<V>(f: FieldDef<V>): (r: string)
    ensures r == f.functionName + "(" + Join(FnArgTexts(DynamicArgs(f)), ", ") + ")" + AliasSuffix(f.fieldAlias)
  {
    f.functionName + "("
      + DynamicLoop(f.parameterFormat, f.staticParams, |f.fnValues|, 0, 0, f.startIndex, true, "")
      + ")" + AliasSuffix(f.fieldAlias)
  }

  /**
   * The argument loop of `build_function_with_dynamic_parameters` as
   * written: `", "` is pushed before any `'s'`/`'v'` character while either
   * pool still has an element, even when this character's own pool is empty
   * and nothing is emitted after the separator.
   */
  function DynamicLoopAsWritten(format: string, statics: seq<string>, size: nat, si: nat, vi: nat, pi: nat,
                                first: bool, acc: string): string
    requires si <= |statics| && vi <= size
    decreases |format|
  {
    if |format| == 0 then acc
    else
      var c := format[0];
      var acc1 := if (si < |statics| || vi < size) && (c == 's' || c == 'v') && !first then acc + ", " else acc;
      if c == 's' && si < |statics| then
        DynamicLoopAsWritten(format[1..], statics, size, si + 1, vi, pi, false, acc1 + statics[si])
      else if c == 'v' && vi < size then
        DynamicLoopAsWritten(format[1..], statics, size, si, vi + 1, pi + 1, false, acc1 + StubPlaceholder(pi))
      else DynamicLoopAsWritten(format[1..], statics, size, si, vi, pi, first, acc1)
  }

  /**
   * `build_function_with_dynamic_parameters` as written. It agrees with the
   * corrected renderer whenever every `'s'` of the format finds a literal
   * and every `'v'` finds a value.
   */
  function BuildFunctionWithDynamicParametersAsWritten<V>(f: FieldDef<V>): (r: string)
    ensures Served(f) ==> r == BuildFunctionWithDynamicParameters(f)
  {
    var args := DynamicLoopAsWritten(f.parameterFormat, f.staticParams, |f.fnValues|, 0, 0, f.startIndex, true, "");
    if Served(f) then
      DynamicLoopAsWrittenAgreesWhenServed(f.parameterFormat, f.staticParams, |f.fnValues|, 0, 0, f.startIndex, true, "");
      f.functionName + "(" + args + ")" + AliasSuffix(f.fieldAlias)
    else f.functionName + "(" + args + ")" + AliasSuffix(f.fieldAlias)
  }

  /** Every `'s'` of a dynamic function's format finds a literal and every `'v'` a value. */
  predicate Served<V>(f: FieldDef<V>)
  {
    CountOf('s', f.parameterFormat) <= |f.staticParams| && CountOf('v', f.parameterFormat) <= |f.fnValues|
  }

  /**
   * The two loops agree whenever every `'s'` finds a literal and every `'v'`
   * finds a value: the defect needs a character whose own pool is empty.
   */
  lemma {:induction false} DynamicLoopAsWrittenAgreesWhenServed(format: string, statics: seq<string>, size: nat,
                                                                si: nat, vi: nat, pi: nat, first: bool, acc: string)
    requires si <= |statics| && vi <= size
    requires si + CountOf('s', format) <= |statics| && vi + CountOf('v', format) <= size
    ensures DynamicLoopAsWritten(format, statics, size, si, vi, pi, first, acc)
         == DynamicLoop(format, statics, size, si, vi, pi, first, acc)
    decreases |format|
  {
    if |format| > 0 {
      CountOfCons('s', format);
      CountOfCons('v', format);
      var rest := format[1..];
      if format[0] == 's' {
        DynamicLoopAsWrittenAgreesWhenServed(rest, statics, size, si + 1, vi, pi, false,
                                             (if first then acc else acc + ", ") + statics[si]);
      } else if format[0] == 'v' {
        DynamicLoopAsWrittenAgreesWhenServed(rest, statics, size, si, vi + 1, pi + 1, false,
                                             (if first then acc else acc + ", ") + StubPlaceholder(pi));
      } else {
        DynamicLoopAsWrittenAgreesWhenServed(rest, statics, size, si, vi, pi, first, acc);
      }
    }
  }

  /** The argument loops on format `"vsv"` with two values and no literals, step by step. */
  lemma StraySeparatorLoops(p1: string, p2: string)
    requires p1 == StubPlaceholder(1) && p2 == StubPlaceholder(2)
    ensures DynamicLoopAsWritten("vsv", [], 2, 0, 0, 1, true, "") == p1 + ", , " + p2
    ensures DynamicLoop("vsv", [], 2, 0, 0, 1, true, "") == p1 + ", " + p2
  {
    StraySeparatorLoopAsWritten(p1, p2);
    StraySeparatorLoopCorrected(p1, p2);
  }

  /** As written, the `'s'` finds no literal but a value remains, so `", "` is pushed anyway. */
  lemma StraySeparatorLoopAsWritten(p1: string, p2: string)
    requires p1 == StubPlaceholder(1) && p2 == StubPlaceholder(2)
    ensures DynamicLoopAsWritten("vsv", [], 2, 0, 0, 1, true, "") == p1 + ", , " + p2
  {
    var s: seq<string> := [];
    assert "vsv"[1..] == "sv" && "sv"[1..] == "v" && "v"[1..] == "";
    assert DynamicLoopAsWritten("", s, 2, 0, 2, 3, false, p1 + ", " + ", " + p2) == p1 + ", " + ", " + p2;
    assert DynamicLoopAsWritten("v", s, 2, 0, 1, 2, false, p1 + ", ")
        == DynamicLoopAsWritten("", s, 2, 0, 2, 3, false, p1 + ", " + ", " + p2);
    assert DynamicLoopAsWritten("sv", s, 2, 0, 1, 2, false, p1)
        == DynamicLoopAsWritten("v", s, 2, 0, 1, 2, false, p1 + ", ");
    assert [] + p1 == p1;
    assert DynamicLoopAsWritten("vsv", s, 2, 0, 0, 1, true, "")
        == DynamicLoopAsWritten("sv", s, 2, 0, 1, 2, false, [] + p1);
    assert p1 + ", " + ", " + p2 == p1 + ", , " + p2;
  }

  /** Corrected, the `'s'` with no literal left is skipped. */
  lemma StraySeparatorLoopCorrected(p1: string, p2: string)
    requires p1 == StubPlaceholder(1) && p2 == StubPlaceholder(2)
    ensures DynamicLoop("vsv", [], 2, 0, 0, 1, true, "") == p1 + ", " + p2
  {
    var s: seq<string> := [];
    assert "vsv"[1..] == "sv" && "sv"[1..] == "v" && "v"[1..] == "";
    assert [] + p1 == p1;
    assert DynamicLoop("", s, 2, 0, 2, 3, false, p1 + ", " + p2) == p1 + ", " + p2;
    assert DynamicLoop("v", s, 2, 0, 1, 2, false, p1) == DynamicLoop("", s, 2, 0, 2, 3, false, p1 + ", " + p2);
    assert DynamicLoop("sv", s, 2, 0, 1, 2, false, p1) == DynamicLoop("v", s, 2, 0, 1, 2, false, p1);
    assert DynamicLoop("vsv", s, 2, 0, 0, 1, true, "") == DynamicLoop("sv", s, 2, 0, 1, 2, false, [] + p1);
  }

  /** The dynamic call `f` of format `"vsv"` with two values and no literals, numbered from 1. */
  function StraySeparatorField(): FieldDef<int>
  {
    FieldDef("", None, [], [7, 8], "f", "vsv", false, NoAggregate, None, 1, 3, 0, FnParameterizedValues, PostgreSQL)
  }

  /**
   * Counterexample: format `"vsv"` with two values and no literals. As
   * written the call renders `f(param1, , param2)`; the corrected loop
   * renders `f(param1, param2)`.
   */
  lemma DynamicStraySeparatorAsWritten()
    ensures var f := StraySeparatorField();
      && !Served(f)
      && BuildFunctionWithDynamicParametersAsWritten(f) == "f(" + StubPlaceholder(1) + ", , " + StubPlaceholder(2) + ")"
      && BuildFunctionWithDynamicParameters(f) == "f(" + StubPlaceholder(1) + ", " + StubPlaceholder(2) + ")"
  {
    StrayFieldNotServed();
    StrayFieldRenders(StubPlaceholder(1), StubPlaceholder(2));
  }

  /** The `'s'` of `"vsv"` finds no literal. */
  lemma StrayFieldNotServed()
    ensures !Served(StraySeparatorField())
  {
    CountOfCons('s', "vsv");
    assert "vsv"[1..] == "sv";
    CountOfCons('s', "sv");
  }

  /** Both renderings of the `"vsv"` call, from the loops. */
  lemma StrayFieldRenders(p1: string, p2: string)
    requires p1 == StubPlaceholder(1) && p2 == StubPlaceholder(2)
    ensures BuildFunctionWithDynamicParametersAsWritten(StraySeparatorField()) == "f(" + p1 + ", , " + p2 + ")"
    ensures BuildFunctionWithDynamicParameters(StraySeparatorField()) == "f(" + p1 + ", " + p2 + ")"
  {
    var f := StraySeparatorField();
    StraySeparatorLoops(p1, p2);
    StrayFieldNotServed();
    assert AliasSuffix(f.fieldAlias) == "";
  }

  /**
   * A dynamic function emits exactly `min(#'v', #values)` consecutive
   * placeholders starting at its start index, the last one just below the
   * index it hands back, and its literals in order.
   */
  lemma DynamicFunctionPlaceholders<V>(dialect: DatabaseDialect, name: string, format: string, fnValues: seq<V>,
                                       statics: seq<string>, paramIndex: nat, level: nat, alias: Option<string>)
    ensures var f := NewDynamicFunction(dialect, name, format, fnValues, statics, paramIndex, level, alias);
      && ValueIndices(DynamicArgs(f)) == Range(f.startIndex, f.currentIndex - f.startIndex)
      && StaticTexts(DynamicArgs(f)) == statics[..Min(CountOf('s', format), |statics|)]
  {
    var f := NewDynamicFunction(dialect, name, format, fnValues, statics, paramIndex, level, alias);
    ArgWalkValueIndices(format, statics, |fnValues|, 0, 0, paramIndex);
    ArgWalkStaticTexts(format, statics, |fnValues|, 0, 0, paramIndex);
  }

  /**
   * `generate_query`: the renderer is chosen by the mode alone; `reading`
   * says whether a dynamic function call renders through the argument loop
   * as written or the corrected one, which differ only when a format
   * character finds its pool empty.
   */
  function GenerateQuery<V>(f: FieldDef<V>, reading: Reading): (r: string)
    ensures (f.mode == FieldRaw || f.mode == FieldWType) ==> r == BuildField(f)
    ensures f.mode == FnStaticParameter
            ==> r == f.functionName + "(" + Join(f.staticParams, ", ") + ")" + AliasSuffix(f.fieldAlias)
    ensures f.mode == FnParameterizedValues && (reading == Corrected || Served(f))
            ==> r == f.functionName + "(" + Join(FnArgTexts(DynamicArgs(f)), ", ") + ")" + AliasSuffix(f.fieldAlias)
    ensures f.mode == FnParameterizedValues && reading == AsWritten ==> r == BuildFunctionWithDynamicParametersAsWritten(f)
  {
    match f.mode
    case FieldRaw => BuildField(f)
    case FieldWType => BuildField(f)
    case FnStaticParameter => BuildFunctionWithStaticParameters(f)
    case FnParameterizedValues =>
      if reading == AsWritten then BuildFunctionWithDynamicParametersAsWritten(f)
      else BuildFunctionWithDynamicParameters(f)
  }

  /** Raw and typed columns render identically. */
  lemma RawAndTypedRenderAlike<V>(f: FieldDef<V>, reading: Reading)
    ensures GenerateQuery(f.(mode := FieldRaw), reading) == GenerateQuery(f.(mode := FieldWType), reading) == BuildField(f)
  {
  }

  /**
   * Counterexample: the dynamic call of format `"vsv"` with two values and
   * no literals is the one field whose text depends on the reading.
   */
  lemma ReadingsDifferOnStraySeparator()
    ensures var f := StraySeparatorField();
      && !Served(f)
      && GenerateQuery(f, AsWritten) == "f(" + StubPlaceholder(1) + ", , " + StubPlaceholder(2) + ")"
      && GenerateQuery(f, Corrected) == "f(" + StubPlaceholder(1) + ", " + StubPlaceholder(2) + ")"
  {
    DynamicStraySeparatorAsWritten();
  }
}

=== FILE: from_statement.dfy ===
/**
 * The FROM collection (`sqlbuilder/from_statement.rs`): named tables with
 * optional aliases, then nested statements, rendered as one comma-separated
 * list. Generic in the type `Q` of a nested statement.
 */
module From {
  import opened Wrappers
  import opened StringUtils
  import opened Def

  /** One table reference. */
  datatype FromTable = FromTable(table: string, tableAlias: Option<string>)

  /** `FromTable::new`: an empty name and no alias. */
  function NewFromTable(): (t: FromTable)
    ensures t.table == "" && t.tableAlias.None?
  {
    FromTable("", None)
  }

  /** `build_table_name`: the name, followed by `" AS alias"` exactly when an alias is given. */
  function BuildTableName(t: FromTable): (r: string)
    ensures t.tableAlias.None? ==> r == t.table
    ensures t.tableAlias.Some? ==> r == t.table + " AS " + t.tableAlias.value
    ensures |r| >= |t.table| && r[..|t.table|] == t.table
  {
    match t.tableAlias
    case Some(alias) => t.table + " AS " + alias
    case None => t.table
  }

  /**
   * A FROM collection. `values` and `counter` are the snapshot of the
   * owning statement's value list and parameter index taken when the
   * collection was created (or resynchronised).
   */
  datatype FromTableStatement<V, Q> = FromTableStatement(
    hasParent: bool,
    tables: seq<FromTable>,
    subqueries: seq<Q>,
    values: seq<V>,
    counter: nat,
    level: nat,
    dialect: DatabaseDialect)

  /** `FromTableStatement::new`: always created by a statement, so it has a parent. */
  function New<V, Q>(values: seq<V>, counter: nat, level: nat, dialect: DatabaseDialect): (f: FromTableStatement<V, Q>)
  {
    FromTableStatement(true, [], [], values, counter, level, dialect)
  }

  /** A FROM collection starts empty, resuming its parent's values, index and level. */
  lemma NewStartsEmpty<V, Q>(values: seq<V>, counter: nat, level: nat, dialect: DatabaseDialect)
    ensures var f := New<V, Q>(values, counter, level, dialect);
            && f.hasParent && f.tables == [] && f.subqueries == []
            && f.values == values && f.counter == counter && f.level == level
  {
  }

  /** `add_table`: appends one table; nothing else changes. */
  function AddTable<V, Q>(f: FromTableStatement<V, Q>, t: FromTable): (r: FromTableStatement<V, Q>)
    ensures r.tables == f.tables + [t]
    ensures r.(tables := f.tables) == f
  {
    f.(tables := f.tables + [t])
  }

  /** `add_table_with_alias`. */
  function AddTableWithAlias<V, Q>(f: FromTableStatement<V, Q>, name: string, alias: Option<string>): (r: FromTableStatement<V, Q>)
    ensures |r.tables| == |f.tables| + 1 && r.tables[..|f.tables|] == f.tables
    ensures BuildTableName(r.tables[|f.tables|]) == name + (if alias.Some? then " AS " + alias.value else "")
    ensures r.(tables := f.tables) == f
  {
    AddTable(f, FromTable(name, alias))
  }

  /** `update_current_parameter_index`. */
  function UpdateCurrentParameterIndex<V, Q>(f: FromTableStatement<V, Q>, index: nat): (r: FromTableStatement<V, Q>)
    ensures r.counter == index && r.(counter := f.counter) == f
  {
    f.(counter := index)
  }

  /** The push at the end of `create_new_select_block`. */
  function AppendSubquery<V, Q>(f: FromTableStatement<V, Q>, child: Q): (r: FromTableStatement<V, Q>)
    ensures r.subqueries == f.subqueries + [child]
    ensures r.(subqueries := f.subqueries) == f
  {
    f.(subqueries := f.subqueries + [child])
  }

  /**
   * `is_empty` as written: there is no table entry to list; the subqueries
   * are not consulted, so every collection empty in the corrected sense is
   * empty here too, but not conversely (see Findings).
   */
  predicate IsEmptyAsWritten<V, Q>(f: FromTableStatement<V, Q>): (r: bool)
    ensures r <==> TableEntries(f.tables, f.level, false) == []
    ensures IsEmpty(f) ==> r
  {
    |f.tables| == 0
  }

  /**
   * `is_empty`, corrected: the collection has no entry to list, whatever its
   * subqueries would render to.
   */
  predicate IsEmpty<V, Q>(f: FromTableStatement<V, Q>): (r: bool)
    ensures r <==> forall subs: seq<RenderedSubquery> | |subs| == |f.subqueries| :: Entries(f, subs, false) == []
  {
    var blank := seq(|f.subqueries|, _ => RenderedSubquery("", ""));
    assert |Entries(f, blank, false)| == |f.tables| + |f.subqueries|;
    |f.tables| == 0 && |f.subqueries| == 0
  }

  /** A nested statement as the FROM list needs it: its rendered text and its alias. */
  datatype RenderedSubquery = RenderedSubquery(text: string, alias: string)

  function Separator(prettyPrint: bool): string
  {
    if prettyPrint then ",\n" else ", "
  }

  function EntryIndent(level: nat, prettyPrint: bool): string
  {
    if prettyPrint then IndentSpace(level + 1) else ""
  }

  /**
   * One subquery entry: the text in parentheses after a newline. The alias
   * is written INSIDE the closing parenthesis, as the source's format string
   * places it.
   */
  function SubqueryEntry(s: RenderedSubquery, level: nat, prettyPrint: bool): string
  {
    EntryIndent(level, prettyPrint) + "(\n" + s.text + (if s.alias == "" then "" else " AS " + s.alias) + ")"
  }

  function TableEntry(t: FromTable, level: nat, prettyPrint: bool): string
  {
    EntryIndent(level, prettyPrint) + BuildTableName(t)
  }

  function TableEntries(ts: seq<FromTable>, level: nat, prettyPrint: bool): (r: seq<string>)
    ensures |r| == |ts|
    ensures forall i :: 0 <= i < |ts| ==> r[i] == TableEntry(ts[i], level, prettyPrint)
  {
    if |ts| == 0 then [] else [TableEntry(ts[0], level, prettyPrint)] + TableEntries(ts[1..], level, prettyPrint)
  }

  function SubqueryEntries(ss: seq<RenderedSubquery>, level: nat, prettyPrint: bool): (r: seq<string>)
    ensures |r| == |ss|
    ensures forall i :: 0 <= i < |ss| ==> r[i] == SubqueryEntry(ss[i], level, prettyPrint)
  {
    if |ss| == 0 then [] else [SubqueryEntry(ss[0], level, prettyPrint)] + SubqueryEntries(ss[1..], level, prettyPrint)
  }

  /** All entries of a FROM list, tables first, in insertion order. */
  function Entries<V, Q>(f: FromTableStatement<V, Q>, subs: seq<RenderedSubquery>, prettyPrint: bool): (r: seq<string>)
    ensures |r| == |f.tables| + |subs|
  {
    TableEntries(f.tables, f.level, prettyPrint) + SubqueryEntries(subs, f.level, prettyPrint)
  }

  /**
   * The subquery loop of `generate_query` as written: the separator is
   * decided by a flag the loop never clears, so consecutive subqueries
   * after no table are glued together.
   */
  function SubqueryLoopAsWritten(acc: string, parts: seq<string>, sep: string, first: bool): string
    decreases |parts|
  {
    if |parts| == 0 then acc
    else SubqueryLoopAsWritten((if first then acc else acc + sep) + parts[0], parts[1..], sep, first)
  }

  /** `generate_query` as written; `subs` are the rendered forms of `f.subqueries`. */
  function GenerateQueryAsWritten<V, Q>(f: FromTableStatement<V, Q>, subs: seq<RenderedSubquery>, prettyPrint: bool): string
    requires |subs| == |f.subqueries|
  {
    var sep := Separator(prettyPrint);
    var tables := ConcatLoop("", TableEntries(f.tables, f.level, prettyPrint), sep, true);
    SubqueryLoopAsWritten(tables, SubqueryEntries(subs, f.level, prettyPrint), sep, |f.tables| == 0)
  }

  /** The table loop followed by the subquery loop, resuming its flag, joins both lists. */
  lemma {:induction false} TwoLoopsJoin(a: seq<string>, b: seq<string>, sep: string)
    ensures ConcatLoop(ConcatLoop("", a, sep, true), b, sep, |a| == 0) == Join(a + b, sep)
  {
    if |a| == 0 {
      assert a + b == b;
      if |b| > 0 {
        assert "" + Join(b, sep) == Join(b, sep);
      }
    } else if |b| == 0 {
      assert a + b == a;
      assert "" + Join(a, sep) == Join(a, sep);
    } else {
      JoinConcat(a, b, sep);
      assert "" + Join(a, sep) == Join(a, sep);
    }
  }

  /**
   * `generate_query`, corrected (see Findings): the table loop, then the
   * subquery loop continuing the same first-element flag. The result is the
   * tables then the subqueries joined by one separator; an empty collection
   * renders nothing, and one with a subquery never renders nothing.
   */
  function GenerateQuery<V, Q>(f: FromTableStatement<V, Q>, subs: seq<RenderedSubquery>, prettyPrint: bool): (r: string)
    requires |subs| == |f.subqueries|
    ensures r == Join(Entries(f, subs, prettyPrint), Separator(prettyPrint))
    ensures IsEmpty(f) ==> r == ""
    ensures |f.subqueries| > 0 ==> r != ""
  {
    var sep := Separator(prettyPrint);
    var tableParts := TableEntries(f.tables, f.level, prettyPrint);
    var subParts := SubqueryEntries(subs, f.level, prettyPrint);
    TwoLoopsJoin(tableParts, subParts, sep);
    SubqueryKeepsText(tableParts, subParts, sep);
    ConcatLoop(ConcatLoop("", tableParts, sep, true), subParts, sep, |tableParts| == 0)
  }

  /** A join that contains a non-empty part is non-empty. */
  lemma SubqueryKeepsText(a: seq<string>, b: seq<string>, sep: string)
    requires |b| > 0 ==> |b[0]| > 0
    ensures |b| > 0 ==> Join(a + b, sep) != ""
  {
    if |b| > 0 {
      JoinContains(a + b, |a|, sep);
    }
  }

  /** Every part is a sub-string of the join, so its length bounds the join's. */
  lemma {:induction false} JoinContains(parts: seq<string>, i: nat, sep: string)
    requires i < |parts|
    ensures |Join(parts, sep)| >= |parts[i]|
  {
    if |parts| > 1 && i > 0 {
      JoinContains(parts[1..], i - 1, sep);
    }
  }

  /**
   * The converse of "an empty collection renders nothing" holds for named
   * tables: a table whose name is not empty always shows in the list.
   */
  lemma NamedTableRendersText<V, Q>(f: FromTableStatement<V, Q>, subs: seq<RenderedSubquery>, prettyPrint: bool, i: nat)
    requires |subs| == |f.subqueries| && i < |f.tables| && f.tables[i].table != ""
    ensures GenerateQuery(f, subs, prettyPrint) != ""
  {
    var parts := Entries(f, subs, prettyPrint);
    assert parts[i] == TableEntry(f.tables[i], f.level, prettyPrint);
    JoinContains(parts, i, Separator(prettyPrint));
  }

  /**
   * Without a name it need not: one table built by `FromTable::new` (empty
   * name, no alias) makes the collection non-empty, yet the compact list
   * is the empty text.
   */
  lemma UnnamedTableRendersNothing<V, Q>(f: FromTableStatement<V, Q>)
    requires f.tables == [NewFromTable()] && f.subqueries == []
    ensures !IsEmpty(f) && GenerateQuery(f, [], false) == ""
  {
  }

  /** Once some entry has been written, the as-written subquery loop separates like the corrected one. */
  lemma {:induction false} SubqueryLoopAgreesAfterFirst(acc: string, parts: seq<string>, sep: string)
    ensures SubqueryLoopAsWritten(acc, parts, sep, false) == ConcatLoop(acc, parts, sep, false)
    decreases |parts|
  {
    if |parts| > 0 {
      SubqueryLoopAgreesAfterFirst(acc + sep + parts[0], parts[1..], sep);
    }
  }

  /** With at least one table, or at most one subquery, the as-written renderer is correct. */
  lemma GenerateQueryAsWrittenAgrees<V, Q>(f: FromTableStatement<V, Q>, subs: seq<RenderedSubquery>, prettyPrint: bool)
    requires |subs| == |f.subqueries|
    requires |f.tables| > 0 || |f.subqueries| <= 1
    ensures GenerateQueryAsWritten(f, subs, prettyPrint) == GenerateQuery(f, subs, prettyPrint)
  {
    var sep := Separator(prettyPrint);
    var tableParts := TableEntries(f.tables, f.level, prettyPrint);
    var subParts := SubqueryEntries(subs, f.level, prettyPrint);
    if |f.tables| > 0 {
      SubqueryLoopAgreesAfterFirst(ConcatLoop("", tableParts, sep, true), subParts, sep);
    } else if |subParts| == 1 {
      assert ConcatLoop("", tableParts, sep, true) == "";
      assert subParts[1..] == [];
      assert SubqueryLoopAsWritten("", subParts, sep, true) == SubqueryLoopAsWritten("" + subParts[0], [], sep, true);
      assert ConcatLoop("", subParts, sep, true) == ConcatLoop("" + subParts[0], [], sep, false);
    }
  }

  /**
   * Finding, as written: a FROM list of two subqueries and no table
   * renders them with no separator between them; the corrected renderer
   * puts one there.
   */
  lemma SubquerySeparatorAsWritten<V, Q>(f: FromTableStatement<V, Q>, a: RenderedSubquery, b: RenderedSubquery)
    requires f.tables == [] && |f.subqueries| == 2
    ensures GenerateQueryAsWritten(f, [a, b], false)
         == SubqueryEntry(a, f.level, false) + SubqueryEntry(b, f.level, false)
    ensures GenerateQuery(f, [a, b], false)
         == SubqueryEntry(a, f.level, false) + ", " + SubqueryEntry(b, f.level, false)
  {
    var parts := SubqueryEntries([a, b], f.level, false);
    assert parts == [SubqueryEntry(a, f.level, false), SubqueryEntry(b, f.level, false)];
    assert parts[1..][1..] == [];
    assert ConcatLoop("", [], ", ", true) == "";
    assert SubqueryLoopAsWritten("", parts, ", ", true) == SubqueryLoopAsWritten("" + parts[0], parts[1..], ", ", true);
    assert SubqueryLoopAsWritten("" + parts[0], parts[1..], ", ", true)
        == SubqueryLoopAsWritten("" + parts[0] + parts[1], parts[1..][1..], ", ", true);
    assert "" + parts[0] + parts[1] == parts[0] + parts[1];
    assert TableEntries(f.tables, f.level, false) + parts == parts;
    JoinAppend([SubqueryEntry(a, f.level, false)], SubqueryEntry(b, f.level, false), ", ");
    assert [SubqueryEntry(a, f.level, false)] + [SubqueryEntry(b, f.level, false)] == parts;
  }

  /**
   * Finding, as written: a FROM list holding only subqueries counts as
   * empty, although it has text to render; the corrected test agrees with
   * the renderer.
   */
  lemma IsEmptyIgnoresSubqueries<V, Q>(f: FromTableStatement<V, Q>, subs: seq<RenderedSubquery>, prettyPrint: bool)
    requires f.tables == [] && |f.subqueries| > 0 && |subs| == |f.subqueries|
    ensures IsEmptyAsWritten(f)
    ensures !IsEmpty(f) && GenerateQuery(f, subs, prettyPrint) != ""
  {
  }
}

=== FILE: group_by.dfy ===
/**
 * GROUP BY keys (`sqlbuilder/group_by.rs`): field names with an optional
 * table alias, joined by commas; they bind no values.
 */
module GroupBy {
  import opened Wrappers
  import opened StringUtils

  datatype GroupByMode = Field | FunctionCall | RawString

  /** One GROUP BY key with the index range it occupies (always empty). */
  datatype GroupByClause = GroupByClause(
    fieldName: string,
    tableAlias: Option<string>,
    startIndex: nat,
    paramIndex: nat,
    level: nat,
    mode: GroupByMode)

  /** `process_next_parameter_index`: a key never consumes an index, whatever its mode. */
  function ProcessNextParameterIndex(mode: GroupByMode, startIndex: nat): (r: nat)
    ensures r == startIndex
  {
    startIndex
  }

  /** `GroupByClause::new`: starts and ends at the index it is given. */
  function NewClause(fieldName: string, alias: Option<string>, mode: GroupByMode, paramIndex: nat, level: nat): (c: GroupByClause)
    ensures c.startIndex == paramIndex && c.paramIndex == paramIndex
    ensures c.fieldName == fieldName && c.tableAlias == alias && c.mode == mode
  {
    var index := ProcessNextParameterIndex(mode, paramIndex);
    GroupByClause(fieldName, alias, index, index, level, mode)
  }

  /** `build_fieldname`: `alias.field`, or the bare field without an alias. */
  function BuildFieldName(c: GroupByClause): (r: string)
    ensures c.tableAlias.None? ==> r == c.fieldName
    ensures c.tableAlias.Some? ==> r == c.tableAlias.value + "." + c.fieldName
  {
    match c.tableAlias
    case Some(alias) => alias + "." + c.fieldName
    case None => c.fieldName
  }

  /** `GroupByClause::generate_query`. */
  function GenerateClause(c: GroupByClause): string
  {
    BuildFieldName(c)
  }

  function ClauseTexts(cs: seq<GroupByClause>): (r: seq<string>)
    ensures |r| == |cs|
    ensures forall i :: 0 <= i < |cs| ==> r[i] == GenerateClause(cs[i])
  {
    if |cs| == 0 then [] else [GenerateClause(cs[0])] + ClauseTexts(cs[1..])
  }

  /** A GROUP BY collection. */
  datatype GroupByStatement = GroupByStatement(hasParent: bool, sorts: seq<GroupByClause>, level: nat, counter: nat)

  /** `GroupByStatement::new`: free-standing, at level 0 and index 1. */
  function New(): (g: GroupByStatement)
    ensures !g.hasParent && g.sorts == [] && g.level == 0 && g.counter == 1
  {
    GroupByStatement(false, [], 0, 1)
  }

  /** `new_with_parent`: created by a statement at its index and level. */
  function NewWithParent(counter: nat, level: nat): (g: GroupByStatement)
    ensures g.hasParent && g.sorts == [] && g.level == level && g.counter == counter
  {
    GroupByStatement(true, [], level, counter)
  }

  /** `field`: one more key at the end; the index is unchanged. */
  function AddField(g: GroupByStatement, fieldName: string, alias: Option<string>): (r: GroupByStatement)
    ensures |r.sorts| == |g.sorts| + 1 && r.sorts[..|g.sorts|] == g.sorts
    ensures BuildFieldName(r.sorts[|g.sorts|]) == BuildFieldName(GroupByClause(fieldName, alias, 0, 0, 0, Field))
    ensures r.counter == g.counter && r.level == g.level && r.hasParent == g.hasParent
  {
    var c := NewClause(fieldName, alias, Field, g.counter, g.level);
    g.(counter := c.paramIndex, sorts := g.sorts + [c])
  }

  /** `generate_query`: the keys in order, joined by `", "`; pretty printing changes nothing. */
  function GenerateQuery(g: GroupByStatement, prettyPrint: bool): (r: string)
    ensures r == Join(ClauseTexts(g.sorts), ", ")
    ensures |g.sorts| == 0 ==> r == ""
  {
    SeparatedConcat(ClauseTexts(g.sorts), ", ")
  }

  /** Adding a key appends its name, behind `", "` unless it is the first. */
  lemma AddFieldRenders(g: GroupByStatement, fieldName: string, alias: Option<string>, prettyPrint: bool)
    ensures GenerateQuery(AddField(g, fieldName, alias), prettyPrint)
         == (if |g.sorts| == 0 then "" else GenerateQuery(g, prettyPrint) + ", ")
            + BuildFieldName(GroupByClause(fieldName, alias, 0, 0, 0, Field))
  {
    var r := AddField(g, fieldName, alias);
    var x := GenerateClause(r.sorts[|g.sorts|]);
    assert ClauseTexts(r.sorts) == ClauseTexts(g.sorts) + [x] by {
      assert r.sorts == g.sorts + [r.sorts[|g.sorts|]];
    }
    JoinAppend(ClauseTexts(g.sorts), x, ", ");
    if |g.sorts| == 0 {
      assert "" + x == x;
    }
  }
}

=== FILE: join_statement.dfy ===
/**
 * JOIN clauses (`sqlbuilder/join_statement.rs`): record keys, the join
 * definitions of each mode and their renderers, and the per-call JOIN
 * collection. Generic in the type `Q` of a nested statement.
 */
module Join {
  import opened Wrappers
  import opened StringUtils
  import opened Def

  /** One side of a join: a table, a key column, an optional alias. */
  datatype RecordKey = RecordKey(table: string, field: string, tableAlias: Option<string>, initialize: bool)

  /** `RecordKey::new`: empty names, no alias, not initialised. */
  function NewRecordKey(): (k: RecordKey)
    ensures k.table == "" && k.field == "" && k.tableAlias.None? && !k.initialize
  {
    RecordKey("", "", None, false)
  }

  /** `RecordKey::with_alias`: an initialised key. */
  function RecordKeyWithAlias(table: string, field: string, alias: Option<string>): (k: RecordKey)
    ensures k.table == table && k.field == field && k.tableAlias == alias && k.initialize
  {
    RecordKey(table, field, alias, true)
  }

  /** The qualifier of a key column: the alias when there is one, otherwise the table. */
  function Qualifier(k: RecordKey): string
  {
    if k.tableAlias.Some? then k.tableAlias.value else k.table
  }

  /** `build_field`: the key column qualified by the alias, or by the table when there is none. */
  function BuildField(k: RecordKey): (r: string)
    ensures r == Qualifier(k) + "." + k.field
    ensures k.tableAlias.None? ==> r == k.table + "." + k.field
  {
    match k.tableAlias
    case Some(alias) => alias + "." + k.field
    case None => k.table + "." + k.field
  }

  /** `build_table_name`: the table, then `" AS alias"` when an alias is given. */
  function BuildTableName(k: RecordKey): (r: string)
    ensures k.tableAlias.None? ==> r == k.table
    ensures k.tableAlias.Some? ==> r == k.table + " AS " + k.tableAlias.value
  {
    match k.tableAlias
    case Some(alias) => k.table + " AS " + alias
    case None => k.table
  }

  /**
   * One join definition; the variant is the source's `JoinDefMode`.
   * `KeyJoin` joins two record keys; `StringSubqueryJoin` joins a key with a
   * subquery given as text, its key column and alias; `ObjectSubqueryJoin`
   * holds a nested statement; `RawStringJoin` has no constructor in the
   * source and renders nothing.
   */
  datatype JoinDef<Q> =
    | KeyJoin(left: RecordKey, right: RecordKey, joinType: SqlJoinType, level: nat, dialect: DatabaseDialect)
    | StringSubqueryJoin(left: RecordKey, joinType: SqlJoinType, subquery: string, fieldKey: string,
                         alias: string, level: nat, dialect: DatabaseDialect)
    | ObjectSubqueryJoin(left: RecordKey, subqueryObject: Q, joinType: SqlJoinType, level: nat, dialect: DatabaseDialect)
    | RawStringJoin(joinType: SqlJoinType, level: nat, dialect: DatabaseDialect)

  /** `new_record_key_both`. */
  function NewRecordKeyBoth<Q>(left: RecordKey, right: RecordKey, join: SqlJoinType, level: nat,
                               dialect: DatabaseDialect): (j: JoinDef<Q>)
  {
    KeyJoin(left, right, join, level, dialect)
  }

  /** A keyed join keeps both keys and its join type. */
  lemma NewRecordKeyBothKeepsKeys<Q>(left: RecordKey, right: RecordKey, join: SqlJoinType, level: nat,
                                     dialect: DatabaseDialect)
    ensures var j := NewRecordKeyBoth<Q>(left, right, join, level, dialect);
            && j.KeyJoin? && j.left == left && j.right == right && j.joinType == join
  {
  }

  /** `new_subquery_select_string`; the right key is the empty one. */
  function NewSubquerySelectString<Q>(left: RecordKey, join: SqlJoinType, subquery: string, fieldKey: string,
                                      alias: string, level: nat, dialect: DatabaseDialect): (j: JoinDef<Q>)
  {
    StringSubqueryJoin(left, join, subquery, fieldKey, alias, level, dialect)
  }

  /** A string-subquery join keeps its key, join type, text, key column and alias. */
  lemma NewSubquerySelectStringKeepsParts<Q>(left: RecordKey, join: SqlJoinType, subquery: string, fieldKey: string,
                                             alias: string, level: nat, dialect: DatabaseDialect)
    ensures var j := NewSubquerySelectString<Q>(left, join, subquery, fieldKey, alias, level, dialect);
            && j.StringSubqueryJoin? && j.left == left && j.joinType == join
            && j.subquery == subquery && j.fieldKey == fieldKey && j.alias == alias
  {
  }

  /** `new_subquery_select_object`. */
  function NewSubquerySelectObject<Q>(existing: RecordKey, subquery: Q, join: SqlJoinType, level: nat,
                                      dialect: DatabaseDialect): (j: JoinDef<Q>)
    ensures j.ObjectSubqueryJoin? && j.left == existing && j.subqueryObject == subquery && j.joinType == join
  {
    ObjectSubqueryJoin(existing, subquery, join, level, dialect)
  }

  /** The keyword of a join type; `NoJoin` has none. */
  function JoinKeyword(t: SqlJoinType): string
  {
    match t
    case InnerJoin => "INNER JOIN"
    case LeftJoin => "LEFT JOIN"
    case RightJoin => "RIGHT JOIN"
    case NoJoin => ""
  }

  /**
   * `generate_left_join` / `generate_inner_join`: compact, one line; pretty,
   * the keyword, the table and the ON equation on lines indented at
   * `level`, `level+1` and `level+2`. The left key comes first in the equation.
   */
  function KeyedJoinText(keyword: string, left: RecordKey, right: RecordKey, level: nat, prettyPrint: bool): string
  {
    if prettyPrint then
      IndentSpace(level) + keyword + "\n" + IndentSpace(level + 1) + BuildTableName(right) + " ON\n"
        + IndentSpace(level + 2) + BuildField(left) + " = " + BuildField(right)
    else keyword + " " + BuildTableName(right) + " ON " + BuildField(left) + " = " + BuildField(right)
  }

  /** `generate_right_join`: always the compact form. */
  function RightJoinText(left: RecordKey, right: RecordKey): string
  {
    "RIGHT JOIN " + BuildTableName(right) + " ON " + BuildField(left) + " = " + BuildField(right)
  }

  /** The alias part of a string-subquery join: `" AS alias"` or nothing. */
  function SubqueryAliasPart(alias: string): string
  {
    if alias != "" then " AS " + alias else ""
  }

  /** The subquery's key column: qualified by the alias when there is one. */
  function SubqueryKey(alias: string, fieldKey: string): string
  {
    if alias != "" then alias + "." + fieldKey else fieldKey
  }

  /**
   * The text of the `*_join_from_str` renderers up to `ON`. The format puts
   * a space after the closing parenthesis AND at the start of the alias
   * part, so two spaces appear there.
   */
  function StringJoinHead(t: SqlJoinType, subquery: string, alias: string): string
  {
    JoinKeyword(t) + " (" + subquery + ") " + SubqueryAliasPart(alias) + " ON "
  }

  /**
   * The ON equation of the `*_join_from_str` renderers: LEFT puts the
   * subquery key first, RIGHT and INNER put the record key first; the
   * operator is always `=`.
   */
  function StringJoinEquation(t: SqlJoinType, key: RecordKey, fieldKey: string, alias: string): string
  {
    var eq := " " + OperatorDisplay(Equal) + " ";
    if t == LeftJoin then SubqueryKey(alias, fieldKey) + eq + BuildField(key)
    else BuildField(key) + eq + SubqueryKey(alias, fieldKey)
  }

  /** The `*_join_from_str` renderers; join type `NoJoin` renders nothing. */
  function StringJoinText(t: SqlJoinType, key: RecordKey, subquery: string, fieldKey: string, alias: string): string
  {
    if t == NoJoin then "" else StringJoinHead(t, subquery, alias) + StringJoinEquation(t, key, fieldKey, alias)
  }

  /**
   * `JoinDef::generate_query`, dispatching on the mode and then on the join
   * type. `objectText` is the compact rendering of the nested statement of
   * an object join.
   */
  function GenerateJoinDef<Q>(j: JoinDef<Q>, prettyPrint: bool, objectText: string): string
  {
    match j
    case KeyJoin(l, r, t, level, _) =>
      (match t
       case InnerJoin => KeyedJoinText("INNER JOIN", l, r, level, prettyPrint)
       case LeftJoin => KeyedJoinText("LEFT JOIN", l, r, level, prettyPrint)
       case RightJoin => RightJoinText(l, r)
       case NoJoin => "")
    case StringSubqueryJoin(l, t, sq, key, alias, _, _) => StringJoinText(t, l, sq, key, alias)
    case ObjectSubqueryJoin(_, _, _, _, _) => objectText
    case RawStringJoin(_, _, _) => ""
  }

  /** Compact key joins of every type read `KIND JOIN table ON left = right`. */
  lemma CompactKeyJoinShape<Q>(l: RecordKey, r: RecordKey, t: SqlJoinType, level: nat, d: DatabaseDialect, objectText: string)
    requires t != NoJoin
    ensures GenerateJoinDef(NewRecordKeyBoth<Q>(l, r, t, level, d), false, objectText)
         == JoinKeyword(t) + " " + BuildTableName(r) + " ON " + BuildField(l) + " = " + BuildField(r)
  {
  }

  /** A RIGHT key join renders the same text whether or not pretty printing is asked for. */
  lemma RightJoinIgnoresPretty<Q>(l: RecordKey, r: RecordKey, level: nat, d: DatabaseDialect, objectText: string)
    ensures GenerateJoinDef(NewRecordKeyBoth<Q>(l, r, RightJoin, level, d), true, objectText)
         == GenerateJoinDef(NewRecordKeyBoth<Q>(l, r, RightJoin, level, d), false, objectText)
  {
  }

  /** Pretty INNER and LEFT joins put the keyword, the table and the ON equation on three indented lines. */
  lemma PrettyKeyJoinLines<Q>(l: RecordKey, r: RecordKey, t: SqlJoinType, level: nat, d: DatabaseDialect, objectText: string)
    requires t == InnerJoin || t == LeftJoin
    ensures GenerateJoinDef(NewRecordKeyBoth<Q>(l, r, t, level, d), true, objectText)
         == IndentSpace(level) + JoinKeyword(t) + "\n"
          + IndentSpace(level + 1) + BuildTableName(r) + " ON\n"
          + IndentSpace(level + 2) + BuildField(l) + " = " + BuildField(r)
  {
  }

  /** Join type `NoJoin` and the raw-string mode render nothing. */
  lemma EmptyJoinsRenderNothing<Q>(j: JoinDef<Q>, prettyPrint: bool, objectText: string)
    requires j.RawStringJoin? || (j.joinType == NoJoin && !j.ObjectSubqueryJoin?)
    ensures GenerateJoinDef(j, prettyPrint, objectText) == ""
  {
  }

  /**
   * A string-subquery join with no alias has no `" AS "` part, leaving two
   * spaces before `ON`; with one, it reads `(subquery)  AS alias ON`.
   */
  lemma StringJoinHeadAliasing(t: SqlJoinType, subquery: string, alias: string)
    ensures alias == "" ==> StringJoinHead(t, subquery, alias) == JoinKeyword(t) + " (" + subquery + ")  ON "
    ensures alias != "" ==> StringJoinHead(t, subquery, alias) == JoinKeyword(t) + " (" + subquery + ")  AS " + alias + " ON "
  {
  }

  /**
   * The subquery key is unqualified without an alias and `alias.key` with
   * one; only LEFT puts it before the `=`.
   */
  lemma StringJoinEquationOrder(t: SqlJoinType, key: RecordKey, fieldKey: string, alias: string)
    ensures alias == "" && t == LeftJoin ==> StringJoinEquation(t, key, fieldKey, alias) == fieldKey + " = " + BuildField(key)
    ensures alias == "" && t != LeftJoin ==> StringJoinEquation(t, key, fieldKey, alias) == BuildField(key) + " = " + fieldKey
    ensures alias != "" && t == LeftJoin ==> StringJoinEquation(t, key, fieldKey, alias) == alias + "." + fieldKey + " = " + BuildField(key)
    ensures alias != "" && t != LeftJoin ==> StringJoinEquation(t, key, fieldKey, alias) == BuildField(key) + " = " + alias + "." + fieldKey
  {
  }

  /** A JOIN collection, one per `join()` call, with the index snapshot it was created with. */
  datatype JoinStatement<Q> = JoinStatement(
    hasParent: bool,
    joins: seq<JoinDef<Q>>,
    counter: nat,
    level: nat,
    dialect: DatabaseDialect)

  /** `JoinStatement::new`: created by a statement, so it has a parent; no joins yet. */
  function New<Q>(counter: nat, level: nat, dialect: DatabaseDialect): (js: JoinStatement<Q>)
  {
    JoinStatement(true, [], counter, level, dialect)
  }

  /** A JOIN collection starts empty from its parent's index and level. */
  lemma NewStartsEmpty<Q>(counter: nat, level: nat, dialect: DatabaseDialect)
    ensures var js := New<Q>(counter, level, dialect);
            && js.hasParent && js.joins == [] && js.counter == counter && js.level == level
  {
  }

  /** `is_empty`. */
  predicate IsEmpty<Q>(js: JoinStatement<Q>)
  {
    |js.joins| == 0
  }

  /** `r` is `js` with exactly `j` appended and nothing else changed. */
  ghost predicate AppendsJoin<Q>(js: JoinStatement<Q>, r: JoinStatement<Q>, t: SqlJoinType)
  {
    && |r.joins| == |js.joins| + 1 && r.joins[..|js.joins|] == js.joins
    && r.joins[|js.joins|].joinType == t && r.joins[|js.joins|].level == js.level
    && r.(joins := js.joins) == js
  }

  /** `left_join`. */
  function AddLeftJoin<Q>(js: JoinStatement<Q>, left: RecordKey, right: RecordKey): (r: JoinStatement<Q>)
    ensures AppendsJoin(js, r, LeftJoin) && r.joins[|js.joins|].KeyJoin?
  {
    js.(joins := js.joins + [NewRecordKeyBoth(left, right, LeftJoin, js.level, js.dialect)])
  }

  /** `right_join`. */
  function AddRightJoin<Q>(js: JoinStatement<Q>, left: RecordKey, right: RecordKey): (r: JoinStatement<Q>)
    ensures AppendsJoin(js, r, RightJoin) && r.joins[|js.joins|].KeyJoin?
  {
    js.(joins := js.joins + [NewRecordKeyBoth(left, right, RightJoin, js.level, js.dialect)])
  }

  /** `inner_join`. */
  function AddInnerJoin<Q>(js: JoinStatement<Q>, existing: RecordKey, joinOn: RecordKey): (r: JoinStatement<Q>)
    ensures AppendsJoin(js, r, InnerJoin) && r.joins[|js.joins|].KeyJoin?
  {
    js.(joins := js.joins + [NewRecordKeyBoth(existing, joinOn, InnerJoin, js.level, js.dialect)])
  }

  /** `left_join_with_query`: the `op` argument is accepted and ignored. */
  function AddLeftJoinWithQuery<Q>(js: JoinStatement<Q>, right: RecordKey, subquery: string, fieldKey: string,
                                   alias: string, op: SqlOperator): (r: JoinStatement<Q>)
    ensures AppendsJoin(js, r, LeftJoin) && r.joins[|js.joins|].StringSubqueryJoin?
    ensures r.joins[|js.joins|].alias == alias
  {
    js.(joins := js.joins + [NewSubquerySelectString(right, LeftJoin, subquery, fieldKey, alias, js.level, js.dialect)])
  }

  /** `right_join_with_query`: a missing alias becomes the empty one; `op` is ignored. */
  function AddRightJoinWithQuery<Q>(js: JoinStatement<Q>, left: RecordKey, subquery: string, fieldKey: string,
                                    alias: Option<string>, op: SqlOperator): (r: JoinStatement<Q>)
    ensures AppendsJoin(js, r, RightJoin) && r.joins[|js.joins|].StringSubqueryJoin?
    ensures r.joins[|js.joins|].alias == (if alias.Some? then alias.value else "")
  {
    var a := if alias.Some? then alias.value else "";
    js.(joins := js.joins + [NewSubquerySelectString(left, RightJoin, subquery, fieldKey, a, js.level, js.dialect)])
  }

  /** `inner_join_with_query`: a missing alias becomes the empty one; `op` is ignored. */
  function AddInnerJoinWithQuery<Q>(js: JoinStatement<Q>, existing: RecordKey, subquery: string, fieldKey: string,
                                    alias: Option<string>, op: SqlOperator): (r: JoinStatement<Q>)
    ensures AppendsJoin(js, r, InnerJoin) && r.joins[|js.joins|].StringSubqueryJoin?
    ensures r.joins[|js.joins|].alias == (if alias.Some? then alias.value else "")
  {
    var a := if alias.Some? then alias.value else "";
    js.(joins := js.joins + [NewSubquerySelectString(existing, InnerJoin, subquery, fieldKey, a, js.level, js.dialect)])
  }

  /** The operator passed to a `*_with_query` builder has no effect on the collection. */
  lemma WithQueryIgnoresOperator<Q>(js: JoinStatement<Q>, key: RecordKey, subquery: string, fieldKey: string,
                                    alias: string, op1: SqlOperator, op2: SqlOperator)
    ensures AddLeftJoinWithQuery(js, key, subquery, fieldKey, alias, op1) == AddLeftJoinWithQuery(js, key, subquery, fieldKey, alias, op2)
    ensures AddRightJoinWithQuery(js, key, subquery, fieldKey, Some(alias), op1) == AddRightJoinWithQuery(js, key, subquery, fieldKey, Some(alias), op2)
    ensures AddInnerJoinWithQuery(js, key, subquery, fieldKey, Some(alias), op1) == AddInnerJoinWithQuery(js, key, subquery, fieldKey, Some(alias), op2)
  {
  }

  function JoinSeparator(prettyPrint: bool): string
  {
    if prettyPrint then "\n" else " "
  }

  /** The rendered definitions, in order. */
  function JoinTexts<Q>(defs: seq<JoinDef<Q>>, prettyPrint: bool, objectTexts: seq<string>): (r: seq<string>)
    requires |objectTexts| == |defs|
    ensures |r| == |defs|
    ensures forall i :: 0 <= i < |defs| ==> r[i] == GenerateJoinDef(defs[i], prettyPrint, objectTexts[i])
  {
    if |defs| == 0 then []
    else [GenerateJoinDef(defs[0], prettyPrint, objectTexts[0])] + JoinTexts(defs[1..], prettyPrint, objectTexts[1..])
  }

  /**
   * `JoinStatement::generate_query`: the definitions in order, separated by
   * a newline (pretty) or a space. `objectTexts[i]` is the compact rendering
   * of the nested statement of definition `i` when it is an object join.
   */
  function GenerateQuery<Q>(js: JoinStatement<Q>, prettyPrint: bool, objectTexts: seq<string>): (r: string)
    requires |objectTexts| == |js.joins|
    ensures r == Join(JoinTexts(js.joins, prettyPrint, objectTexts), JoinSeparator(prettyPrint))
    ensures IsEmpty(js) ==> r == ""
  {
    SeparatedConcat(JoinTexts(js.joins, prettyPrint, objectTexts), JoinSeparator(prettyPrint))
  }

  /** Each builder call adds its definition's text after the previous ones, behind one separator. */
  lemma AppendJoinRenders<Q>(js: JoinStatement<Q>, j: JoinDef<Q>, prettyPrint: bool, objectTexts: seq<string>, objectText: string)
    requires |objectTexts| == |js.joins|
    ensures GenerateQuery(js.(joins := js.joins + [j]), prettyPrint, objectTexts + [objectText])
         == (if IsEmpty(js) then "" else GenerateQuery(js, prettyPrint, objectTexts) + JoinSeparator(prettyPrint))
            + GenerateJoinDef(j, prettyPrint, objectText)
  {
    var before := JoinTexts(js.joins, prettyPrint, objectTexts);
    var after := JoinTexts(js.joins + [j], prettyPrint, objectTexts + [objectText]);
    assert after == before + [GenerateJoinDef(j, prettyPrint, objectText)] by {
      forall i | 0 <= i < |after|
        ensures after[i] == (before + [GenerateJoinDef(j, prettyPrint, objectText)])[i]
      {
        assert (js.joins + [j])[i] == if i < |js.joins| then js.joins[i] else j;
        assert (objectTexts + [objectText])[i] == if i < |js.joins| then objectTexts[i] else objectText;
      }
    }
    JoinAppend(before, GenerateJoinDef(j, prettyPrint, objectText), JoinSeparator(prettyPrint));
    if IsEmpty(js) {
      assert "" + GenerateJoinDef(j, prettyPrint, objectText) == GenerateJoinDef(j, prettyPrint, objectText);
    }
  }
}

=== FILE: nv_select.dfy ===
/**
 * The statement node (`sqlbuilder/nv_select.rs`): selected fields, the
 * clause collections, the shared parameter counter and value list, the
 * link to the collection that owns a nested statement, and the statement
 * renderer.
 *
 * The source mutates collections in place through raw back-pointers. Here
 * a collection is a value: an accessor hands out the statement's copy, the
 * caller edits it, and ending the block stores it back into the statement.
 * Ending a block or a nested statement returns `Failure` where the source
 * panics.
 */
module Select {
  import opened Wrappers
  import opened StringUtils
  import opened Def
  import FD = Field
  import W = Where
  import Fr = From
  import J = Join
  import G = GroupBy
  import O = OrderBy

  /**
   * Which collection owns a nested statement, and at which position:
   * the FROM subquery list, or the WHERE condition list.
   */
  datatype ParentLink = NoParent | FromParent(slot: nat) | WhereParent(slot: nat)

  /**
   * Why ending a block failed. `MissingParent` is the source's panic on a
   * missing parent; `StaleParent` stands for a link whose position does not
   * hold a nested statement in the collection offered.
   */
  datatype BuildError = MissingParent | StaleParent

  datatype NvSelect<V> = NvSelect(
    counter: nat,
    level: nat,
    joinBlocks: seq<J.JoinStatement<NvSelect<V>>>,
    from: Option<Fr.FromTableStatement<V, NvSelect<V>>>,
    fields: seq<FD.FieldDef<V>>,
    values: seq<V>,
    link: ParentLink,
    tableAlias: string,
    whereClause: Option<W.WhereStatement<V, NvSelect<V>>>,
    orderBy: Option<O.OrderByStatement>,
    groupBy: Option<G.GroupByStatement>,
    dialect: DatabaseDialect)

  /** No fields, no collections, no values, no parent. */
  ghost predicate Bare<V>(s: NvSelect<V>)
  {
    && s.joinBlocks == [] && s.from.None? && s.fields == [] && s.whereClause.None?
    && s.orderBy.None? && s.groupBy.None?
  }

  /** `NvSelect::new`: a root statement numbering from 1 at level 0. */
  function New<V>(dialect: DatabaseDialect): (s: NvSelect<V>)
  {
    NvSelect(1, 0, [], None, [], [], NoParent, "", None, None, None, dialect)
  }

  /** A root statement is bare, unlinked and numbers from 1. */
  lemma NewStartsAtOne<V>(dialect: DatabaseDialect)
    ensures var s := New<V>(dialect);
            && Bare(s) && s.counter == 1 && s.level == 0 && s.values == [] && s.link == NoParent
            && s.tableAlias == "" && s.dialect == dialect
  {
  }

  /** `with_param_index`: a root statement numbering from `counter`. */
  function WithParamIndex<V>(counter: nat, dialect: DatabaseDialect): (s: NvSelect<V>)
  {
    NvSelect(counter, 0, [], None, [], [], NoParent, "", None, None, None, dialect)
  }

  /** A root statement may number from any given index. */
  lemma WithParamIndexStartsAtCounter<V>(counter: nat, dialect: DatabaseDialect)
    ensures var s := WithParamIndex<V>(counter, dialect);
            && Bare(s) && s.counter == counter && s.level == 0 && s.values == [] && s.link == NoParent
  {
  }

  /** `new_subquery`: a nested statement sharing `values`, with no parent link. */
  function NewSubquery<V>(values: seq<V>, counter: nat, level: nat, dialect: DatabaseDialect): (s: NvSelect<V>)
    ensures Bare(s) && s.counter == counter && s.level == level && s.values == values && s.link == NoParent
  {
    NvSelect(counter, level, [], None, [], values, NoParent, "", None, None, None, dialect)
  }

  /** `new_subquery_from`: a nested statement owned by position `slot` of a FROM list. */
  function NewSubqueryFrom<V>(values: seq<V>, counter: nat, level: nat, slot: nat, alias: string,
                              dialect: DatabaseDialect): (s: NvSelect<V>)
    ensures Bare(s) && s.counter == counter && s.level == level && s.values == values
    ensures s.link == FromParent(slot) && s.tableAlias == alias
  {
    NvSelect(counter, level, [], None, [], values, FromParent(slot), alias, None, None, None, dialect)
  }

  /** `new_subquery_where`: a nested statement owned by condition `slot` of a WHERE list. */
  function NewSubqueryWhere<V>(values: seq<V>, counter: nat, level: nat, slot: nat, alias: string,
                               dialect: DatabaseDialect): (s: NvSelect<V>)
    ensures Bare(s) && s.counter == counter && s.level == level && s.values == values
    ensures s.link == WhereParent(slot) && s.tableAlias == alias
  {
    NvSelect(counter, level, [], None, [], values, WhereParent(slot), alias, None, None, None, dialect)
  }

  /** `field`: appends one typed column; nothing else changes. */
  function TypedField<V>(s: NvSelect<V>, field: string, tableAlias: Option<string>, fieldAlias: Option<string>,
                         aggregate: SqlAggregateFunction, encloseFieldName: bool): (r: NvSelect<V>)
    ensures |r.fields| == |s.fields| + 1 && r.fields[..|s.fields|] == s.fields
    ensures r.fields[|s.fields|].mode == FD.FieldWType && r.fields[|s.fields|].field == field
    ensures r.(fields := s.fields) == s
  {
    s.(fields := s.fields + [FD.NewFieldDef(s.dialect, field, tableAlias, encloseFieldName, aggregate,
                                            fieldAlias, s.level, FD.FieldWType)])
  }

  /** `f`: appends one raw column; nothing else changes. */
  function RawField<V>(s: NvSelect<V>, field: string, tableAlias: Option<string>, fieldAlias: Option<string>,
                       aggregate: SqlAggregateFunction, encloseFieldName: bool): (r: NvSelect<V>)
    ensures |r.fields| == |s.fields| + 1 && r.fields[..|s.fields|] == s.fields
    ensures r.fields[|s.fields|].mode == FD.FieldRaw && r.fields[|s.fields|].field == field
    ensures r.(fields := s.fields) == s
  {
    s.(fields := s.fields + [FD.NewFieldDef(s.dialect, field, tableAlias, encloseFieldName, aggregate,
                                            fieldAlias, s.level, FD.FieldRaw)])
  }

  /** `fn_static`: appends a function call with literal arguments; binds nothing. */
  function FnStatic<V>(s: NvSelect<V>, name: string, params: seq<string>, alias: Option<string>): (r: NvSelect<V>)
    ensures |r.fields| == |s.fields| + 1 && r.fields[..|s.fields|] == s.fields
    ensures r.fields[|s.fields|].mode == FD.FnStaticParameter
    ensures r.(fields := s.fields) == s
  {
    s.(fields := s.fields + [FD.NewStaticFunction(s.dialect, name, params, s.level, alias)])
  }

  /**
   * `fn_dynamic`: appends a function call binding `fnValues` from the
   * current index and moves the counter to the index after them, so the
   * counter never decreases. The call's values are kept in the field; the
   * shared value list is not extended.
   */
  function FnDynamic<V>(s: NvSelect<V>, name: string, format: string, fnValues: seq<V>, statics: seq<string>,
                        alias: Option<string>): (r: NvSelect<V>)
    ensures |r.fields| == |s.fields| + 1 && r.fields[..|s.fields|] == s.fields
    ensures r.fields[|s.fields|].mode == FD.FnParameterizedValues && r.fields[|s.fields|].startIndex == s.counter
    ensures r.counter == r.fields[|s.fields|].currentIndex == s.counter + FD.Min(FD.CountOf('v', format), |fnValues|)
    ensures r.counter >= s.counter
    ensures r.(fields := s.fields, counter := s.counter) == s
  {
    var f := FD.NewDynamicFunction(s.dialect, name, format, fnValues, statics, s.counter, s.level, alias);
    s.(fields := s.fields + [f], counter := f.currentIndex)
  }

  /**
   * `from` as written: the first call creates the collection with a
   * snapshot of the counter and level; later calls hand back the stored
   * collection with its old counter, however stale (see Findings). The
   * value list is shared with the statement, so the collection always sees
   * the statement's current values.
   */
  function FromAsWritten<V>(s: NvSelect<V>): (r: (NvSelect<V>, Fr.FromTableStatement<V, NvSelect<V>>))
    ensures r.1.values == s.values
    ensures s.from.None? ==> r.1 == Fr.New(s.values, s.counter, s.level, s.dialect)
    ensures s.from.Some? ==> r.1 == s.from.value.(values := s.values)
    ensures r.0 == s.(from := Some(r.1))
  {
    var f := if s.from.None? then Fr.New(s.values, s.counter, s.level, s.dialect)
             else s.from.value.(values := s.values);
    (s.(from := Some(f)), f)
  }

  /**
   * `from`, corrected: created once as in the source, but a reused
   * collection resumes from the statement's current counter and values.
   */
  function From<V>(s: NvSelect<V>): (r: (NvSelect<V>, Fr.FromTableStatement<V, NvSelect<V>>))
    ensures r.1.counter == s.counter && r.1.values == s.values
    ensures s.from.None? ==> r.1 == Fr.New(s.values, s.counter, s.level, s.dialect)
    ensures s.from.Some? ==> r.1.tables == s.from.value.tables && r.1.subqueries == s.from.value.subqueries
                              && r.1.hasParent == s.from.value.hasParent && r.1.level == s.from.value.level
    ensures r.0 == s.(from := Some(r.1))
  {
    var f := if s.from.None? then Fr.New(s.values, s.counter, s.level, s.dialect)
             else s.from.value.(counter := s.counter, values := s.values);
    (s.(from := Some(f)), f)
  }

  /**
   * `where_` as written: created once; later calls hand back the stored
   * collection with its old counter (see Findings) and the statement's
   * current values, which it shares.
   */
  function WhereAsWritten<V>(s: NvSelect<V>): (r: (NvSelect<V>, W.WhereStatement<V, NvSelect<V>>))
    ensures r.1.values == s.values
    ensures s.whereClause.None? ==> r.1 == W.NewWithParent(s.values, s.counter, s.level, s.dialect)
    ensures s.whereClause.Some? ==> r.1 == s.whereClause.value.(values := s.values)
    ensures r.0 == s.(whereClause := Some(r.1))
  {
    var w := if s.whereClause.None? then W.NewWithParent(s.values, s.counter, s.level, s.dialect)
             else s.whereClause.value.(values := s.values);
    (s.(whereClause := Some(w)), w)
  }

  /** `where_`, corrected: a reused collection resumes from the statement's counter and values. */
  function Where<V>(s: NvSelect<V>): (r: (NvSelect<V>, W.WhereStatement<V, NvSelect<V>>))
    ensures r.1.counter == s.counter && r.1.values == s.values
    ensures s.whereClause.None? ==> r.1 == W.NewWithParent(s.values, s.counter, s.level, s.dialect)
    ensures s.whereClause.Some? ==> r.1.conditions == s.whereClause.value.conditions
                                    && r.1.hasParent == s.whereClause.value.hasParent
                                    && r.1.level == s.whereClause.value.level
    ensures r.0 == s.(whereClause := Some(r.1))
  {
    var w := if s.whereClause.None? then W.NewWithParent(s.values, s.counter, s.level, s.dialect)
             else s.whereClause.value.(counter := s.counter, values := s.values);
    (s.(whereClause := Some(w)), w)
  }

  /** `join`: every call appends a fresh JOIN collection seeded with the current counter and level. */
  function JoinBlock<V>(s: NvSelect<V>): (r: (NvSelect<V>, J.JoinStatement<NvSelect<V>>))
    ensures r.1 == J.New(s.counter, s.level, s.dialect)
    ensures r.0 == s.(joinBlocks := s.joinBlocks + [r.1])
  {
    var js := J.New(s.counter, s.level, s.dialect);
    (s.(joinBlocks := s.joinBlocks + [js]), js)
  }

  /** `group_by`: created once with the current counter and level, then reused unchanged. */
  function GroupBy<V>(s: NvSelect<V>): (r: (NvSelect<V>, G.GroupByStatement))
    ensures s.groupBy.None? ==> r.1 == G.NewWithParent(s.counter, s.level)
    ensures s.groupBy.Some? ==> r.1 == s.groupBy.value
    ensures r.0 == s.(groupBy := Some(r.1))
  {
    var g := if s.groupBy.None? then G.NewWithParent(s.counter, s.level) else s.groupBy.value;
    (s.(groupBy := Some(g)), g)
  }

  /** `order_by`: created once at the current level, then reused unchanged. */
  function OrderBy<V>(s: NvSelect<V>): (r: (NvSelect<V>, O.OrderByStatement))
    ensures s.orderBy.None? ==> r.1 == O.NewWithParent(s.level)
    ensures s.orderBy.Some? ==> r.1 == s.orderBy.value
    ensures r.0 == s.(orderBy := Some(r.1))
  {
    var o := if s.orderBy.None? then O.NewWithParent(s.level) else s.orderBy.value;
    (s.(orderBy := Some(o)), o)
  }

  /**
   * `end_where_block` as written: hands the statement back without writing
   * anything to it. The statement sees the collection's conditions and,
   * through the shared list, its values, but keeps its own counter (see
   * Findings). A collection without a parent is an error.
   */
  function EndWhereBlockAsWritten<V>(s: NvSelect<V>,
                                     w: W.WhereStatement<V, NvSelect<V>>): (r: Result<NvSelect<V>, BuildError>)
    ensures !w.hasParent <==> r == Failure(MissingParent)
    ensures r.Success? ==> r.value == s.(whereClause := Some(w), values := w.values)
  {
    if !w.hasParent then Failure(MissingParent)
    else Success(s.(whereClause := Some(w), values := w.values))
  }

  /**
   * `end_where_block`, corrected: the statement also resumes from the
   * collection's counter, so the indices the block used are not handed
   * out again.
   */
  function EndWhereBlock<V>(s: NvSelect<V>, w: W.WhereStatement<V, NvSelect<V>>): (r: Result<NvSelect<V>, BuildError>)
    ensures !w.hasParent <==> r == Failure(MissingParent)
    ensures r.Success? ==> r.value == s.(whereClause := Some(w), values := w.values, counter := w.counter)
  {
    if !w.hasParent then Failure(MissingParent)
    else Success(s.(whereClause := Some(w), values := w.values, counter := w.counter))
  }

  /**
   * `end_from_table_block` as written: hands the statement back without
   * writing anything to it; it sees the shared values but keeps its own
   * counter (see Findings).
   */
  function EndFromTableBlockAsWritten<V>(s: NvSelect<V>,
                                         f: Fr.FromTableStatement<V, NvSelect<V>>): (r: Result<NvSelect<V>, BuildError>)
    ensures !f.hasParent <==> r == Failure(MissingParent)
    ensures r.Success? ==> r.value == s.(from := Some(f), values := f.values)
  {
    if !f.hasParent then Failure(MissingParent)
    else Success(s.(from := Some(f), values := f.values))
  }

  /** `end_from_table_block`, corrected: the statement resumes from the collection's counter. */
  function EndFromTableBlock<V>(s: NvSelect<V>,
                                f: Fr.FromTableStatement<V, NvSelect<V>>): (r: Result<NvSelect<V>, BuildError>)
    ensures !f.hasParent <==> r == Failure(MissingParent)
    ensures r.Success? ==> r.value == s.(from := Some(f), values := f.values, counter := f.counter)
  {
    if !f.hasParent then Failure(MissingParent)
    else Success(s.(from := Some(f), values := f.values, counter := f.counter))
  }

  /**
   * `end_join_block`: stores the block back as the statement's last JOIN
   * collection. A block without a parent is an error, and so is a
   * statement that never opened one.
   */
  function EndJoinBlock<V>(s: NvSelect<V>, js: J.JoinStatement<NvSelect<V>>): (r: Result<NvSelect<V>, BuildError>)
    ensures !js.hasParent ==> r == Failure(MissingParent)
    ensures js.hasParent && |s.joinBlocks| == 0 ==> r == Failure(StaleParent)
    ensures js.hasParent && |s.joinBlocks| > 0 ==>
      r.Success? && r.value == s.(joinBlocks := s.joinBlocks[|s.joinBlocks| - 1 := js])
  {
    if !js.hasParent then Failure(MissingParent)
    else if |s.joinBlocks| == 0 then Failure(StaleParent)
    else Success(s.(joinBlocks := s.joinBlocks[|s.joinBlocks| - 1 := js]))
  }

  /** `end_group_by_block`: a collection without a parent is an error; the counter is unchanged. */
  function EndGroupByBlock<V>(s: NvSelect<V>, g: G.GroupByStatement): (r: Result<NvSelect<V>, BuildError>)
    ensures !g.hasParent <==> r == Failure(MissingParent)
    ensures r.Success? ==> r.value == s.(groupBy := Some(g))
  {
    if !g.hasParent then Failure(MissingParent) else Success(s.(groupBy := Some(g)))
  }

  /** `end_order_by_block`: a collection without a parent is an error. */
  function EndOrderByBlock<V>(s: NvSelect<V>, o: O.OrderByStatement): (r: Result<NvSelect<V>, BuildError>)
    ensures !o.hasParent <==> r == Failure(MissingParent)
    ensures r.Success? ==> r.value == s.(orderBy := Some(o))
  {
    if !o.hasParent then Failure(MissingParent) else Success(s.(orderBy := Some(o)))
  }

  /** A default GROUP BY or ORDER BY collection cannot be ended. */
  lemma DefaultBlocksHaveNoParent<V>(s: NvSelect<V>)
    ensures EndGroupByBlock(s, G.New()) == Failure(MissingParent)
    ensures EndOrderByBlock(s, O.New()) == Failure(MissingParent)
  {
  }

  /**
   * `begin_subquery` with `create_new_select_block`: a nested statement at
   * the collection's counter, one level deeper, sharing its values and
   * linked to the new last position of the subquery list.
   */
  function BeginFromSubquery<V>(f: Fr.FromTableStatement<V, NvSelect<V>>, alias: string)
    : (r: (Fr.FromTableStatement<V, NvSelect<V>>, NvSelect<V>))
    ensures r.1.counter == f.counter && r.1.level == f.level + 1 && r.1.values == f.values
    ensures r.1.link == FromParent(|f.subqueries|) && r.1.tableAlias == alias && Bare(r.1)
    ensures r.0 == Fr.AppendSubquery(f, r.1)
  {
    var child := NewSubqueryFrom(f.values, f.counter, f.level + 1, |f.subqueries|, alias, f.dialect);
    (Fr.AppendSubquery(f, child), child)
  }

  /**
   * The statement half of `add_subquery`: a nested statement at the
   * collection's counter, two levels below it (the condition sits one
   * below), linked to the new last condition.
   */
  function WhereAddSubquery<V>(w: W.WhereStatement<V, NvSelect<V>>, fieldName: string, op: SqlOperator, alias: string)
    : (r: (W.WhereStatement<V, NvSelect<V>>, NvSelect<V>))
    ensures r.1.counter == w.counter && r.1.level == w.level + 2 && r.1.values == w.values
    ensures r.1.link == WhereParent(|w.conditions|) && r.1.tableAlias == alias && Bare(r.1)
    ensures r.0 == W.AddSubquery(w, fieldName, op, alias, r.1)
  {
    var child := NewSubqueryWhere(w.values, w.counter, w.level + 2, |w.conditions|, alias, w.dialect);
    (W.AddSubquery(w, fieldName, op, alias, child), child)
  }

  /**
   * As written, a comparator followed by a WHERE subquery whose first field
   * is a dynamic function: the comparator's placeholder and the function's
   * first bound index coincide (see Findings).
   */
  lemma ComparatorThenDynamicCollideAsWritten<V>(w: W.WhereStatement<V, NvSelect<V>>, fieldName: string,
                                                 op: SqlOperator,
                                                 value: V, alias: string, name: string, format: string,
                                                 fnValues: seq<V>, statics: seq<string>)
    requires FD.CountOf('v', format) >= 1 && |fnValues| >= 1
    ensures var w1 := W.AddConditionAsWritten(w, fieldName, op, value);
            var child := FnDynamic(WhereAddSubquery(w1, fieldName, op, alias).1, name, format, fnValues, statics, None);
            var f := child.fields[0];
            && f.startIndex < f.currentIndex
            && W.Last(w1.conditions).startIndex == f.startIndex
  {
  }

  /**
   * With the corrected comparator the same sequence of calls numbers the
   * comparator's index below every index the dynamic function binds.
   */
  lemma ComparatorThenDynamicDisjoint<V>(w: W.WhereStatement<V, NvSelect<V>>, fieldName: string, op: SqlOperator,
                                         value: V, alias: string, name: string, format: string,
                                         fnValues: seq<V>, statics: seq<string>)
    ensures var w1 := W.AddCondition(w, fieldName, op, value);
            var child := FnDynamic(WhereAddSubquery(w1, fieldName, op, alias).1, name, format, fnValues, statics, None);
            var c := W.Last(w1.conditions);
            var f := child.fields[0];
            && c.startIndex < c.paramIndex == f.startIndex <= f.currentIndex
  {
  }

  /**
   * `end_subquery_inside_from`: stores the finished nested statement at its
   * position and writes its counter (and the shared values) into the FROM
   * collection. No FROM link is an error.
   */
  function EndSubqueryInsideFrom<V>(child: NvSelect<V>, f: Fr.FromTableStatement<V, NvSelect<V>>)
    : (r: Result<Fr.FromTableStatement<V, NvSelect<V>>, BuildError>)
    ensures !child.link.FromParent? <==> r == Failure(MissingParent)
    ensures child.link.FromParent? && child.link.slot >= |f.subqueries| <==> r == Failure(StaleParent)
    ensures r.Success? ==> r.value.counter == child.counter && r.value.values == child.values
    ensures r.Success? ==> r.value.tables == f.tables && |r.value.subqueries| == |f.subqueries|
                           && r.value.subqueries[child.link.slot] == child
                           && r.value.hasParent == f.hasParent && r.value.level == f.level
  {
    match child.link
    case FromParent(slot) =>
      if slot < |f.subqueries| then
        Success(f.(subqueries := f.subqueries[slot := child], counter := child.counter, values := child.values))
      else Failure(StaleParent)
    case _ => Failure(MissingParent)
  }

  /**
   * `end_subquery_inside_where_condition`: stores the finished nested
   * statement in its subquery condition and writes its counter (and the
   * shared values) into the WHERE collection. No WHERE link is an error.
   */
  function EndSubqueryInsideWhereCondition<V>(child: NvSelect<V>, w: W.WhereStatement<V, NvSelect<V>>)
    : (r: Result<W.WhereStatement<V, NvSelect<V>>, BuildError>)
    ensures !child.link.WhereParent? <==> r == Failure(MissingParent)
    ensures child.link.WhereParent? && (child.link.slot >= |w.conditions| || !w.conditions[child.link.slot].Subquery?)
            <==> r == Failure(StaleParent)
    ensures r.Success? ==> r.value.counter == child.counter && r.value.values == child.values
    ensures r.Success? ==> |r.value.conditions| == |w.conditions|
                           && r.value.conditions[child.link.slot].Subquery?
                           && r.value.conditions[child.link.slot].subquery == child
                           && r.value.hasParent == w.hasParent && r.value.level == w.level
  {
    match child.link
    case WhereParent(slot) =>
      if slot < |w.conditions| && w.conditions[slot].Subquery? then
        var c := w.conditions[slot].(subquery := child);
        Success(w.(conditions := w.conditions[slot := c], counter := child.counter, values := child.values))
      else Failure(StaleParent)
    case _ => Failure(MissingParent)
  }

  /** `"  "` per level, the private `generate_indentation` of the statement. */
  function Indentation(level: nat): string
  {
    IndentSpace(level)
  }

  /** One field's entry in the SELECT list: indented one level deeper when pretty. */
  function FieldEntry<V>(f: FD.FieldDef<V>, level: nat, prettyPrint: bool, reading: Reading): string
  {
    (if prettyPrint then Indentation(level + 1) else "") + FD.GenerateQuery(f, reading)
  }

  function FieldEntries<V>(fs: seq<FD.FieldDef<V>>, level: nat, prettyPrint: bool, reading: Reading): (r: seq<string>)
    ensures |r| == |fs|
    ensures forall i :: 0 <= i < |fs| ==> r[i] == FieldEntry(fs[i], level, prettyPrint, reading)
  {
    if |fs| == 0 then []
    else [FieldEntry(fs[0], level, prettyPrint, reading)] + FieldEntries(fs[1..], level, prettyPrint, reading)
  }

  /** The SELECT keyword and the field list, separated by `", "` (compact) or `",\n"` (pretty). */
  function SelectSection<V>(s: NvSelect<V>, prettyPrint: bool, reading: Reading): (r: string)
    ensures !prettyPrint ==> r == "SELECT " + Join(FieldEntries(s.fields, s.level, false, reading), ", ")
    ensures prettyPrint
            ==> r == Indentation(s.level) + "SELECT \n" + Join(FieldEntries(s.fields, s.level, true, reading), ",\n")
  {
    (if prettyPrint then Indentation(s.level) + "SELECT \n" else "SELECT ")
      + SeparatedConcat(FieldEntries(s.fields, s.level, prettyPrint, reading), if prettyPrint then ",\n" else ", ")
  }

  /**
   * The emptiness test the statement applies to its FROM collection: as
   * written it counts the tables only, so a list of subqueries alone counts
   * as empty (see Findings).
   */
  predicate FromEmpty<V>(f: Fr.FromTableStatement<V, NvSelect<V>>, reading: Reading)
  {
    if reading == AsWritten then Fr.IsEmptyAsWritten(f) else Fr.IsEmpty(f)
  }

  /** The FROM section: present exactly when the collection exists and is not empty. */
  function FromSection<V>(s: NvSelect<V>, fromText: string, prettyPrint: bool, reading: Reading): (r: string)
    ensures r == "" <==> s.from.None? || FromEmpty(s.from.value, reading)
    ensures s.from.Some? && !FromEmpty(s.from.value, reading) && !prettyPrint ==> r == " FROM " + fromText
  {
    if s.from.Some? && !FromEmpty(s.from.value, reading) then
      if prettyPrint then "\n" + Indentation(s.level) + "FROM \n" + fromText else " FROM " + fromText
    else ""
  }

  /** The JOIN section: the blocks glued together, after one separator. */
  function JoinSection<V>(s: NvSelect<V>, blockTexts: seq<string>, prettyPrint: bool): string
  {
    if |s.joinBlocks| > 0 then (if prettyPrint then "\n" else " ") + Concat(blockTexts) else ""
  }

  /** A keyword section (WHERE, GROUP BY, ORDER BY): present whenever its collection exists. */
  function KeywordSection(present: bool, keyword: string, level: nat, body: string, prettyPrint: bool): (r: string)
    ensures !present ==> r == ""
    ensures present && !prettyPrint ==> r == " " + keyword + " " + body
  {
    if !present then ""
    else if prettyPrint then "\n" + Indentation(level) + keyword + "\n" + Indentation(level + 1) + body
    else " " + keyword + " " + body
  }

  function WhereSection<V>(s: NvSelect<V>, prettyPrint: bool): string
  {
    KeywordSection(s.whereClause.Some?, "WHERE", s.level,
                   if s.whereClause.Some? then W.GenerateQuery(s.whereClause.value, prettyPrint, false) else "",
                   prettyPrint)
  }

  function GroupBySection<V>(s: NvSelect<V>, prettyPrint: bool): string
  {
    KeywordSection(s.groupBy.Some?, "GROUP BY", s.level,
                   if s.groupBy.Some? then G.GenerateQuery(s.groupBy.value, prettyPrint) else "", prettyPrint)
  }

  function OrderBySection<V>(s: NvSelect<V>, prettyPrint: bool): string
  {
    KeywordSection(s.orderBy.Some?, "ORDER BY", s.level,
                   if s.orderBy.Some? then O.GenerateQuery(s.orderBy.value, prettyPrint) else "", prettyPrint)
  }

  /**
   * `NvSelect::generate_query`: SELECT, FROM, JOIN, WHERE, GROUP BY and
   * ORDER BY, in that order. FROM subqueries are rendered recursively (with
   * the same pretty flag) and so are the nested statements of object joins
   * (always compact); WHERE subqueries render through the source's empty
   * stub. `reading` chooses between the members as written and the
   * corrected ones wherever the two differ.
   */
  function Render<V>(s: NvSelect<V>, prettyPrint: bool, reading: Reading): (r: string)
    ensures StartsWith(r, SelectSection(s, prettyPrint, reading))
    ensures !prettyPrint ==> StartsWith(r, "SELECT ")
    decreases s
  {
    var select := SelectSection(s, prettyPrint, reading);
    var head := Head(s, prettyPrint, reading);
    var w := WhereSection(s, prettyPrint);
    var g := GroupBySection(s, prettyPrint);
    StartsWithExtend(head, select, w);
    StartsWithExtend(head + w, select, g);
    var o := OrderBySection(s, prettyPrint);
    StartsWithExtend(head + w + g, select, o);
    if prettyPrint then head + w + g + o
    else
      StartsWithExtend("SELECT ", "SELECT ", Join(FieldEntries(s.fields, s.level, false, reading), ", "));
      StartsWithTrans(head + w + g + o, select, "SELECT ");
      head + w + g + o
  }

  /** The SELECT, FROM and JOIN sections. */
  function Head<V>(s: NvSelect<V>, prettyPrint: bool, reading: Reading): (r: string)
    ensures StartsWith(r, SelectSection(s, prettyPrint, reading))
    decreases s, 3
  {
    var select := SelectSection(s, prettyPrint, reading);
    var from := FromSection(s, FromText(s, prettyPrint, reading), prettyPrint, reading);
    StartsWithExtend(select, select, from);
    StartsWithExtend(select + from, select, JoinSection(s, JoinBlockTexts(s, s.joinBlocks, prettyPrint, reading), prettyPrint));
    select + from + JoinSection(s, JoinBlockTexts(s, s.joinBlocks, prettyPrint, reading), prettyPrint)
  }

  /** The rendered FROM list of `s`, or nothing when it has none. */
  function FromText<V>(s: NvSelect<V>, prettyPrint: bool, reading: Reading): string
    decreases s, 2, 0
  {
    if s.from.None? then ""
    else
      var f := s.from.value;
      assert forall i :: 0 <= i < |f.subqueries| ==> f.subqueries[i] < s;
      var subs := RenderSubqueries(s, f.subqueries, prettyPrint, reading);
      if reading == AsWritten then Fr.GenerateQueryAsWritten(f, subs, prettyPrint)
      else Fr.GenerateQuery(f, subs, prettyPrint)
  }

  /** The nested statements of a FROM list, each with its text and alias. */
  function RenderSubqueries<V>(parent: NvSelect<V>, ss: seq<NvSelect<V>>, prettyPrint: bool,
                               reading: Reading): (r: seq<Fr.RenderedSubquery>)
    requires forall i :: 0 <= i < |ss| ==> ss[i] < parent
    ensures |r| == |ss|
    decreases parent, 0, |ss|
  {
    if |ss| == 0 then []
    else
      var head := [Fr.RenderedSubquery(Render(ss[0], prettyPrint, reading), ss[0].tableAlias)];
      var rest := RenderSubqueries(parent, ss[1..], prettyPrint, reading);
      head + rest
  }

  /** The rendered JOIN collections, in order. */
  function JoinBlockTexts<V>(parent: NvSelect<V>, blocks: seq<J.JoinStatement<NvSelect<V>>>, prettyPrint: bool,
                             reading: Reading): (r: seq<string>)
    requires forall i :: 0 <= i < |blocks| ==> blocks[i] < parent
    ensures |r| == |blocks|
    decreases parent, 1, |blocks|
  {
    if |blocks| == 0 then []
    else
      var b := blocks[0];
      assert forall i :: 0 <= i < |b.joins| ==> b.joins[i] < parent;
      var head := [J.GenerateQuery(b, prettyPrint, ObjectTexts(parent, b.joins, reading))];
      var rest := JoinBlockTexts(parent, blocks[1..], prettyPrint, reading);
      head + rest
  }

  /** The compact texts of the nested statements of object joins; other joins get the empty text. */
  function ObjectTexts<V>(parent: NvSelect<V>, defs: seq<J.JoinDef<NvSelect<V>>>, reading: Reading): (r: seq<string>)
    requires forall i :: 0 <= i < |defs| ==> defs[i] < parent
    ensures |r| == |defs|
    decreases parent, 0, |defs|
  {
    if |defs| == 0 then []
    else
      var head := if defs[0].ObjectSubqueryJoin? then [Render(defs[0].subqueryObject, false, reading)] else [""];
      var rest := ObjectTexts(parent, defs[1..], reading);
      head + rest
  }

  /** Entry `i` of the FROM subquery list is the text of nested statement `i` with its alias. */
  lemma {:induction false} RenderSubqueriesContent<V>(parent: NvSelect<V>, ss: seq<NvSelect<V>>, prettyPrint: bool,
                                                      reading: Reading)
    requires forall i :: 0 <= i < |ss| ==> ss[i] < parent
    ensures var r := RenderSubqueries(parent, ss, prettyPrint, reading);
            forall i :: 0 <= i < |ss|
              ==> r[i] == Fr.RenderedSubquery(Render(ss[i], prettyPrint, reading), ss[i].tableAlias)
  {
    if |ss| > 0 {
      var r := RenderSubqueries(parent, ss, prettyPrint, reading);
      var rest := RenderSubqueries(parent, ss[1..], prettyPrint, reading);
      RenderSubqueriesContent(parent, ss[1..], prettyPrint, reading);
      assert r[1..] == rest;
      forall i | 1 <= i < |ss|
        ensures r[i] == Fr.RenderedSubquery(Render(ss[i], prettyPrint, reading), ss[i].tableAlias)
      {
        assert r[i] == rest[i - 1] && ss[1..][i - 1] == ss[i];
      }
    }
  }

  /** Entry `i` of the JOIN texts is JOIN collection `i` rendered with the texts of its object joins. */
  lemma {:induction false} JoinBlockTextsContent<V>(parent: NvSelect<V>, blocks: seq<J.JoinStatement<NvSelect<V>>>,
                                                    prettyPrint: bool, reading: Reading)
    requires forall i :: 0 <= i < |blocks| ==> blocks[i] < parent
    ensures var r := JoinBlockTexts(parent, blocks, prettyPrint, reading);
            forall i :: 0 <= i < |blocks|
              ==> (forall k :: 0 <= k < |blocks[i].joins| ==> blocks[i].joins[k] < parent)
                  && r[i] == J.GenerateQuery(blocks[i], prettyPrint, ObjectTexts(parent, blocks[i].joins, reading))
  {
    if |blocks| > 0 {
      var r := JoinBlockTexts(parent, blocks, prettyPrint, reading);
      var rest := JoinBlockTexts(parent, blocks[1..], prettyPrint, reading);
      JoinBlockTextsContent(parent, blocks[1..], prettyPrint, reading);
      assert r[1..] == rest;
      forall i | 0 <= i < |blocks|
        ensures (forall k :: 0 <= k < |blocks[i].joins| ==> blocks[i].joins[k] < parent)
                && r[i] == J.GenerateQuery(blocks[i], prettyPrint, ObjectTexts(parent, blocks[i].joins, reading))
      {
        if i > 0 {
          assert r[i] == rest[i - 1] && blocks[1..][i - 1] == blocks[i];
        }
      }
    }
  }

  /** Entry `i` of the object-join texts is the compact text of join `i`'s nested statement, or nothing. */
  lemma {:induction false} ObjectTextsContent<V>(parent: NvSelect<V>, defs: seq<J.JoinDef<NvSelect<V>>>, reading: Reading)
    requires forall i :: 0 <= i < |defs| ==> defs[i] < parent
    ensures var r := ObjectTexts(parent, defs, reading);
            forall i :: 0 <= i < |defs|
              ==> r[i] == if defs[i].ObjectSubqueryJoin? then Render(defs[i].subqueryObject, false, reading) else ""
  {
    if |defs| > 0 {
      var r := ObjectTexts(parent, defs, reading);
      var rest := ObjectTexts(parent, defs[1..], reading);
      ObjectTextsContent(parent, defs[1..], reading);
      assert r[1..] == rest;
      forall i | 1 <= i < |defs|
        ensures r[i] == if defs[i].ObjectSubqueryJoin? then Render(defs[i].subqueryObject, false, reading) else ""
      {
        assert r[i] == rest[i - 1] && defs[1..][i - 1] == defs[i];
      }
    }
  }

  /** The parent argument of `RenderSubqueries` does not affect its result. */
  lemma {:induction false} RenderSubqueriesParentFree<V>(p1: NvSelect<V>, p2: NvSelect<V>, ss: seq<NvSelect<V>>,
                                                         prettyPrint: bool, reading: Reading)
    requires forall i :: 0 <= i < |ss| ==> ss[i] < p1
    requires forall i :: 0 <= i < |ss| ==> ss[i] < p2
    ensures RenderSubqueries(p1, ss, prettyPrint, reading) == RenderSubqueries(p2, ss, prettyPrint, reading)
    decreases |ss|
  {
    if |ss| > 0 {
      RenderSubqueriesParentFree(p1, p2, ss[1..], prettyPrint, reading);
    }
  }

  /** The parent argument of `ObjectTexts` does not affect its result. */
  lemma {:induction false} ObjectTextsParentFree<V>(p1: NvSelect<V>, p2: NvSelect<V>,
                                                    defs: seq<J.JoinDef<NvSelect<V>>>, reading: Reading)
    requires forall i :: 0 <= i < |defs| ==> defs[i] < p1
    requires forall i :: 0 <= i < |defs| ==> defs[i] < p2
    ensures ObjectTexts(p1, defs, reading) == ObjectTexts(p2, defs, reading)
    decreases |defs|
  {
    if |defs| > 0 {
      ObjectTextsParentFree(p1, p2, defs[1..], reading);
    }
  }

  /** The parent argument of `JoinBlockTexts` does not affect its result. */
  lemma {:induction false} JoinBlockTextsParentFree<V>(p1: NvSelect<V>, p2: NvSelect<V>,
                                                       blocks: seq<J.JoinStatement<NvSelect<V>>>, prettyPrint: bool,
                                                       reading: Reading)
    requires forall i :: 0 <= i < |blocks| ==> blocks[i] < p1
    requires forall i :: 0 <= i < |blocks| ==> blocks[i] < p2
    ensures JoinBlockTexts(p1, blocks, prettyPrint, reading) == JoinBlockTexts(p2, blocks, prettyPrint, reading)
    decreases |blocks|
  {
    if |blocks| > 0 {
      var b := blocks[0];
      assert forall i :: 0 <= i < |b.joins| ==> b.joins[i] < p1;
      assert forall i :: 0 <= i < |b.joins| ==> b.joins[i] < p2;
      ObjectTextsParentFree(p1, p2, b.joins, reading);
      JoinBlockTextsParentFree(p1, p2, blocks[1..], prettyPrint, reading);
    }
  }

  /** The FROM part of the rendering depends only on the FROM collection. */
  lemma FromTextLocal<V>(s1: NvSelect<V>, s2: NvSelect<V>, prettyPrint: bool, reading: Reading)
    requires s1.from == s2.from
    ensures FromText(s1, prettyPrint, reading) == FromText(s2, prettyPrint, reading)
  {
    if s1.from.Some? {
      var f := s1.from.value;
      assert forall i :: 0 <= i < |f.subqueries| ==> f.subqueries[i] < s1;
      assert forall i :: 0 <= i < |f.subqueries| ==> f.subqueries[i] < s2;
      RenderSubqueriesParentFree(s1, s2, f.subqueries, prettyPrint, reading);
    }
  }

  /**
   * Everything before the WHERE section depends only on the fields, level,
   * FROM and JOIN collections.
   */
  lemma HeadLocal<V>(s1: NvSelect<V>, s2: NvSelect<V>, prettyPrint: bool, reading: Reading)
    requires s1.from == s2.from && s1.joinBlocks == s2.joinBlocks && s1.fields == s2.fields && s1.level == s2.level
    ensures Head(s1, prettyPrint, reading) == Head(s2, prettyPrint, reading)
  {
    FromTextLocal(s1, s2, prettyPrint, reading);
    JoinBlockTextsParentFree(s1, s2, s1.joinBlocks, prettyPrint, reading);
    HeadParts(s1, prettyPrint, reading);
    HeadParts(s2, prettyPrint, reading);
    assert SelectSection(s1, prettyPrint, reading) == SelectSection(s2, prettyPrint, reading);
  }

  /** A statement's head is its SELECT section followed by its FROM and JOIN sections. */
  lemma HeadParts<V>(s: NvSelect<V>, prettyPrint: bool, reading: Reading)
    ensures Head(s, prettyPrint, reading)
         == SelectSection(s, prettyPrint, reading) + FromSection(s, FromText(s, prettyPrint, reading), prettyPrint, reading)
            + JoinSection(s, JoinBlockTexts(s, s.joinBlocks, prettyPrint, reading), prettyPrint)
  {
  }

  /** A fresh statement renders only its keyword. */
  lemma NewRendersKeywordOnly<V>(dialect: DatabaseDialect, reading: Reading)
    ensures Render(New<V>(dialect), false, reading) == "SELECT "
    ensures Render(New<V>(dialect), true, reading) == "SELECT \n"
  {
    var s := New<V>(dialect);
    assert FieldEntries(s.fields, s.level, false, reading) == [];
    assert FieldEntries(s.fields, s.level, true, reading) == [];
  }

  /**
   * A FROM collection that counts as empty renders exactly like no FROM
   * collection: the section is omitted, not rendered as a bare `FROM`.
   */
  lemma EmptyFromOmitted<V>(s: NvSelect<V>, f: Fr.FromTableStatement<V, NvSelect<V>>, prettyPrint: bool,
                            reading: Reading)
    requires FromEmpty(f, reading)
    ensures Render(s.(from := Some(f)), prettyPrint, reading) == Render(s.(from := None), prettyPrint, reading)
  {
    var a := s.(from := Some(f));
    var b := s.(from := None);
    EmptyFromHead(s, f, prettyPrint, reading);
    RenderParts(a, prettyPrint, reading);
    RenderParts(b, prettyPrint, reading);
    assert WhereSection(a, prettyPrint) == WhereSection(b, prettyPrint);
    assert GroupBySection(a, prettyPrint) == GroupBySection(b, prettyPrint);
    assert OrderBySection(a, prettyPrint) == OrderBySection(b, prettyPrint);
  }

  /** A statement's text is its head followed by its WHERE, GROUP BY and ORDER BY sections. */
  lemma RenderParts<V>(s: NvSelect<V>, prettyPrint: bool, reading: Reading)
    ensures Render(s, prettyPrint, reading)
         == Head(s, prettyPrint, reading) + WhereSection(s, prettyPrint) + GroupBySection(s, prettyPrint)
            + OrderBySection(s, prettyPrint)
  {
  }

  /** The SELECT, FROM and JOIN sections with an empty FROM collection are those with none. */
  lemma EmptyFromHead<V>(s: NvSelect<V>, f: Fr.FromTableStatement<V, NvSelect<V>>, prettyPrint: bool,
                         reading: Reading)
    requires FromEmpty(f, reading)
    ensures Head(s.(from := Some(f)), prettyPrint, reading) == Head(s.(from := None), prettyPrint, reading)
  {
    var a := s.(from := Some(f));
    var b := s.(from := None);
    JoinBlockTextsParentFree(a, b, s.joinBlocks, prettyPrint, reading);
    assert FromSection(a, FromText(a, prettyPrint, reading), prettyPrint, reading) == "";
    assert FromSection(b, FromText(b, prettyPrint, reading), prettyPrint, reading) == "";
  }

  /**
   * Finding, as written: a FROM list holding subqueries and no table counts
   * as empty, so the whole statement renders as if it had no FROM
   * collection; the corrected renderer writes the section with its text.
   */
  lemma SubqueryOnlyFromDroppedAsWritten<V>(s: NvSelect<V>, f: Fr.FromTableStatement<V, NvSelect<V>>, prettyPrint: bool)
    requires |f.tables| == 0 && |f.subqueries| > 0
    ensures Render(s.(from := Some(f)), prettyPrint, AsWritten) == Render(s.(from := None), prettyPrint, AsWritten)
    ensures var a := s.(from := Some(f));
            var text := FromText(a, false, Corrected);
            text != "" && FromSection(a, text, false, Corrected) == " FROM " + text
  {
    EmptyFromOmitted(s, f, prettyPrint, AsWritten);
  }

  /**
   * ORDER BY is the last section and is emitted whenever its collection
   * exists, even an empty one.
   */
  lemma OrderBySectionLast<V>(s: NvSelect<V>, o: O.OrderByStatement, reading: Reading)
    ensures Render(s.(orderBy := Some(o)), false, reading)
         == Render(s.(orderBy := None), false, reading) + " ORDER BY " + O.GenerateQuery(o, false)
  {
    var a := s.(orderBy := Some(o));
    var b := s.(orderBy := None);
    var x := Head(a, false, reading) + WhereSection(a, false) + GroupBySection(a, false);
    RenderParts(a, false, reading);
    assert Render(b, false, reading) == x by {
      RenderParts(b, false, reading);
      HeadLocal(a, b, false, reading);
      assert WhereSection(a, false) == WhereSection(b, false);
      assert GroupBySection(a, false) == GroupBySection(b, false);
    }
    var body := O.GenerateQuery(o, false);
    assert OrderBySection(a, false) == " ORDER BY " + body by {
      SpacedKeywords();
    }
    AppendAssociative(x, " ORDER BY ", body);
  }

  /** GROUP BY comes right before ORDER BY and is emitted whenever its collection exists. */
  lemma GroupBySectionBeforeOrderBy<V>(s: NvSelect<V>, g: G.GroupByStatement, reading: Reading)
    requires s.orderBy.None?
    ensures Render(s.(groupBy := Some(g)), false, reading)
         == Render(s.(groupBy := None), false, reading) + " GROUP BY " + G.GenerateQuery(g, false)
  {
    var a := s.(groupBy := Some(g));
    var b := s.(groupBy := None);
    var x := Head(a, false, reading) + WhereSection(a, false);
    RenderParts(a, false, reading);
    assert Render(b, false, reading) == x by {
      RenderParts(b, false, reading);
      HeadLocal(a, b, false, reading);
      assert WhereSection(a, false) == WhereSection(b, false);
    }
    var body := G.GenerateQuery(g, false);
    assert GroupBySection(a, false) == " GROUP BY " + body by {
      SpacedKeywords();
    }
    assert OrderBySection(a, false) == "";
    assert Render(a, false, reading) == x + GroupBySection(a, false) + "";
    AppendAssociative(x, " GROUP BY ", body);
  }

  /**
   * WHERE comes right after the JOIN section, before GROUP BY and ORDER BY,
   * and is emitted whenever its collection exists, even with no condition.
   */
  lemma WhereSectionAfterJoins<V>(s: NvSelect<V>, w: W.WhereStatement<V, NvSelect<V>>, reading: Reading)
    requires s.groupBy.None? && s.orderBy.None?
    ensures Render(s.(whereClause := Some(w)), false, reading)
         == Render(s.(whereClause := None), false, reading) + " WHERE " + W.GenerateQuery(w, false, false)
  {
    var a := s.(whereClause := Some(w));
    var b := s.(whereClause := None);
    var x := Head(a, false, reading);
    RenderParts(a, false, reading);
    assert Render(b, false, reading) == x by {
      RenderParts(b, false, reading);
      HeadLocal(a, b, false, reading);
    }
    var body := W.GenerateQuery(w, false, false);
    assert WhereSection(a, false) == " WHERE " + body by {
      SpacedKeywords();
    }
    assert GroupBySection(a, false) == "" && OrderBySection(a, false) == "";
    assert Render(a, false, reading) == x + WhereSection(a, false) + "" + "";
    AppendAssociative(x, " WHERE ", body);
  }

  /** Concatenation regroups. */
  lemma AppendAssociative(x: string, y: string, z: string)
    ensures x + (y + z) == x + y + z
  {
  }

  /** The compact section keywords, each between two spaces, spelt out. */
  lemma SpacedKeywords()
    ensures " " + "WHERE" + " " == " WHERE "
    ensures " " + "GROUP BY" + " " == " GROUP BY "
    ensures " " + "ORDER BY" + " " == " ORDER BY "
  {
    var w := " " + "WHERE" + " ";
    forall i | 0 <= i < 7 ensures w[i] == " WHERE "[i] {}
    var g := " " + "GROUP BY" + " ";
    forall i | 0 <= i < 10 ensures g[i] == " GROUP BY "[i] {}
    var o := " " + "ORDER BY" + " ";
    forall i | 0 <= i < 10 ensures o[i] == " ORDER BY "[i] {}
  }

  /**
   * JOIN blocks are glued to each other with no separator: with no later
   * section, another block appends its text right after the previous ones
   * (after a single space when it is the first).
   */
  lemma JoinBlocksGlued<V>(s: NvSelect<V>, js: J.JoinStatement<NvSelect<V>>, reading: Reading)
    requires s.whereClause.None? && s.groupBy.None? && s.orderBy.None?
    requires forall i :: 0 <= i < |js.joins| ==> !js.joins[i].ObjectSubqueryJoin?
    ensures Render(s.(joinBlocks := s.joinBlocks + [js]), false, reading)
         == Render(s, false, reading) + (if |s.joinBlocks| == 0 then " " else "")
            + J.GenerateQuery(js, false, seq(|js.joins|, _ => ""))
  {
    var t := s.(joinBlocks := s.joinBlocks + [js]);
    var before := JoinBlockTexts(s, s.joinBlocks, false, reading);
    var x := J.GenerateQuery(js, false, seq(|js.joins|, _ => ""));
    var h := SelectSection(s, false, reading) + FromSection(s, FromText(s, false, reading), false, reading);
    RenderWithoutTail(s, reading);
    RenderWithoutTail(t, reading);
    GluedHead(s, js, reading);
    GlueStep(h, Concat(before), x, Render(s, false, reading), Render(t, false, reading), |s.joinBlocks| == 0);
  }

  /** With no WHERE, GROUP BY or ORDER BY section, a statement renders as its head. */
  lemma RenderWithoutTail<V>(s: NvSelect<V>, reading: Reading)
    requires s.whereClause.None? && s.groupBy.None? && s.orderBy.None?
    ensures Render(s, false, reading) == Head(s, false, reading)
  {
    RenderParts(s, false, reading);
    assert WhereSection(s, false) == "" && GroupBySection(s, false) == "" && OrderBySection(s, false) == "";
  }

  /** The head of a statement with one more JOIN block, as the pieces `JoinBlocksGlued` regroups. */
  lemma GluedHead<V>(s: NvSelect<V>, js: J.JoinStatement<NvSelect<V>>, reading: Reading)
    requires forall i :: 0 <= i < |js.joins| ==> !js.joins[i].ObjectSubqueryJoin?
    ensures var before := JoinBlockTexts(s, s.joinBlocks, false, reading);
            var h := SelectSection(s, false, reading) + FromSection(s, FromText(s, false, reading), false, reading);
            && (|s.joinBlocks| == 0 ==> Concat(before) == "" && Head(s, false, reading) == h)
            && (|s.joinBlocks| > 0 ==> Head(s, false, reading) == h + (" " + Concat(before)))
            && Head(s.(joinBlocks := s.joinBlocks + [js]), false, reading)
               == h + (" " + (Concat(before) + J.GenerateQuery(js, false, seq(|js.joins|, _ => ""))))
  {
    var t := s.(joinBlocks := s.joinBlocks + [js]);
    var before := JoinBlockTexts(s, s.joinBlocks, false, reading);
    var x := J.GenerateQuery(js, false, seq(|js.joins|, _ => ""));
    var h := SelectSection(s, false, reading) + FromSection(s, FromText(s, false, reading), false, reading);
    GluedTexts(s, js, reading);
    HeadParts(s, false, reading);
    assert Head(t, false, reading) == h + JoinSection(t, before + [x], false) by {
      HeadParts(t, false, reading);
      FromTextLocal(s, t, false, reading);
      assert SelectSection(t, false, reading) == SelectSection(s, false, reading);
      assert FromSection(t, FromText(t, false, reading), false, reading)
          == FromSection(s, FromText(s, false, reading), false, reading);
    }
    assert JoinSection(t, before + [x], false) == " " + (Concat(before) + x) by {
      ConcatAppend(before, x);
    }
  }

  /** The block texts of a statement with one more JOIN block (with no object joins). */
  lemma GluedTexts<V>(s: NvSelect<V>, js: J.JoinStatement<NvSelect<V>>, reading: Reading)
    requires forall i :: 0 <= i < |js.joins| ==> !js.joins[i].ObjectSubqueryJoin?
    ensures var t := s.(joinBlocks := s.joinBlocks + [js]);
            JoinBlockTexts(t, t.joinBlocks, false, reading)
            == JoinBlockTexts(s, s.joinBlocks, false, reading) + [J.GenerateQuery(js, false, seq(|js.joins|, _ => ""))]
  {
    var t := s.(joinBlocks := s.joinBlocks + [js]);
    assert t.joinBlocks[|s.joinBlocks|] == js;
    assert forall i :: 0 <= i < |s.joinBlocks| ==> s.joinBlocks[i] < s;
    assert forall i :: 0 <= i < |s.joinBlocks| ==> s.joinBlocks[i] < t by {
      forall i | 0 <= i < |s.joinBlocks|
        ensures s.joinBlocks[i] < t
      {
        assert s.joinBlocks[i] == t.joinBlocks[i];
      }
    }
    JoinBlockTextsParentFree(s, t, s.joinBlocks, false, reading);
    JoinBlockTextsAppend(t, s.joinBlocks, js, false, reading);
    ObjectTextsEmpty(t, js.joins, reading);
  }

  /** The string regrouping behind `JoinBlocksGlued`. */
  lemma GlueStep(h: string, c: string, x: string, rs: string, rt: string, empty: bool)
    requires rt == h + (" " + (c + x))
    requires empty ==> c == "" && rs == h
    requires !empty ==> rs == h + (" " + c)
    ensures rt == rs + (if empty then " " else "") + x
  {
    if empty {
      assert " " + ("" + x) == " " + x;
      AppendAssociative(h, " ", x);
    } else {
      AppendAssociative(" ", c, x);
      AppendAssociative(h, " " + c, x);
      assert rs + "" == rs;
    }
  }

  /** Appending a block appends its text. */
  lemma {:induction false} JoinBlockTextsAppend<V>(parent: NvSelect<V>, blocks: seq<J.JoinStatement<NvSelect<V>>>,
                                                   js: J.JoinStatement<NvSelect<V>>, prettyPrint: bool, reading: Reading)
    requires forall i :: 0 <= i < |blocks| ==> blocks[i] < parent
    requires js < parent
    ensures forall i :: 0 <= i < |blocks + [js]| ==> (blocks + [js])[i] < parent
    ensures forall i :: 0 <= i < |js.joins| ==> js.joins[i] < parent
    ensures JoinBlockTexts(parent, blocks + [js], prettyPrint, reading)
         == JoinBlockTexts(parent, blocks, prettyPrint, reading)
            + [J.GenerateQuery(js, prettyPrint, ObjectTexts(parent, js.joins, reading))]
    decreases |blocks|
  {
    BlocksBelow(parent, blocks, js);
    var all := blocks + [js];
    if |blocks| == 0 {
      assert all == [js];
      JoinBlockTextsCons(parent, all, prettyPrint, reading);
    } else {
      assert all[1..] == blocks[1..] + [js];
      JoinBlockTextsCons(parent, all, prettyPrint, reading);
      JoinBlockTextsCons(parent, blocks, prettyPrint, reading);
      JoinBlockTextsAppend(parent, blocks[1..], js, prettyPrint, reading);
    }
  }

  /** A block appended below the parent keeps every block, and the new block's joins, below it. */
  lemma BlocksBelow<V>(parent: NvSelect<V>, blocks: seq<J.JoinStatement<NvSelect<V>>>, js: J.JoinStatement<NvSelect<V>>)
    requires forall i :: 0 <= i < |blocks| ==> blocks[i] < parent
    requires js < parent
    ensures forall i :: 0 <= i < |blocks + [js]| ==> (blocks + [js])[i] < parent
    ensures forall i :: 0 <= i < |js.joins| ==> js.joins[i] < parent
  {
    var all := blocks + [js];
    forall i | 0 <= i < |all| ensures all[i] < parent {
      if i < |blocks| { assert all[i] == blocks[i]; }
    }
  }

  /** The first block's text heads the list. */
  lemma JoinBlockTextsCons<V>(parent: NvSelect<V>, blocks: seq<J.JoinStatement<NvSelect<V>>>, prettyPrint: bool,
                              reading: Reading)
    requires |blocks| > 0
    requires forall i :: 0 <= i < |blocks| ==> blocks[i] < parent
    ensures forall i :: 0 <= i < |blocks[0].joins| ==> blocks[0].joins[i] < parent
    ensures JoinBlockTexts(parent, blocks, prettyPrint, reading)
         == [J.GenerateQuery(blocks[0], prettyPrint, ObjectTexts(parent, blocks[0].joins, reading))]
            + JoinBlockTexts(parent, blocks[1..], prettyPrint, reading)
  {
    var b := blocks[0];
    assert forall i :: 0 <= i < |b.joins| ==> b.joins[i] < parent;
  }

  /** Without object joins, every object text is empty. */
  lemma {:induction false} ObjectTextsEmpty<V>(parent: NvSelect<V>, defs: seq<J.JoinDef<NvSelect<V>>>, reading: Reading)
    requires forall i :: 0 <= i < |defs| ==> defs[i] < parent
    requires forall i :: 0 <= i < |defs| ==> !defs[i].ObjectSubqueryJoin?
    ensures ObjectTexts(parent, defs, reading) == seq(|defs|, _ => "")
    decreases |defs|
  {
    if |defs| > 0 {
      ObjectTextsEmpty(parent, defs[1..], reading);
    }
  }
}

=== FILE: order_by.dfy ===
/**
 * ORDER BY keys (`sqlbuilder/order_by.rs`): field names with an optional
 * table alias and an optional explicit direction, joined by commas.
 */
module OrderBy {
  import opened Wrappers
  import opened StringUtils
  import opened Def

  /** One ORDER BY key; the direction is written only when `defineSortType` is set. */
  datatype OrderByClause = OrderByClause(
    fieldName: string,
    tableAlias: Option<string>,
    level: nat,
    sortType: SortType,
    defineSortType: bool)

  /** `OrderByClause::new`: no alias. */
  function NewClause(fieldName: string, sort: SortType, defineSortType: bool, level: nat): (c: OrderByClause)
    ensures c.tableAlias.None? && c.fieldName == fieldName && c.sortType == sort && c.defineSortType == defineSortType
  {
    OrderByClause(fieldName, None, level, sort, defineSortType)
  }

  /** `new_with_alias`. */
  function NewClauseWithAlias(fieldName: string, alias: Option<string>, sort: SortType, defineSortType: bool,
                              level: nat): (c: OrderByClause)
    ensures c.tableAlias == alias && c.fieldName == fieldName && c.sortType == sort && c.defineSortType == defineSortType
  {
    OrderByClause(fieldName, alias, level, sort, defineSortType)
  }

  /** `build_fieldname`: `alias.field`, or the bare field without an alias. */
  function BuildFieldName(c: OrderByClause): (r: string)
    ensures c.tableAlias.None? ==> r == c.fieldName
    ensures c.tableAlias.Some? ==> r == c.tableAlias.value + "." + c.fieldName
  {
    match c.tableAlias
    case Some(alias) => alias + "." + c.fieldName
    case None => c.fieldName
  }

  /** The direction suffix. */
  function SortSuffix(t: SortType): string
  {
    match t
    case Ascending => " ASC"
    case Descending => " DESC"
  }

  /**
   * `OrderByClause::generate_query`: the field name, followed by its
   * direction exactly when the clause asks for one; the name is always a
   * prefix and the direction can be read back from the suffix.
   */
  function GenerateClause(c: OrderByClause): (r: string)
    ensures |r| >= |BuildFieldName(c)| && r[..|BuildFieldName(c)|] == BuildFieldName(c)
    ensures !c.defineSortType ==> r == BuildFieldName(c)
    ensures c.defineSortType ==> r[|BuildFieldName(c)|..] == SortSuffix(c.sortType)
  {
    var name := BuildFieldName(c);
    var r := if c.defineSortType then name + SortSuffix(c.sortType) else name;
    assert c.defineSortType ==> r[|name|..] == SortSuffix(c.sortType);
    r
  }

  /** The direction is recoverable: different explicit directions render differently. */
  lemma ExplicitDirectionsDiffer(c: OrderByClause)
    requires c.defineSortType
    ensures GenerateClause(c.(sortType := Ascending)) != GenerateClause(c.(sortType := Descending))
  {
    var a := GenerateClause(c.(sortType := Ascending));
    var d := GenerateClause(c.(sortType := Descending));
    var n := |BuildFieldName(c)|;
    assert BuildFieldName(c.(sortType := Ascending)) == BuildFieldName(c) == BuildFieldName(c.(sortType := Descending));
    assert a[n..] == " ASC" && d[n..] == " DESC";
  }

  function ClauseTexts(cs: seq<OrderByClause>): (r: seq<string>)
    ensures |r| == |cs|
    ensures forall i :: 0 <= i < |cs| ==> r[i] == GenerateClause(cs[i])
  {
    if |cs| == 0 then [] else [GenerateClause(cs[0])] + ClauseTexts(cs[1..])
  }

  /** An ORDER BY collection; it keeps no parameter index. */
  datatype OrderByStatement = OrderByStatement(hasParent: bool, sorts: seq<OrderByClause>, level: nat)

  /** `OrderByStatement::new`: free-standing at level 0. */
  function New(): (o: OrderByStatement)
    ensures !o.hasParent && o.sorts == [] && o.level == 0
  {
    OrderByStatement(false, [], 0)
  }

  /** `new_with_parent`. */
  function NewWithParent(level: nat): (o: OrderByStatement)
    ensures o.hasParent && o.sorts == [] && o.level == level
  {
    OrderByStatement(true, [], level)
  }

  /** `by`: one more key at the end, earlier keys unchanged. */
  function By(o: OrderByStatement, fieldName: string, alias: Option<string>, sort: SortType, defineSortType: bool): (r: OrderByStatement)
    ensures |r.sorts| == |o.sorts| + 1 && r.sorts[..|o.sorts|] == o.sorts
    ensures r.sorts[|o.sorts|].fieldName == fieldName && r.sorts[|o.sorts|].tableAlias == alias
    ensures r.sorts[|o.sorts|].sortType == sort && r.sorts[|o.sorts|].defineSortType == defineSortType
    ensures r.sorts[|o.sorts|].level == o.level
    ensures r.level == o.level && r.hasParent == o.hasParent
  {
    o.(sorts := o.sorts + [NewClauseWithAlias(fieldName, alias, sort, defineSortType, o.level)])
  }

  /** `asc`: `by` with the ascending direction; alias, flag and level are passed through. */
  function Asc(o: OrderByStatement, fieldName: string, alias: Option<string>, defineSortType: bool): (r: OrderByStatement)
    ensures |r.sorts| == |o.sorts| + 1 && r.sorts[..|o.sorts|] == o.sorts
    ensures r.sorts[|o.sorts|].sortType == Ascending && r.sorts[|o.sorts|].fieldName == fieldName
    ensures defineSortType ==> GenerateClause(r.sorts[|o.sorts|]) == BuildFieldName(r.sorts[|o.sorts|]) + " ASC"
    ensures r.sorts == o.sorts + [OrderByClause(fieldName, alias, o.level, Ascending, defineSortType)]
    ensures r.level == o.level && r.hasParent == o.hasParent
  {
    By(o, fieldName, alias, Ascending, defineSortType)
  }

  /** `desc`: `by` with the descending direction; alias, flag and level are passed through. */
  function Desc(o: OrderByStatement, fieldName: string, alias: Option<string>, defineSortType: bool): (r: OrderByStatement)
    ensures |r.sorts| == |o.sorts| + 1 && r.sorts[..|o.sorts|] == o.sorts
    ensures r.sorts[|o.sorts|].sortType == Descending && r.sorts[|o.sorts|].fieldName == fieldName
    ensures defineSortType ==> GenerateClause(r.sorts[|o.sorts|]) == BuildFieldName(r.sorts[|o.sorts|]) + " DESC"
    ensures r.sorts == o.sorts + [OrderByClause(fieldName, alias, o.level, Descending, defineSortType)]
    ensures r.level == o.level && r.hasParent == o.hasParent
  {
    By(o, fieldName, alias, Descending, defineSortType)
  }

  /** `generate_query`: the keys in order, joined by `", "`; pretty printing changes nothing. */
  function GenerateQuery(o: OrderByStatement, prettyPrint: bool): (r: string)
    ensures r == Join(ClauseTexts(o.sorts), ", ")
    ensures |o.sorts| == 0 ==> r == ""
  {
    SeparatedConcat(ClauseTexts(o.sorts), ", ")
  }

  /** Adding a key appends its text, behind `", "` unless it is the first. */
  lemma ByRenders(o: OrderByStatement, fieldName: string, alias: Option<string>, sort: SortType, defineSortType: bool, prettyPrint: bool)
    ensures GenerateQuery(By(o, fieldName, alias, sort, defineSortType), prettyPrint)
         == (if |o.sorts| == 0 then "" else GenerateQuery(o, prettyPrint) + ", ")
            + GenerateClause(OrderByClause(fieldName, alias, o.level, sort, defineSortType))
  {
    var r := By(o, fieldName, alias, sort, defineSortType);
    var x := GenerateClause(r.sorts[|o.sorts|]);
    assert ClauseTexts(r.sorts) == ClauseTexts(o.sorts) + [x] by {
      assert r.sorts == o.sorts + [r.sorts[|o.sorts|]];
    }
    JoinAppend(ClauseTexts(o.sorts), x, ", ");
    if |o.sorts| == 0 {
      assert "" + x == x;
    }
  }
}

=== FILE: string_utils.dfy ===
/**
 * String helpers: indentation (`utils/strings/string_utils.rs`), separator joins
 * (the `is_first_element` loops repeated across the renderers) and decimal
 * formatting of parameter indices (how Rust prints a `u32` in decimal).
 */
module StringUtils {

  /** `indent_space(level)`: two spaces per nesting level. */
  function IndentSpace(level: nat): (r: string)
    ensures |r| == 2 * level
    ensures forall i :: 0 <= i < |r| ==> r[i] == ' '
  {
    if level == 0 then "" else "  " + IndentSpace(level - 1)
  }

  /** Indentation is additive in the level. */
  lemma {:induction false} IndentSpaceAdd(a: nat, b: nat)
    ensures IndentSpace(a + b) == IndentSpace(a) + IndentSpace(b)
  {
    if a > 0 {
      IndentSpaceAdd(a - 1, b);
      assert IndentSpace(a + b) == "  " + IndentSpace(a - 1 + b);
    }
  }

  /** `n` copies of the character `c`. */
  function Repeat(c: char, n: nat): (r: string)
    ensures |r| == n
    ensures forall i :: 0 <= i < |r| ==> r[i] == c
  {
    if n == 0 then "" else [c] + Repeat(c, n - 1)
  }

  /** Reference definition of a separator join: the parts in order, `sep` between neighbours. */
  function Join(parts: seq<string>, sep: string): string
  {
    if |parts| == 0 then ""
    else if |parts| == 1 then parts[0]
    else parts[0] + sep + Join(parts[1..], sep)
  }

  /** Joining one more part adds exactly one separator and the part at the end. */
  lemma {:induction false} JoinAppend(parts: seq<string>, x: string, sep: string)
    ensures Join(parts + [x], sep) == if |parts| == 0 then x else Join(parts, sep) + sep + x
  {
    if |parts| == 0 {
      assert parts + [x] == [x];
    } else if |parts| == 1 {
      assert (parts + [x])[1..] == [x];
    } else {
      assert (parts + [x])[1..] == parts[1..] + [x];
      JoinAppend(parts[1..], x, sep);
    }
  }

  /** Joining two non-empty runs puts exactly one separator between them. */
  lemma {:induction false} JoinConcat(a: seq<string>, b: seq<string>, sep: string)
    requires |a| > 0 && |b| > 0
    ensures Join(a + b, sep) == Join(a, sep) + sep + Join(b, sep)
  {
    if |a| == 1 {
      assert (a + b)[1..] == b;
    } else {
      assert (a + b)[1..] == a[1..] + b;
      JoinConcat(a[1..], b, sep);
    }
  }

  /**
   * The renderers' loop: walk the parts left to right, pushing `sep` before
   * every part but the first one emitted. `first` is the loop's
   * `is_first_element` flag and `acc` the text built so far.
   */
  function ConcatLoop(acc: string, parts: seq<string>, sep: string, first: bool): (r: string)
    ensures r == acc + (if |parts| == 0 then "" else (if first then "" else sep) + Join(parts, sep))
    decreases |parts|
  {
    if |parts| == 0 then acc
    else
      var next := (if first then acc else acc + sep) + parts[0];
      assert |parts| > 1 ==> Join(parts, sep) == parts[0] + sep + Join(parts[1..], sep);
      ConcatLoop(next, parts[1..], sep, false)
  }

  /** The loop run from an empty string with the flag set is the separator join. */
  function SeparatedConcat(parts: seq<string>, sep: string): (r: string)
    ensures r == Join(parts, sep)
  {
    ConcatLoop("", parts, sep, true)
  }

  /** Plain concatenation of the parts in order, with nothing between them. */
  function Concat(parts: seq<string>): string
  {
    if |parts| == 0 then "" else parts[0] + Concat(parts[1..])
  }

  /** Concatenating one more part appends it at the end. */
  lemma {:induction false} ConcatAppend(parts: seq<string>, x: string)
    ensures Concat(parts + [x]) == Concat(parts) + x
  {
    if |parts| == 0 {
      assert parts + [x] == [x];
    } else {
      assert (parts + [x])[1..] == parts[1..] + [x];
      ConcatAppend(parts[1..], x);
    }
  }

  /** `s` opens with `p`. */
  predicate StartsWith(s: string, p: string)
  {
    |s| >= |p| && s[..|p|] == p
  }

  /** Appending to a string keeps every prefix it already had. */
  lemma StartsWithExtend(s: string, p: string, rest: string)
    requires StartsWith(s, p)
    ensures StartsWith(s + rest, p)
  {
    assert (s + rest)[..|p|] == s[..|p|];
  }

  /** A prefix of a prefix is a prefix. */
  lemma StartsWithTrans(s: string, m: string, p: string)
    requires StartsWith(s, m) && StartsWith(m, p)
    ensures StartsWith(s, p)
  {
    assert s[..|p|] == m[..|p|];
  }

  predicate IsDigit(c: char)
  {
    '0' <= c <= '9'
  }

  function DigitChar(d: nat): (c: char)
    requires d < 10
    ensures IsDigit(c)
  {
    "0123456789"[d]
  }

  function DigitValue(c: char): (d: nat)
    requires IsDigit(c)
  {
    c as int - '0' as int
  }

  /** Decimal rendering of a natural number, as Rust prints a `u32`. */
  function Decimal(n: nat): (r: string)
    ensures |r| >= 1
    ensures forall i :: 0 <= i < |r| ==> IsDigit(r[i])
    ensures r[0] == '0' ==> n == 0
  {
    if n < 10 then [DigitChar(n)] else Decimal(n / 10) + [DigitChar(n % 10)]
  }

  /** Reads a string of decimal digits back into a number. */
  function ParseDecimal(s: string): nat
    requires forall i :: 0 <= i < |s| ==> IsDigit(s[i])
  {
    if |s| == 0 then 0 else 10 * ParseDecimal(s[..|s| - 1]) + DigitValue(s[|s| - 1])
  }

  /** Reading the decimal rendering back gives the number. */
  lemma {:induction false} ParseDecimalRoundTrip(n: nat)
    ensures ParseDecimal(Decimal(n)) == n
  {
    var r := Decimal(n);
    if n >= 10 {
      ParseDecimalRoundTrip(n / 10);
      assert r[..|r| - 1] == Decimal(n / 10);
    }
  }

  /** Distinct numbers have distinct decimal renderings. */
  lemma DecimalInjective(a: nat, b: nat)
    ensures Decimal(a) == Decimal(b) ==> a == b
  {
    ParseDecimalRoundTrip(a);
    ParseDecimalRoundTrip(b);
  }
}

=== FILE: where_statement.dfy ===
/**
 * WHERE fragments and their collection (`sqlbuilder/where_statement.rs`).
 * The collection is generic in the type `Q` of the nested statement a
 * subquery condition owns, so that the statement module can close the
 * recursion.
 */
module Where {
  import opened StringUtils
  import opened Def

  /** One WHERE fragment; each variant carries only the fields its mode uses. */
  datatype Condition<Q> =
    | Comparator(fieldName: string, operation: SqlOperator, valueSize: nat,
                 startIndex: nat, paramIndex: nat, level: nat, dialect: DatabaseDialect)
    | LogicalOperator(logic: LogicOperator, level: nat, dialect: DatabaseDialect)
    | StartGroup(level: nat, dialect: DatabaseDialect)
    | EndGroup(level: nat, dialect: DatabaseDialect)
    | Subquery(fieldName: string, operation: SqlOperator, tableAlias: string,
               startIndex: nat, paramIndex: nat, level: nat, dialect: DatabaseDialect, subquery: Q)

  /**
   * `Condition::process`, the arity rule: BETWEEN consumes two indices only
   * when given exactly two values, IN one per value, everything else one.
   */
  function Process(startIndex: nat, operation: SqlOperator, valueSize: nat): (r: nat)
    ensures operation == Between && valueSize == 2 ==> r == startIndex + 2
    ensures operation == In ==> r == startIndex + valueSize
    ensures operation != In && (operation != Between || valueSize != 2) ==> r == startIndex + 1
  {
    match operation
    case Between => if valueSize == 2 then startIndex + 2 else startIndex + 1
    case In => startIndex + valueSize
    case _ => startIndex + 1
  }

  /**
   * `new_comparator` as written: the index is advanced first and the
   * ADVANCED index is stored both as the fragment's start index and as its
   * next index, so the placeholder it renders is the one after the last
   * index it consumes (see Findings).
   */
  function NewComparatorAsWritten<Q>(fieldName: string, op: SqlOperator, valueSize: nat, paramIndex: nat,
                                     level: nat, dialect: DatabaseDialect): (c: Condition<Q>)
  {
    var advanced := Process(paramIndex, op, valueSize);
    Comparator(fieldName, op, valueSize, advanced, advanced, level, dialect)
  }

  /** As written, a comparator's start index is the advanced one, past the index it was given. */
  lemma ComparatorAsWrittenStartsPastIndex<Q>(fieldName: string, op: SqlOperator, valueSize: nat, paramIndex: nat,
                                              level: nat, dialect: DatabaseDialect)
    ensures var c := NewComparatorAsWritten<Q>(fieldName, op, valueSize, paramIndex, level, dialect);
            && c.Comparator? && c.fieldName == fieldName && c.operation == op && c.valueSize == valueSize
            && c.startIndex == c.paramIndex == Process(paramIndex, op, valueSize)
            && (c.startIndex > paramIndex || (op == In && valueSize == 0))
  {
  }

  /**
   * `new_comparator`, corrected: the fragment starts at the index it was
   * given and hands back the advanced one, so it consumes the indices from
   * `startIndex` up to but excluding `paramIndex`, as a dynamic function does.
   */
  function NewComparator<Q>(fieldName: string, op: SqlOperator, valueSize: nat, paramIndex: nat,
                            level: nat, dialect: DatabaseDialect): (c: Condition<Q>)
  {
    Comparator(fieldName, op, valueSize, paramIndex, Process(paramIndex, op, valueSize), level, dialect)
  }

  /** Corrected, a comparator starts at the index it was given and reserves its arity after it. */
  lemma ComparatorStartsAtIndex<Q>(fieldName: string, op: SqlOperator, valueSize: nat, paramIndex: nat,
                                   level: nat, dialect: DatabaseDialect)
    ensures var c := NewComparator<Q>(fieldName, op, valueSize, paramIndex, level, dialect);
            && c.Comparator? && c.fieldName == fieldName && c.operation == op && c.valueSize == valueSize
            && c.startIndex == paramIndex && c.paramIndex == Process(paramIndex, op, valueSize)
            && (c.startIndex < c.paramIndex || (op == In && valueSize == 0))
  {
  }

  /** `new_subquery`: a comparison against a nested statement; consumes no index itself. */
  function NewSubquery<Q>(fieldName: string, subqueryName: string, op: SqlOperator, paramIndex: nat,
                          level: nat, dialect: DatabaseDialect, child: Q): (c: Condition<Q>)
    ensures c.Subquery? && c.startIndex == paramIndex && c.paramIndex == paramIndex
    ensures c.tableAlias == subqueryName && c.subquery == child
  {
    Subquery(fieldName, op, subqueryName, paramIndex, paramIndex, level, dialect, child)
  }

  /** `start_parameter_index`; connectors and groups hold 0. */
  function StartParameterIndex<Q>(c: Condition<Q>): nat
  {
    match c
    case Comparator(_, _, _, s, _, _, _) => s
    case Subquery(_, _, _, s, _, _, _, _) => s
    case _ => 0
  }

  /** `next_parameter_index`; connectors and groups hold 0. */
  function NextParameterIndex<Q>(c: Condition<Q>): nat
  {
    match c
    case Comparator(_, _, _, _, p, _, _) => p
    case Subquery(_, _, _, _, p, _, _, _) => p
    case _ => 0
  }

  /** The texts of the group delimiters. */
  const OpenParen: string := "("
  const CloseParen: string := ")"

  /**
   * `Condition::generate_query`. The nested statement of a subquery
   * condition is rendered by the source's placeholder helper, which returns
   * the empty string, so only `field op ()` and the alias appear.
   */
  function GenerateCondition<Q>(c: Condition<Q>, prettyPrint: bool): (r: string)
    ensures c.Comparator? ==> r == c.fieldName + " " + OperatorDisplay(c.operation) + " " + StubPlaceholder(StartParameterIndex(c))
    ensures c.Subquery? && c.tableAlias == "" ==> r == c.fieldName + " " + OperatorDisplay(c.operation) + " () "
    ensures c.Subquery? && c.tableAlias != "" ==> r == c.fieldName + " " + OperatorDisplay(c.operation) + " () AS " + c.tableAlias + " "
    ensures c.LogicalOperator? ==> r == LogicDisplay(c.logic)
    ensures c.StartGroup? ==> r == "("
    ensures c.EndGroup? ==> r == ")"
  {
    match c
    case StartGroup(_, _) => OpenParen
    case LogicalOperator(l, _, _) => LogicDisplay(l)
    case Subquery(f, op, alias, _, _, _, _, _) =>
      f + " " + OperatorDisplay(op) + " (" + "" + ")" + (if alias != "" then " AS " + alias else "") + " "
    case Comparator(f, op, _, start, _, _, _) =>
      f + " " + OperatorDisplay(op) + " " + StubPlaceholder(start)
    case EndGroup(_, _) => CloseParen
  }

  /** The rendered fragments, in order. */
  function ConditionTexts<Q>(cs: seq<Condition<Q>>, prettyPrint: bool): (r: seq<string>)
    ensures |r| == |cs|
    ensures forall i :: 0 <= i < |cs| ==> r[i] == GenerateCondition(cs[i], prettyPrint)
  {
    if |cs| == 0 then [] else [GenerateCondition(cs[0], prettyPrint)] + ConditionTexts(cs[1..], prettyPrint)
  }

  /**
   * A WHERE collection: the shared list of bound values, the fragments in
   * insertion order, and its own running parameter index. `hasParent` is
   * the source's parent pointer being set.
   */
  datatype WhereStatement<V, Q> = WhereStatement(
    hasParent: bool,
    values: seq<V>,
    conditions: seq<Condition<Q>>,
    level: nat,
    counter: nat,
    dialect: DatabaseDialect)

  /** `WhereStatement::new`: a free-standing collection with no parent, numbering from 1. */
  function New<V, Q>(dialect: DatabaseDialect): (w: WhereStatement<V, Q>)
  {
    WhereStatement(false, [], [], 0, 1, dialect)
  }

  /** A free-standing WHERE collection has no parent or fragments and numbers from 1. */
  lemma NewStartsAtOne<V, Q>(dialect: DatabaseDialect)
    ensures var w := New<V, Q>(dialect);
            && !w.hasParent && w.counter == 1 && w.level == 0
            && w.values == [] && w.conditions == []
  {
  }

  /** `new_with_parent`: a collection created by a statement, resuming its index and level. */
  function NewWithParent<V, Q>(values: seq<V>, counter: nat, level: nat, dialect: DatabaseDialect): (w: WhereStatement<V, Q>)
  {
    WhereStatement(true, values, [], level, counter, dialect)
  }

  /** A nested WHERE collection resumes its parent's values, index and level. */
  lemma NewWithParentResumes<V, Q>(values: seq<V>, counter: nat, level: nat, dialect: DatabaseDialect)
    ensures var w := NewWithParent<V, Q>(values, counter, level, dialect);
            && w.hasParent && w.counter == counter && w.level == level
            && w.values == values && w.conditions == []
  {
  }

  /** `update_current_parameter_index`. */
  function UpdateCurrentParameterIndex<V, Q>(w: WhereStatement<V, Q>, index: nat): (r: WhereStatement<V, Q>)
    ensures r.counter == index
    ensures r.conditions == w.conditions && r.values == w.values && r.hasParent == w.hasParent
    ensures r.(counter := w.counter) == w
  {
    w.(counter := index)
  }

  /** `r` is `w` with exactly one more fragment at the end and the same owner, level and dialect. */
  ghost predicate AppendsOne<V, Q>(w: WhereStatement<V, Q>, r: WhereStatement<V, Q>)
  {
    && |r.conditions| == |w.conditions| + 1
    && r.conditions[..|w.conditions|] == w.conditions
    && r.hasParent == w.hasParent && r.level == w.level && r.dialect == w.dialect
  }

  function Last<T>(s: seq<T>): T
    requires |s| > 0
  {
    s[|s| - 1]
  }

  /**
   * `add_condition`: one value and one comparator; whatever the operator
   * (BETWEEN and IN included), the arity passed is 1, so the index
   * advances by exactly one and the comparator holds the index it was at.
   */
  function AddCondition<V, Q>(w: WhereStatement<V, Q>, fieldName: string, op: SqlOperator, value: V): (r: WhereStatement<V, Q>)
    ensures AppendsOne(w, r)
    ensures r.counter == w.counter + 1
    ensures r.values == w.values + [value]
    ensures Last(r.conditions).Comparator? && Last(r.conditions).startIndex == w.counter
    ensures Last(r.conditions).fieldName == fieldName && Last(r.conditions).operation == op
  {
    var c := NewComparator(fieldName, op, 1, w.counter, w.level + 1, w.dialect);
    w.(counter := NextParameterIndex(c), values := w.values + [value], conditions := w.conditions + [c])
  }

  /**
   * `add_condition` as written, over `NewComparatorAsWritten`: the
   * comparator renders the index AFTER the counter, which is also where the
   * counter resumes (see Findings).
   */
  function AddConditionAsWritten<V, Q>(w: WhereStatement<V, Q>, fieldName: string, op: SqlOperator, value: V): (r: WhereStatement<V, Q>)
    ensures AppendsOne(w, r)
    ensures r.counter == w.counter + 1 && r.values == w.values + [value]
    ensures Last(r.conditions).Comparator? && Last(r.conditions).startIndex == r.counter
    ensures Last(r.conditions).fieldName == fieldName && Last(r.conditions).operation == op
  {
    var c := NewComparatorAsWritten(fieldName, op, 1, w.counter, w.level + 1, w.dialect);
    w.(counter := NextParameterIndex(c), values := w.values + [value], conditions := w.conditions + [c])
  }

  /** `add_condition_between`: two values, one BETWEEN comparator, two indices. */
  function AddConditionBetween<V, Q>(w: WhereStatement<V, Q>, fieldName: string, value1: V, value2: V): (r: WhereStatement<V, Q>)
    ensures AppendsOne(w, r)
    ensures r.counter == w.counter + 2
    ensures r.values == w.values + [value1, value2]
    ensures Last(r.conditions).Comparator? && Last(r.conditions).startIndex == w.counter
    ensures Last(r.conditions).operation == Between && Last(r.conditions).valueSize == 2
    ensures Last(r.conditions).fieldName == fieldName
  {
    var values := w.values + [value1] + [value2];
    var c := NewComparator(fieldName, Between, 2, w.counter, w.level + 1, w.dialect);
    w.(counter := NextParameterIndex(c), values := values, conditions := w.conditions + [c])
  }

  /** `add_condition_in`: all the values and one IN comparator; the index advances by their number. */
  function AddConditionIn<V, Q>(w: WhereStatement<V, Q>, fieldName: string, values: seq<V>): (r: WhereStatement<V, Q>)
    ensures AppendsOne(w, r)
    ensures r.counter == w.counter + |values|
    ensures r.values == w.values + values
    ensures Last(r.conditions).Comparator? && Last(r.conditions).operation == In
    ensures Last(r.conditions).startIndex == w.counter && Last(r.conditions).valueSize == |values|
    ensures |values| == 0 ==> r.counter == w.counter
    ensures Last(r.conditions).fieldName == fieldName
  {
    var c := NewComparator(fieldName, In, |values|, w.counter, w.level + 1, w.dialect);
    w.(counter := NextParameterIndex(c), values := w.values + values, conditions := w.conditions + [c])
  }

  /**
   * `add_condition_between` as written, over `NewComparatorAsWritten`: the
   * comparator renders the second of the two indices after the counter,
   * which is also where the counter resumes (see Findings).
   */
  function AddConditionBetweenAsWritten<V, Q>(w: WhereStatement<V, Q>, fieldName: string, value1: V, value2: V)
    : (r: WhereStatement<V, Q>)
    ensures AppendsOne(w, r)
    ensures r.counter == w.counter + 2 && r.values == w.values + [value1, value2]
    ensures Last(r.conditions).Comparator? && Last(r.conditions).startIndex == r.counter
    ensures Last(r.conditions).operation == Between && Last(r.conditions).valueSize == 2
    ensures Last(r.conditions).fieldName == fieldName
  {
    var values := w.values + [value1] + [value2];
    var c := NewComparatorAsWritten(fieldName, Between, 2, w.counter, w.level + 1, w.dialect);
    w.(counter := NextParameterIndex(c), values := values, conditions := w.conditions + [c])
  }

  /**
   * `add_condition_in` as written: the comparator renders the index `k`
   * past the counter for `k` values, which is also where the counter
   * resumes (see Findings).
   */
  function AddConditionInAsWritten<V, Q>(w: WhereStatement<V, Q>, fieldName: string, values: seq<V>): (r: WhereStatement<V, Q>)
    ensures AppendsOne(w, r)
    ensures r.counter == w.counter + |values| && r.values == w.values + values
    ensures Last(r.conditions).Comparator? && Last(r.conditions).operation == In
    ensures Last(r.conditions).startIndex == r.counter && Last(r.conditions).valueSize == |values|
    ensures Last(r.conditions).fieldName == fieldName
  {
    var c := NewComparatorAsWritten(fieldName, In, |values|, w.counter, w.level + 1, w.dialect);
    w.(counter := NextParameterIndex(c), values := w.values + values, conditions := w.conditions + [c])
  }

  /** `and`: appends an AND connector; no index, no value. */
  function And<V, Q>(w: WhereStatement<V, Q>): (r: WhereStatement<V, Q>)
    ensures AppendsOne(w, r) && r.counter == w.counter && r.values == w.values
    ensures GenerateCondition(Last(r.conditions), false) == "AND"
  {
    w.(conditions := w.conditions + [LogicalOperator(Def.And, w.level, w.dialect)])
  }

  /** `or`: appends an OR connector; no index, no value. */
  function Or<V, Q>(w: WhereStatement<V, Q>): (r: WhereStatement<V, Q>)
    ensures AppendsOne(w, r) && r.counter == w.counter && r.values == w.values
    ensures GenerateCondition(Last(r.conditions), false) == "OR"
  {
    w.(conditions := w.conditions + [LogicalOperator(Def.Or, w.level, w.dialect)])
  }

  /** `start_group`: appends an opening parenthesis; no index, no value. */
  function OpenGroup<V, Q>(w: WhereStatement<V, Q>): (r: WhereStatement<V, Q>)
    ensures AppendsOne(w, r) && r.counter == w.counter && r.values == w.values
    ensures GenerateCondition(Last(r.conditions), false) == OpenParen
  {
    w.(conditions := w.conditions + [StartGroup(w.level, w.dialect)])
  }

  /** `end_group`: appends a closing parenthesis; balance is not checked. */
  function CloseGroup<V, Q>(w: WhereStatement<V, Q>): (r: WhereStatement<V, Q>)
    ensures AppendsOne(w, r) && r.counter == w.counter && r.values == w.values
    ensures GenerateCondition(Last(r.conditions), false) == CloseParen
  {
    w.(conditions := w.conditions + [EndGroup(w.level, w.dialect)])
  }

  /**
   * The collection half of `add_subquery`: a subquery condition owning
   * `child`, one level below the collection; the index is left unchanged.
   */
  function AddSubquery<V, Q>(w: WhereStatement<V, Q>, fieldName: string, op: SqlOperator,
                             subqueryName: string, child: Q): (r: WhereStatement<V, Q>)
    ensures AppendsOne(w, r) && r.counter == w.counter && r.values == w.values
    ensures Last(r.conditions).Subquery? && Last(r.conditions).subquery == child
    ensures Last(r.conditions).startIndex == w.counter && Last(r.conditions).level == w.level + 1
  {
    var c := NewSubquery(fieldName, subqueryName, op, w.counter, w.level + 1, w.dialect, child);
    w.(counter := NextParameterIndex(c), conditions := w.conditions + [c])
  }

  /**
   * `WhereStatement::generate_query`: the fragments' texts concatenated in
   * insertion order with nothing in between, after `"WHERE "` when asked.
   */
  function GenerateQuery<V, Q>(w: WhereStatement<V, Q>, prettyPrint: bool, appendWhereKeyword: bool): (r: string)
    ensures appendWhereKeyword ==> |r| >= 6 && r[..6] == "WHERE "
    ensures |w.conditions| == 0 ==> r == (if appendWhereKeyword then "WHERE " else "")
  {
    var texts := ConditionTexts(w.conditions, prettyPrint);
    (if appendWhereKeyword then "WHERE " else "") + Concat(texts)
  }

  /** The pretty flag changes nothing in a WHERE collection's text. */
  lemma GenerateQueryIgnoresPrettyPrint<V, Q>(w: WhereStatement<V, Q>, appendWhereKeyword: bool)
    ensures GenerateQuery(w, true, appendWhereKeyword) == GenerateQuery(w, false, appendWhereKeyword)
  {
    assert ConditionTexts(w.conditions, true) == ConditionTexts(w.conditions, false);
  }

  /** The keyword flag only adds the `"WHERE "` prefix. */
  lemma WhereKeywordPrefix<V, Q>(w: WhereStatement<V, Q>, prettyPrint: bool)
    ensures GenerateQuery(w, prettyPrint, true) == "WHERE " + GenerateQuery(w, prettyPrint, false)
  {
  }

  /** The rendered fragments of a longer list extend the shorter one's. */
  lemma ConditionTextsAppend<Q>(cs: seq<Condition<Q>>, c: Condition<Q>, prettyPrint: bool)
    ensures ConditionTexts(cs + [c], prettyPrint) == ConditionTexts(cs, prettyPrint) + [GenerateCondition(c, prettyPrint)]
  {
    var a := ConditionTexts(cs + [c], prettyPrint);
    var b := ConditionTexts(cs, prettyPrint) + [GenerateCondition(c, prettyPrint)];
    assert |a| == |b|;
    forall i | 0 <= i < |a|
      ensures a[i] == b[i]
    {
      assert (cs + [c])[i] == if i < |cs| then cs[i] else c;
    }
  }

  /** Appending a fragment appends its text, with no separator. */
  lemma GenerateQueryAppend<V, Q>(w: WhereStatement<V, Q>, r: WhereStatement<V, Q>, prettyPrint: bool, keyword: bool)
    requires AppendsOne(w, r)
    ensures GenerateQuery(r, prettyPrint, keyword)
         == GenerateQuery(w, prettyPrint, keyword) + GenerateCondition(Last(r.conditions), prettyPrint)
  {
    var c := Last(r.conditions);
    assert r.conditions == w.conditions + [c];
    ConditionTextsAppend(w.conditions, c, prettyPrint);
    ConcatAppend(ConditionTexts(w.conditions, prettyPrint), GenerateCondition(c, prettyPrint));
  }

  /**
   * A comparator renders the index the collection was at: `add_condition`
   * on a collection at index `n` renders `field op paramN` (N = n) and leaves the
   * collection at `n+1`.
   */
  lemma ConditionRendersCurrentIndex<V, Q>(w: WhereStatement<V, Q>, fieldName: string, op: SqlOperator,
                                           value: V, prettyPrint: bool)
    ensures GenerateQuery(AddCondition(w, fieldName, op, value), prettyPrint, false)
         == GenerateQuery(w, prettyPrint, false) + (fieldName + " " + OperatorDisplay(op) + " " + StubPlaceholder(w.counter))
  {
    var r := AddCondition(w, fieldName, op, value);
    GenerateQueryAppend(w, r, prettyPrint, false);
  }

  /** BETWEEN renders ONE placeholder, the first of the two indices it consumes. */
  lemma BetweenRendersOnePlaceholder<V, Q>(w: WhereStatement<V, Q>, fieldName: string, a: V, b: V, prettyPrint: bool)
    ensures GenerateQuery(AddConditionBetween(w, fieldName, a, b), prettyPrint, false)
         == GenerateQuery(w, prettyPrint, false) + (fieldName + " BETWEEN " + StubPlaceholder(w.counter))
  {
    var r := AddConditionBetween(w, fieldName, a, b);
    GenerateQueryAppend(w, r, prettyPrint, false);
    assert fieldName + " " + "BETWEEN" + " " + StubPlaceholder(w.counter) == fieldName + " BETWEEN " + StubPlaceholder(w.counter);
  }

  /** IN renders ONE placeholder, the first of the `k` indices it consumes. */
  lemma InRendersOnePlaceholder<V, Q>(w: WhereStatement<V, Q>, fieldName: string, vs: seq<V>, prettyPrint: bool)
    ensures GenerateQuery(AddConditionIn(w, fieldName, vs), prettyPrint, false)
         == GenerateQuery(w, prettyPrint, false) + (fieldName + " IN " + StubPlaceholder(w.counter))
  {
    var r := AddConditionIn(w, fieldName, vs);
    GenerateQueryAppend(w, r, prettyPrint, false);
    assert fieldName + " " + "IN" + " " + StubPlaceholder(w.counter) == fieldName + " IN " + StubPlaceholder(w.counter);
  }

  /**
   * As written, `add_condition` on a collection at index `n` renders
   * `field op paramM` with M = n+1, the index it leaves the collection at.
   */
  lemma ConditionRendersNextIndexAsWritten<V, Q>(w: WhereStatement<V, Q>, fieldName: string, op: SqlOperator,
                                                 value: V, prettyPrint: bool)
    ensures GenerateQuery(AddConditionAsWritten(w, fieldName, op, value), prettyPrint, false)
         == GenerateQuery(w, prettyPrint, false) + (fieldName + " " + OperatorDisplay(op) + " " + StubPlaceholder(w.counter + 1))
  {
    var r := AddConditionAsWritten(w, fieldName, op, value);
    GenerateQueryAppend(w, r, prettyPrint, false);
  }

  /** As written, BETWEEN renders one placeholder, two past the index the collection was at. */
  lemma BetweenRendersPastIndicesAsWritten<V, Q>(w: WhereStatement<V, Q>, fieldName: string, a: V, b: V, prettyPrint: bool)
    ensures GenerateQuery(AddConditionBetweenAsWritten(w, fieldName, a, b), prettyPrint, false)
         == GenerateQuery(w, prettyPrint, false) + (fieldName + " BETWEEN " + StubPlaceholder(w.counter + 2))
  {
    var r := AddConditionBetweenAsWritten(w, fieldName, a, b);
    GenerateQueryAppend(w, r, prettyPrint, false);
    assert fieldName + " " + "BETWEEN" + " " + StubPlaceholder(w.counter + 2) == fieldName + " BETWEEN " + StubPlaceholder(w.counter + 2);
  }

  /** As written, IN with `k` values renders one placeholder, `k` past the index the collection was at. */
  lemma InRendersPastIndicesAsWritten<V, Q>(w: WhereStatement<V, Q>, fieldName: string, vs: seq<V>, prettyPrint: bool)
    ensures GenerateQuery(AddConditionInAsWritten(w, fieldName, vs), prettyPrint, false)
         == GenerateQuery(w, prettyPrint, false) + (fieldName + " IN " + StubPlaceholder(w.counter + |vs|))
  {
    var r := AddConditionInAsWritten(w, fieldName, vs);
    GenerateQueryAppend(w, r, prettyPrint, false);
    assert fieldName + " " + "IN" + " " + StubPlaceholder(w.counter + |vs|) == fieldName + " IN " + StubPlaceholder(w.counter + |vs|);
  }

  /** Connectors and group delimiters render literally, glued to their neighbours. */
  lemma ConnectorsRenderLiterally<V, Q>(w: WhereStatement<V, Q>, prettyPrint: bool)
    ensures GenerateQuery(And(w), prettyPrint, false) == GenerateQuery(w, prettyPrint, false) + "AND"
    ensures GenerateQuery(Or(w), prettyPrint, false) == GenerateQuery(w, prettyPrint, false) + "OR"
    ensures GenerateQuery(OpenGroup(w), prettyPrint, false) == GenerateQuery(w, prettyPrint, false) + OpenParen
    ensures GenerateQuery(CloseGroup(w), prettyPrint, false) == GenerateQuery(w, prettyPrint, false) + CloseParen
  {
    GenerateQueryAppend(w, And(w), prettyPrint, false);
    GenerateQueryAppend(w, Or(w), prettyPrint, false);
    GenerateQueryAppend(w, OpenGroup(w), prettyPrint, false);
    GenerateQueryAppend(w, CloseGroup(w), prettyPrint, false);
  }
}

=== FILE: wrappers.dfy ===
/** Failure-compatible result types shared by the builder modules. */
module Wrappers {

  /** An optional value; the source's `Option<T>`. */
  datatype Option<+T> = None | Some(value: T)

  /** Either a value or an error; stands where the source panics. */
  datatype Result<+T, +E> = Success(value: T) | Failure(error: E)
}
